=== FILE: README.md ===
# Business credit: a Dafny model of the session, the forms, the API views and the lists

The system is a business-credit platform. Suppliers record the dues their
retailers owe, retailers pay them, and fintech lenders assess retailers'
credit. It has a React front end and a Django back end. This project
models the part of it whose behaviour can be stated exactly and proves
what that behaviour guarantees:

- **Session** (`session.dfy`, `routes.dfy`). `AuthProvider` is modelled as
  a state record: stored token, user, error, loading flag, the shared
  `Authorization` header and the location. Its actions are the startup
  check, login, register, logout and the role redirect. The module also
  covers the CSRF cookie extraction and the 401 redirect of the HTTP
  interceptors, and the `PrivateRoute` guard with the route table.
- **Forms** (`validators.dfy`, `forms.dfy`, `pages.dfy`, `messages.dfy`).
  Each pattern is an explicit per-position character-class predicate:
  GSTIN, PAN, IFSC, phone and the simplified e-mail shape. Each form's
  rules are a record of per-field error messages. The submit handlers of
  the login, registration and fintech registration pages are modelled too.
- **API views** (`domain.dfy`, `views.py` in `views.dfy`). The database
  is a value holding accounts, profiles, dues and transactions. Each view
  is a function from the database and the request to the new database and
  the response. This covers registration, login, retailer details with
  the payment-history grade, due listing, creation, details and payment.
- **Lists** (`lists.dfy`, `search.dfy`). These are the filters, sorts and
  totals of the dues, payments, reminders, retailers, assessments and
  transaction lists, plus the two retailer searches and their
  three-character gate.
- **Data hooks** (`hooks.dfy`). The load, refresh and error transitions
  of the dashboard, dues and retailers hooks.

Server answers, database-assigned ids, the current time, the cookie
string and serializer verdicts are all parameters. Dates are integers:
milliseconds on the client, plain integers on the server. JavaScript's
`Array.prototype.sort` is stable, so it is modelled by a stable insertion
sort (`Sorting.SortBy`). A comparator that answers 0 then leaves the
order unchanged.

## Model

| member | source | states |
|---|---|---|
| Domain.ParseRole | backend/core/models.py:6-10 | a stored user type is a role exactly when it is one of the three declared choices, and the role's name reads back as the same string |
| Domain.RoleNameRoundTrip | backend/core/models.py:6-10 | every role survives being written as its `user_type` string and read back |
| Domain.ParseDueStatus | backend/core/models.py:126-130 | only pending, paid and overdue are due statuses, and each parses back to its own name |
| Domain.DueStatusNameRoundTrip | backend/core/models.py:126-130 | every due status survives the trip through its stored name |
| Domain.ParseAssessmentStatus | backend/core/models.py:78-82 | only pending, approved and rejected are assessment statuses |
| Domain.ParseTransactionStatus | backend/core/models.py:96-100 | only pending, completed and failed are transaction statuses |
| Domain.FreshRowsStartPending | backend/core/models.py:24-35 | a new due, assessment and transaction start pending; a new retailer profile has a rented shop, zero credit limit and available credit, one employee and zero years |
| Domain.DefaultOrder | backend/core/models.py:134-135 | the default due ordering is a permutation that puts later-created dues first |
| Common.Split | src/services/api.ts:16 | `split` returns at least one piece, the pieces rejoined with the separator give the input back, and no piece contains the separator |
| Common.TrimEmptyIffAllSpace | src/components/dashboard/RetailerSearch.tsx:45 | `!query.trim()` holds exactly when every character is JavaScript white space |
| Common.Filter | src/components/dashboard/DuesList.tsx:25 | `filter` keeps, in their order, exactly the elements that pass, each as often as in the input |
| Common.LexLeTotal | src/components/dashboard/DuesList.tsx:39 | the code-unit order used for `localeCompare` relates any two strings one way or the other |
| Common.LexLeTransitive | src/components/dashboard/RetailersList.tsx:28 | the code-unit order is transitive, so sorting by name is well defined |
| Common.LexLeAntisymmetric | src/components/dashboard/RetailersList.tsx:28 | two names ordered both ways are equal |
| Common.SumOfPermutation | src/components/dashboard/DuesList.tsx:45-47 | a reduce-sum does not depend on the order of the summed list |
| Sorting.SortBy | src/components/dashboard/DuesList.tsx:32-43 | the sorted list is a permutation of the input, ordered by the comparator |
| Sorting.SortByAllTiedIsIdentity | src/components/dashboard/DuesList.tsx:40-41 | a comparator that always answers 0 leaves the list exactly as it was |
| Sorting.SortByStable | src/components/dashboard/DuePayments.tsx:35-39 | elements the comparator ties keep their input order |
| Validators.GstinPositions | src/pages/RegisterPage.tsx:197-203 | a GSTIN is accepted iff it has 15 characters: 2 digits, 5 capitals, 4 digits, a capital, 1-9 or a capital, a literal Z, and a digit or capital |
| Validators.PanPositions | src/components/retailer/CreditAssessmentForm.tsx:209-214 | a PAN is accepted iff it has 10 characters: 5 capitals, 4 digits and a capital |
| Validators.IfscPositions | src/components/retailer/CreditAssessmentForm.tsx:239-245 | an IFSC is accepted iff it has 11 characters: a 4-capital bank code, a 0, and a 6-character capital-or-digit branch code |
| Validators.GstinEmbedsPan | src/components/retailer/CreditAssessmentForm.tsx:191-214 | characters three to twelve of any accepted GSTIN are an accepted PAN |
| Validators.GstinExamples | src/components/retailer/CreditAssessmentForm.tsx:191-197 | the pattern does not check the GSTIN check digit, refuses a 0 in position 13, lower case and a short input |
| Validators.IdentifierExamples | src/pages/RegisterPage.tsx:171-177 | sample phone numbers, PANs and IFSCs are accepted or refused as the patterns say |
| Validators.EmailSplitUnique | src/pages/RegisterPage.tsx:145-151 | when the e-mail pattern matches, the positions of its `@` and of its last dot are determined |
| Validators.EmailMatchHasSingleAt | src/pages/RegisterPage.tsx:145-151 | an accepted e-mail has exactly one `@` |
| Validators.EmailExamples | src/pages/RegisterPage.tsx:145-151 | ordinary addresses such as `a@b.co` are accepted |
| Validators.EmailCounterExamples | src/pages/RegisterPage.tsx:145-151 | a one-letter top-level domain, an empty local part and an empty domain label are refused |
| Validators.Utf16Length | src/pages/RegisterPage.tsx:244-250 | `length` counts UTF-16 code units: between one and two per character |
| Validators.Utf16LengthOfBmp | src/pages/RegisterPage.tsx:244-250 | for text inside the Basic Multilingual Plane the length is the character count |
| Validators.PasswordLengthBounds | src/pages/RegisterPage.tsx:244-250 | eight characters always pass `minLength: 8` and fewer than four never do |
| Forms.RequiredError | src/pages/RegisterPage.tsx:125 | `required` reports its message exactly for an empty value |
| Forms.PatternError | src/pages/RegisterPage.tsx:171-177 | a pattern field has no error exactly when the pattern matches; an empty value reports the `required` message, anything else the pattern message |
| Forms.MinError | src/pages/FintechRegistration.tsx:218-223 | a number field has no error exactly when a value is present and at least the bound |
| Forms.PasswordError | src/pages/RegisterPage.tsx:244-250 | the password has no error exactly when it is at least 8 code units long |
| Forms.ConfirmError | src/pages/RegisterPage.tsx:270-274 | the confirmation passes exactly when it is non-empty and equal to the password; otherwise it reports 'Passwords do not match' |
| Forms.EmptyNeverMatches | src/pages/RegisterPage.tsx:145-203 | no pattern accepts the empty string, so an empty pattern field always reports `required` |
| Forms.DefaultRegisterForm | src/pages/RegisterPage.tsx:26-37 | the form starts with user type retailer, one of the offered options |
| Forms.RegisterFormErrors | src/pages/RegisterPage.tsx:104-274 | each registration field errs exactly when its rule fails, and the form passes iff every rule holds |
| Forms.DefaultRegisterFormRefused | src/pages/RegisterPage.tsx:26-37 | the default values cannot be submitted, although the user type is already valid |
| Forms.InterestRateError | src/pages/FintechRegistration.tsx:240-249 | the interest rate passes exactly when present and within [0, 100] |
| Forms.FintechFormErrors | src/pages/FintechRegistration.tsx:89-302 | each fintech field errs exactly when its rule fails, including credit limit of at least 100000 |
| Forms.ShopOwnershipError | src/components/retailer/CreditAssessmentForm.tsx:140-149 | shop ownership errs exactly when no option is chosen |
| Forms.RentError | src/components/retailer/CreditAssessmentForm.tsx:160-170 | monthly rent is required (and at least 0) only when the shop is rented |
| Forms.LoanRequiredError | src/components/retailer/CreditAssessmentForm.tsx:374-412 | a loan input errs only when the existing-loans box is ticked and it is empty |
| Forms.AssessmentFormErrors | src/components/retailer/CreditAssessmentForm.tsx:73-412 | each assessment field errs exactly when its rule fails: years and turnover at least 0, at least one employee, the three identifier patterns, rent only for a rented shop, loan fields only with existing loans |
| Forms.AssessmentHiddenInputsIgnored | src/components/retailer/CreditAssessmentForm.tsx:160-412 | for an owned shop without loans, whatever the hidden rent and loan inputs hold does not change any error |
| Forms.ChooseFile | src/components/retailer/CreditAssessmentForm.tsx:55-58 | choosing files sets the field's slot to the first file or null and keeps every other slot |
| Forms.DefaultProfilePassesFormBounds | backend/core/models.py:24-35 | the model's default years, turnover and employee count pass the form's bounds |
| Forms.ModalFormErrors | src/components/modals/CreditAssessmentModal.tsx:24-131 | a closed modal validates nothing; an open one errs per field exactly when its rule fails, turnover needing at least 100000 |
| Forms.ModalBusinessTypeIsListed | src/components/modals/CreditAssessmentModal.tsx:102-110 | a business type that passes `required` is one of the four listed values |
| Forms.ModalTurnoverStricter | src/components/modals/CreditAssessmentModal.tsx:65-71 | every turnover the modal accepts the full form accepts, but not conversely |
| Session.Initial | src/context/AuthContext.tsx:24-26 | the provider starts with no user, no error and loading |
| Session.Intercept | src/services/api.ts:27-35 | a 401 reloads the application at /login, keeping only the stored token and resetting user, error, loading and the header to the first render; any other error changes nothing |
| Session.CsrfRow | src/services/api.ts:15-17 | the chosen cookie row is the first `; `-separated row starting with `csrftoken=`, and there is none exactly when no row starts so |
| Session.CsrfToken | src/services/api.ts:14-23 | the header value is present exactly when the chosen row has text before its next `=`, and is then the longest `=`-free prefix of the value |
| Session.CsrfRowValue | src/services/api.ts:18 | `split('=')[1]` of the row is the row's value cut at its first `=` |
| Session.CsrfSingleRow | src/services/api.ts:14-23 | a cookie holding only the CSRF row sends its whole `=`-free value |
| Session.CsrfValueTruncated | src/services/api.ts:18 | a CSRF value containing `=` is sent cut at its first `=` |
| Session.DashboardPath | src/context/AuthContext.tsx:52-66 | the three roles go to `/{role}/dashboard` and any other value goes to `/` |
| Session.DashboardPathInjective | src/context/AuthContext.tsx:52-66 | distinct roles are sent to distinct dashboards |
| Session.BearerHeader | src/services/api/auth.ts:35 | the header is `Bearer ` followed by the token |
| Session.CheckAuth | src/context/AuthContext.tsx:33-50 | without a non-empty stored token nothing but loading changes; a profile with a user sets it and redirects; any failure drops the token and the user; a 401 also reloads into a settled, token-less state at /login; loading ends false |
| Session.SignIn | src/context/AuthContext.tsx:90-118 | a reply with a user stores the token or '', sets the user, the bearer header and the dashboard location; a reply without one changes only loading; a failure reports the server's `error` or the fallback and rethrows; a non-401 failure keeps the session, a 401 leaves the reloaded first render at /login with the stored token kept |
| Session.Login | src/context/AuthContext.tsx:104-122 | a failed login rethrows the server's error or 'Invalid credentials' and keeps the token; it keeps the user unless the answer was 401, after which there is no user and the location is /login |
| Session.RegisterRequest | src/context/AuthContext.tsx:74-88 | a request is sent exactly when the business name is non-empty, carrying the data unchanged |
| Session.Register | src/context/AuthContext.tsx:68-102 | without a business name register ends with 'Registration failed' and no request; otherwise it signs in like login with that fallback |
| Session.RegisterGuardNeverCallsServer | src/context/AuthContext.tsx:74-98 | without a business name the server's answer is irrelevant and the local message is replaced |
| Session.Logout | src/context/AuthContext.tsx:124-133 | only a successful server logout drops the user, the token and the header and goes to /login; a non-401 failure changes nothing; a 401 failure reloads, dropping the user and the header but keeping the token |
| Session.LogoutIdempotent | src/context/AuthContext.tsx:124-133 | logging out twice is logging out once |
| Session.FailedLoginKeepsSession | src/context/AuthContext.tsx:115-121 | a failed login keeps the token; a non-401 failure also keeps user and header and ends loading, a 401 drops user and header and leaves the reloaded provider loading |
| Session.TokenlessLoginDoesNotSurviveReload | src/context/AuthContext.tsx:35-39 | a login answered without a token stores '', which the next startup check treats as no token |
| Session.UnauthorizedReloads | src/services/api.ts:29-33 | a 401 drops the user, the error and the header, restarts loading at /login and keeps only the stored token |
| Session.ReloadedSessionHasNoHeader | src/context/AuthContext.tsx:33-50 | after a 401 reload the startup check never restores the `Authorization` header, whatever the profile answer |
| Routes.PrivateRoute | src/App.tsx:13-29 | spinner exactly while loading; then /login exactly when there is no user or its role is not allowed; otherwise the screen |
| Routes.PublicRoute | src/App.tsx:36-39 | a logged-in user is sent to `/{user_type}/dashboard`, anyone else sees the public screen |
| Routes.Resolve | src/App.tsx:34-69 | each of the four public paths gives its public screen and each dashboard path its guarded dashboard for exactly its role, matching paths without regard to ASCII case and with trailing slashes allowed; every other path redirects to `/`, and only those do |
| Routes.MatchesOnlyOne | src/App.tsx:35-68 | no path matches two of the declared route paths, so the order of the routes does not matter |
| Routes.RouteMatchingExamples | src/App.tsx:36-39 | `/Login/` is the login screen, `//` the landing screen, and `/login/x` falls through to the redirect |
| Routes.DashboardAdmitsOneRole | src/App.tsx:42-65 | a loaded user sees a dashboard exactly when it has that dashboard's role |
| Routes.LoggedInUserReachesOwnDashboard | src/App.tsx:36-68 | from any path a loaded user with a role ends on that role's dashboard within three redirects |
| Routes.LoggedOutUserReachesPublicScreen | src/App.tsx:36-68 | without a user every path ends on a public screen within two redirects |
| Routes.LoadingNeverRedirectsFromDashboards | src/App.tsx:16-22 | while loading, a dashboard path shows the spinner whatever the user |
| Routes.UnauthorizedShowsLogin | src/services/api.ts:29-33 | after a 401 the reloaded application shows the login screen rather than sending a user to a dashboard |
| Pages.LoginSubmit | src/pages/LoginPage.tsx:14-37 | an empty e-mail or password sets 'Email and password are required' and never calls login; otherwise login runs and loading ends false; a non-401 failure shows the previous context error or 'Invalid credentials' and keeps the fields; a 401 leaves the freshly rendered page |
| Pages.LoginPageShowsPreviousError | src/pages/LoginPage.tsx:32-33 | after a first non-401 failure the page shows 'Invalid credentials' while the session holds the server's message; after a 401 neither shows anything |
| Pages.RegistrationData | src/pages/RegisterPage.tsx:50-60 | the payload carries every form field under the server's names, and not the confirmation |
| Pages.RegisterSubmit | src/pages/RegisterPage.tsx:42-68 | mismatched passwords show 'Passwords do not match' without a request; otherwise register runs and its rethrown message is shown, unless the request got a 401, which reloads at /login and leaves no message |
| Pages.ValidRegisterFormIsSent | src/pages/RegisterPage.tsx:42-63 | once submitted, a form without errors reaches the server with exactly its fields, and a failure shows the session's error |
| Pages.FintechPayload | src/pages/FintechRegistration.tsx:43-46 | the payload is the form plus `user_type: 'fintech'` |
| Pages.FintechSubmitAsWritten | src/pages/FintechRegistration.tsx:33-54 | as written, no request is ever made; matching passwords end with 'Registration failed', and loading ends false |
| Pages.FintechRegistrationNeverSucceeds | src/pages/FintechRegistration.tsx:43-50 | every valid fintech form ends in 'Registration failed' with no request and no navigation |
| Pages.FintechSubmit | src/pages/FintechRegistration.tsx:33-54 | with an existing registration call, the payload is sent, success goes to /login, a non-401 failure shows the server `message` or 'Registration failed', a 401 reloads at /login with no message, and loading ends false |
| Pages.FintechSubmitSendsValidForms | src/pages/FintechRegistration.tsx:38-48 | once submitted, the corrected handler sends every valid form, the handler as written none |
| Views.ProfileOf | backend/core/views.py:228 | the caller's profile is the first profile of that user, and there is none exactly when no profile belongs to the user |
| Views.RetailerProfileById | backend/core/views.py:229 | the looked-up profile has the id and the retailer type, and there is none exactly when no such profile exists |
| Views.DueIndex | backend/core/views.py:321 | the due found has the requested id, and none is found exactly when no due has it |
| Views.RegisterWith | backend/core/views.py:22-66 | a type other than retailer or supplier gives 400 'Invalid user type'; 201 exactly for a whitelisted type, a non-empty unused e-mail, a first name that is absent or a string (not `null`) and a business name that is a string; the new account has the e-mail as typed for its username and normalised as its e-mail, and the first name sent or '' when absent; the profile holds the request's fields, and the answer carries the normalised e-mail; any refusal leaves the database unchanged |
| Views.NullFirstNameRefused | backend/core/views.py:32-37 | a `firstName` sent as `null` is refused with 400 and stores nothing |
| Views.FirstNameStored | backend/core/views.py:36 | an absent `firstName` is stored as '', one sent as a string is stored as sent |
| Views.LastAt | backend/core/views.py:32-34 | the position of the last `@`, with none after it, and nothing exactly when there is no `@` |
| Views.NormalizeEmail | backend/core/views.py:32-34 | `create_user` stores the e-mail stripped of Python white space with everything after its last `@` lower-cased; an e-mail without `@` is stored as given |
| Views.NormalizedEmailKept | backend/core/views.py:32-34 | a stripped e-mail with a lower-case domain is stored exactly as typed |
| Views.NormalizeEmailChangesUpperDomain | backend/core/views.py:32-34 | a stripped e-mail with an upper-case letter in its domain is not stored as typed |
| Views.NormalizeEmailWithoutAt | backend/core/views.py:32-34 | an e-mail without `@` is stored exactly as typed, white space included |
| Views.NormalizeEmailIdempotent | backend/core/views.py:32-34 | normalising a stored e-mail again changes nothing |
| Views.ClientBody | src/context/AuthContext.tsx:78-88 | the client posts `business_name` and `gst_number`, never `businessName` or `gstNumber` |
| Views.ClientRegistrationRefused | backend/core/views.py:40-66 | against the view as written, every registration the client sends gets 400 and stores nothing |
| Views.ClientRegistrationAccepted | backend/core/views.py:22-59 | against the corrected view, a client registration succeeds exactly for a whitelisted type and a non-empty unused e-mail, and stores what was typed |
| Views.FintechRegistrationRefused | backend/core/views.py:24-28 | a fintech registration is refused with 400 'Invalid user type' and changes nothing |
| Views.RegisterKeepsUsernamesUnique | backend/core/views.py:32-37 | registration preserves the uniqueness of usernames |
| Views.AccountsWithEmail | backend/core/views.py:75 | the accounts the lookup finds are exactly those whose e-mail equals the one given |
| Views.LoginView | backend/core/views.py:70-92 | no account with the e-mail gives 400 'Invalid credentials'; several give 500; for exactly one, a wrong password gives 400, a right one without a profile 500, and a right one with a profile 200 with the account's id and e-mail and the profile's type and business name; 200 only for an account with the e-mail and password |
| Views.RegisterThenLogin | backend/core/views.py:32-86 | a fresh registration can log in at once with the stored e-mail and the password and gets the same user back |
| Views.RegisterThenLoginAsTyped | backend/core/views.py:32-86 | when normalisation leaves the e-mail unchanged, the e-mail as typed logs in |
| Views.RegisterThenLoginAsTypedFails | backend/core/views.py:70-77 | when normalisation changes the e-mail, logging in with the e-mail as typed gives 400 'Invalid credentials', whatever the password |
| Views.RatioAbove | backend/core/views.py:250-253 | comparing `paid / total` with `n / d` is the same as comparing `d * paid` with `n * total` |
| Views.Grade | backend/core/views.py:240-253 | no dues grades 'new'; otherwise excellent above 0.9, good above 0.7 up to 0.9, fair at most 0.7 |
| Views.GradeMonotone | backend/core/views.py:250-253 | more paid dues out of the same total never lower the grade |
| Views.PairDues | backend/core/views.py:235-238 | the pair's dues are, in order, exactly the dues between that supplier and that retailer |
| Views.OutstandingIsUnpaidTotal | backend/core/views.py:256-260 | the outstanding amount is the sum of the amounts of the dues that are not paid |
| Views.PaidCount | backend/core/views.py:244-248 | the paid count never exceeds the number of dues |
| Views.PairTransactionsNewestFirst | backend/core/views.py:263-266 | exactly the pair's transactions, newest first |
| Views.RecentTransactions | backend/core/views.py:263-266 | at most five of the pair's transactions, newest first; a pair transaction is left out only when five are shown and each is at least as new |
| Views.DetailsOf | backend/core/views.py:268-278 | the details carry the retailer's fields, the pair's due count, paid count, grade, unpaid total and recent transactions |
| Views.RetailerDetailsView | backend/core/views.py:227-280 | 404 without a caller profile or a retailer; then 403 exactly for a non-supplier caller; 200 with the details exactly for a supplier |
| Views.RetailerDetailsOnlyForSuppliers | backend/core/views.py:231-232 | a non-supplier never receives retailer details, and gets 403 exactly when the retailer exists |
| Views.DuesWhere | backend/core/views.py:288-292 | the listed dues are exactly the ones on the caller's side, each as often as stored, newest first |
| Views.GetDues | backend/core/views.py:284-296 | a supplier gets the dues it gave, a retailer those it received, any other role 400 'Invalid user type' |
| Views.GetDuesListsExactlyOwnDues | backend/core/views.py:287-296 | a due is listed iff it is stored and the caller is on its side |
| Views.DueDetailsOnlyForParties | backend/core/views.py:319-327 | with unique due ids, a stored due opened by its id is shown exactly to its supplier or its retailer; other callers get 403 'Not authorized', callers without a profile 404 |
| Views.ListedDueOpens | backend/core/views.py:319-327 | every due `get_dues` lists for a caller opens for that caller in `get_due_details` |
| Views.CreateDue | backend/core/views.py:300-315 | non-suppliers get 400 'Only suppliers can create dues'; 201 exactly for a supplier with a valid request, appending a due whose supplier is the caller and whose status is the given one or pending; otherwise nothing changes |
| Views.CreateDueIgnoresClaimedSupplier | backend/core/views.py:306-309 | the supplier the client claims makes no difference |
| Views.DueDetails | backend/core/views.py:319-327 | 404 for a missing caller or due; 200 with the due exactly for its supplier or retailer; otherwise 403 |
| Views.MakePayment | backend/core/views.py:331-348 | 403 exactly when the caller is not the due's retailer; 201 exactly for that retailer with a valid payment, which marks that due paid and changes no other row; anything but 201 changes nothing |
| Views.MakePaymentIdempotent | backend/core/views.py:343-346 | paying an already paid due again changes nothing further |
| Views.PaymentLowersOutstanding | backend/core/views.py:343-346 | a payment lowers the total owed by the due's amount if it was unpaid, by nothing otherwise |
| Lists.StatusOrderIsRankOrder | src/components/dashboard/DuesList.tsx:39 | sorting by status name puts overdue before paid before pending |
| Lists.StatusNotAfterIsPreorder | src/components/dashboard/DuesList.tsx:39 | the status comparator is total and transitive |
| Lists.FilteredDues | src/components/dashboard/DuesList.tsx:25-43 | the shown dues are exactly those passing the status filter and the search, each as often as in the input; ordered ascending by due date, descending by amount or by status rank; any other key keeps the filtered order |
| Lists.SortDues | src/components/dashboard/DuesList.tsx:32-43 | the sort step is a permutation, ordered by the chosen key, and the identity for an unknown key |
| Lists.TotalDueIgnoresOrder | src/components/dashboard/DuesList.tsx:45-47 | the total is the unpaid sum over the filtered dues, whatever the sort |
| Lists.SumOfPaidIsZero | src/components/dashboard/DuesList.tsx:45-47 | paid dues add nothing to the total |
| Lists.PaidFilterTotalsZero | src/components/dashboard/DuesList.tsx:26 | filtering to paid dues gives a total of 0 |
| Lists.UnfilteredDuesShowEverything | src/components/dashboard/DuesList.tsx:26-30 | filter 'all' with an empty search shows every due |
| Lists.SortedPayments | src/components/dashboard/DuePayments.tsx:35-39 | a permutation in which every overdue payment precedes every other, and payments of the same group are ordered by due date |
| Lists.DuePaymentsView | src/components/dashboard/DuePayments.tsx:12-110 | a skeleton exactly while loading; otherwise one row per payment in sorted order, 'Pay Now' exactly on unpaid rows, 'No due payments' exactly for an empty list |
| Lists.PaymentsAllListed | src/components/dashboard/DuePayments.tsx:35 | every payment is listed and nothing else |
| Lists.OverdueEntries | src/components/dashboard/PaymentReminder.tsx:21-24 | in order, exactly the dues that are overdue or pending past their due date; never a paid one |
| Lists.ReminderPanel | src/components/dashboard/PaymentReminder.tsx:53 | nothing is rendered exactly when no due needs a reminder |
| Lists.StartReminder | src/components/dashboard/PaymentReminder.tsx:28 | starting a reminder adds its id and keeps every other id |
| Lists.FinishReminder | src/components/dashboard/PaymentReminder.tsx:35 | finishing removes that id and keeps every other, in order |
| Lists.ReminderRoundTrip | src/components/dashboard/PaymentReminder.tsx:26-37 | a single reminder leaves the sending set as it found it |
| Lists.StartBulk | src/components/dashboard/PaymentReminder.tsx:41-42 | a bulk send marks the id of every listed due as sending |
| Lists.BulkSendDisablesEveryButton | src/components/dashboard/PaymentReminder.tsx:39-65 | during a bulk send every button is disabled, afterwards none |
| Lists.SingleSendDisablesOnlyItsRow | src/components/dashboard/PaymentReminder.tsx:65-96 | a single send disables its row and the bulk button and no other row |
| Lists.NameNotAfterIsPreorder | src/components/dashboard/RetailersList.tsx:28 | the name comparator is total and transitive |
| Lists.FilteredRetailers | src/components/dashboard/RetailersList.tsx:21-31 | the filter throws exactly when some retailer's name misses the query and its phone is `null`; otherwise exactly the retailers whose name contains the query ignoring case or whose phone contains it, sorted by the code-unit order of the name for 'name', in input order otherwise |
| Lists.EmptyQueryNeverThrows | src/components/dashboard/RetailersList.tsx:22-25 | with an empty query no phone is read, so the list renders whatever the phones |
| Lists.NullPhoneBreaksSearch | src/components/dashboard/RetailersList.tsx:22-25 | a retailer with a `null` phone whose name misses the query makes the filter throw, even when others match |
| Lists.NoRetailersFoundIffNoneMatch | src/components/dashboard/RetailersList.tsx:85 | when the list renders, 'No retailers found' shows exactly when no retailer matches |
| Lists.FilteredAssessments | src/components/fintech/RetailerAssessmentList.tsx:37-43 | in order, exactly the rows whose name contains the query ignoring case and whose status passes the filter |
| Lists.UnfilteredAssessmentsUnchanged | src/components/fintech/RetailerAssessmentList.tsx:37-43 | an empty query with filter 'all' returns the list unchanged |
| Lists.NoAssessmentsIffNoneShown | src/components/fintech/RetailerAssessmentList.tsx:129 | the empty-state message shows exactly when no row passes |
| Lists.FilteredTransactions | src/components/dashboard/TransactionHistory.tsx:25-48 | in order, exactly the searched transactions that fall on today's date, within 7 days, within a month, or any date for other filters |
| Lists.TodayWithinWeek | src/components/dashboard/TransactionHistory.tsx:37-41 | everything shown for 'today' is shown for 'week' |
| Lists.WeekWithinMonth | src/components/dashboard/TransactionHistory.tsx:39-44 | everything shown for 'week' is shown for 'month' |
| Search.InitialSearch | src/components/dashboard/RetailerSearch.tsx:20-24 | the search starts empty, idle and without error |
| Search.LoadRecent | src/components/dashboard/RetailerSearch.tsx:31-38 | loaded recent retailers replace the list; a failure changes nothing |
| Search.HandleSearch | src/components/dashboard/RetailerSearch.tsx:40-64 | the query is stored and the error cleared; a blank query shows the recent retailers; a short one keeps the results; a request is sent exactly for a non-blank query of 3 or more code units; success replaces the results, failure empties them with 'Failed to search retailers. Please try again.'; loading ends false |
| Search.WhiteSpaceNeverSearched | src/components/dashboard/RetailerSearch.tsx:45-48 | a query of white space only, however long, is never sent |
| Search.ShorteningKeepsStaleResults | src/components/dashboard/RetailerSearch.tsx:50-52 | deleting a character below the threshold keeps the previous results |
| Search.SearchPanel | src/components/dashboard/RetailerSearch.tsx:106-209 | the panel shows, in order of precedence, the spinner exactly while loading, the error when there is one, the results whenever there are some, 'No retailers found' exactly for an empty result of a query of 3 or more code units, and otherwise the recent list when it is non-empty or the prompt |
| Search.FailedSearchShowsError | src/components/dashboard/RetailerSearch.tsx:57-60 | after a failed search the panel shows the failure message |
| Search.HistoryColor | src/components/dashboard/RetailerSearch.tsx:66-77 | excellent is green, good blue, fair yellow, anything else gray |
| Search.HistoryColorsOfGrades | src/components/dashboard/RetailerSearch.tsx:66-77 | of the grades the server sends, only 'new' is gray, and distinct grades get distinct colours |
| Search.OnOpenChange | src/components/modals/RetailerSelectModal.tsx:16-21 | opening the modal clears the query and the results; closing changes nothing |
| Search.ModalSearch | src/components/modals/RetailerSelectModal.tsx:23-40 | a query under 3 code units clears the results without a request; otherwise the results are the answer, or empty on failure, and loading ends false |
| Search.ModalView | src/components/modals/RetailerSelectModal.tsx:42-107 | nothing renders while closed; 'No retailers found' shows exactly for a long-enough query with no results and nothing loading |
| Search.OpenedModalIsEmpty | src/components/modals/RetailerSelectModal.tsx:16-21 | right after opening the modal shows neither rows nor the empty message |
| Search.ModalFailureLooksLikeNoMatch | src/components/modals/RetailerSelectModal.tsx:30-39 | a failed search is indistinguishable from an empty answer |
| Search.ModalDiffersFromDashboardSearch | src/components/modals/RetailerSelectModal.tsx:23-28 | unlike the dashboard search, the modal empties its list for a short query and sends a query of three spaces |
| Hooks.Initial | src/hooks/useDuesList.ts:6-8 | a hook starts with its initial value, loading and no error |
| Hooks.Begin | src/hooks/useDashboardData.ts:13-14 | a load first sets loading and clears the error, keeping the data |
| Hooks.Settle | src/hooks/useDashboardData.ts:15-22 | success replaces the data; failure keeps it and records the message or the fallback; loading ends false |
| Hooks.Load | src/hooks/useDashboardData.ts:11-23 | after a load the error is absent exactly when it succeeded; success replaces the data, failure keeps it |
| Hooks.LoadForgetsThePast | src/hooks/useDashboardData.ts:11-23 | the error after a load never depends on the earlier state, and after a success nothing does |
| Hooks.LoadIdempotent | src/hooks/useDashboardData.ts:11-23 | loading again with the same answer changes nothing |
| Hooks.LoadAll | src/hooks/useDuesList.ts:11-23 | a run of loads ends not loading |
| Hooks.LoadAllShowsLastValue | src/hooks/useDuesList.ts:15-18 | after any run of loads the data is that of the last success, or the initial data, and the error is present exactly when the last load failed |
| Hooks.LoadAllSnoc | src/hooks/useDuesList.ts:41-43 | one more refresh after a run is a run one longer |
| Hooks.FailuresKeepLastSuccess | src/hooks/useRetailersList.ts:15-18 | failures after a success never blank the data it loaded |
| Hooks.Fallback | src/hooks/useRetailersList.ts:18 | each hook has its own fallback message: dashboard data, dues or retailers |
| Hooks.Refresh | src/hooks/useDashboardData.ts:46-48 | a refresh is one load: success gives the answer with no error, failure keeps the data with the message or the hook's fallback |
| Hooks.InitialStats | src/hooks/useDashboardData.ts:6-8 | the dashboard hook starts with no stats, loading and no error |
| Hooks.InitialList | src/hooks/useRetailersList.ts:6-8 | the list hooks start with an empty list, loading and no error |
| Hooks.FirstDashboardFailure | src/hooks/useDashboardData.ts:17-18 | a first load failing without a message leaves no stats and 'Failed to load dashboard data' |

## Left out

- JSX layout, styling, icons and charts are not modelled. Only the decisions that choose what is shown are.
- HTTP transport, axios and the API wrappers other than the header and cookie logic are left out. Their answers are `Reply` parameters.
- The Django ORM aggregates of the dashboard statistics and analytics views are not modelled. Neither are the search and recent-retailer views, logout and the websocket consumers.
- The listener wiring inside the hooks, the websocket stub and the connection-status polling are not modelled.
- Credit-utilisation percentages and growth rates are floating point and are left out.
- `localStorage`, `document.cookie`, `window.location` and the clock are fields or parameters. The page load that assigning `window.location.href` starts is modelled as a return to the provider's first render with only `localStorage` kept.
- Session.SignIn: after a 401 the model stops at the reloaded provider's first render, with loading true. The startup check that follows needs the profile answer and is `Session.CheckAuth`.
- `console.error` logging is left out.
- Password hashing is not modelled: `check_password` is equality with the stored password, and an absent password is unusable.
- Django's username normalisation (Unicode NFKC), column length limits and the database-assigned ids and timestamps are not modelled; ids and times are parameters.
- Views.NormalizeEmail: Python's `lower()` is modelled for ASCII letters only.
- Routes.Resolve: React Router's percent-decoding of the path and a basename are not modelled; matching ignores ASCII case only, as the router's case-insensitive regular expression does.
- Serializer validation of due and payment requests is a boolean parameter. The payment row itself is not stored.
- The authentication layer that identifies the caller is not modelled: the caller's user id is a parameter.
- Overlapping asynchronous loads in the hooks are not modelled. Loads run one after another.
- Search.HandleSearch: overlapping searches are not modelled. Each search's answer is taken to arrive before the next keystroke, so a late answer that overwrites newer results and clears `isLoading` is not covered.
- Search.ModalSearch: overlapping searches are not modelled, for the same reason as in Search.HandleSearch.
- Hooks.Load: a 401 answer also reloads the whole application, as `Session.Intercept` models. The hook state computed for it is what the component sets before the page unloads; in the browser it is then lost.
- Search.HandleSearch: a 401 answer reloads the application at /login, as `Session.Intercept` models. The search state computed for it is lost with the page.
- Search.ModalSearch: a 401 answer reloads the application at /login. The modal state computed for it is lost with the page.
- Search.LoadRecent: a 401 answer reloads the application at /login. The kept recent list is lost with the page.
- Pages.LoginSubmit: the browser's own constraint validation (`type="email"` and `required`) is not modelled. The model treats every submit as reaching the handler, while a browser blocks an empty field or an address such as `abc` before the handler runs.
- Pages.ValidRegisterFormIsSent: the browser's `type="email"` validation is not modelled. An address the form's pattern accepts but the browser rejects, such as `a@b..co`, never reaches the handler.
- Pages.FintechSubmitSendsValidForms: the browser's `type="email"` and `step="0.01"` validation is not modelled. An address like `a@-b.co` or a credit limit like `5.555` is blocked by the browser before the handler runs.
- Common.SumOfPermutation: amounts are exact integers, in paise. The server stores two-decimal amounts exactly, but the client sums JavaScript floats, where order can change the rounding; that rounding is not modelled.
- Lists.TotalDueIgnoresOrder: the total is an exact integer sum. Float rounding in the client's `reduce` is not modelled, so the order-independence holds for the model, not bit for bit in the browser.
- The modal submit handlers that only forward to the API are left out, as are the static and mock pages and the dashboard pages' orchestration.
- Lists.NameNotAfterIsPreorder: `localeCompare` is modelled as code-unit order, not locale collation.
- Lists.FilteredRetailers: the 'name' sort uses code-unit order where the source uses `localeCompare`, so names differing in case can come out in another order (`ABC Traders` before `Abc Stores`, where locale collation puts them the other way round). When the filter throws, the model returns `None`; what React does after a render throws is not modelled.
- Views.RegisterWith: each JSON member of the request is `null` or a string. Numbers, booleans or objects sent in their place are not modelled.
- Lists.StatusNotAfterIsPreorder: `localeCompare` is modelled as code-unit order. On the three status names both orders agree.
- Common.Lower: `toLowerCase` is modelled for ASCII letters only.
- Lists.FilteredTransactions: the day test uses UTC days and a week is exactly seven times 24 hours. The source uses local dates, so time zones and daylight-saving shifts are not modelled; "one month ago" is a parameter.
- Views.RecentTransactions: among transactions created at the same instant, which ones the database returns is not fixed.
- Views.DuesWhere: among dues created at the same instant, the database order is not fixed.
- Views.Grade: the source divides floats and compares with 0.9 and 0.7. The model compares the exact ratio, which the binary floats agree with for all realistic counts.
- Validators.EmailSplitUnique: the proof needs no steps beyond its statement.
- Hooks.LoadAll: it only states that loading ends. What a run leaves behind is stated by Hooks.LoadAllShowsLastValue.

## Findings

| source | as written | input that shows it | evidently intended | confidence | as-written member | corrected member |
|---|---|---|---|---|---|---|
| src/pages/FintechRegistration.tsx:43 | calls `auth.registerFintech`, which the auth service does not define, so every submit throws a `TypeError` before any request and shows 'Registration failed' | any valid fintech form with matching passwords | post the payload with `user_type: 'fintech'`, go to /login on success and show the server's `message` on failure | not executed | Pages.FintechSubmitAsWritten | Pages.FintechSubmit |
| backend/core/views.py:43 | `register_user` reads `businessName` and `gstNumber`, while the client posts `business_name` and `gst_number`, so the business name is `None`, the NOT NULL column refuses the profile and the view answers 400 | any registration the client sends with a whitelisted type and a new e-mail | read `business_name` and `gst_number` | not executed | Views.ClientRegistrationRefused | Views.ClientRegistrationAccepted |

=== FILE: common.dfy ===
/**
 Shared vocabulary of the model: optional values, the shape of a failed
 HTTP call as the front end sees it, and the handful of JavaScript string
 and array operations the components rely on (`toLowerCase`, `includes`,
 `startsWith`, `split`, `trim`, `filter`, `reduce`), written over
 `seq<char>`.
 */
module Common {

  datatype Option<+T> = None | Some(value: T) {
    function GetOr(default: T): T {
      match this
      case Some(v) => v
      case None => default
    }
  }

  /** What a rejected axios promise carries. Absent JSON fields are modelled
      as the empty string: every caller reads them as `field || fallback`,
      for which `undefined` and `''` behave alike. `status` is `None` when no
      response arrived at all (network error, or an exception thrown before
      any request was made). */
  datatype HttpError = HttpError(
    status: Option<int>,
    bodyError: string,    // err.response.data.error
    bodyMessage: string,  // err.response.data.message
    message: string       // err.message
  )

  /** Outcome of one awaited server call. */
  datatype Reply<+T> = Ok(value: T) | Fail(err: HttpError)

  /** JavaScript `a || b` on strings: the empty string is falsy. */
  function OrElse(a: string, b: string): string {
    if a != "" then a else b
  }

  /** An exception raised in the browser before any request was sent:
      it has no `response`, so every `err.response?.data?.x` is undefined. */
  function LocalError(message: string): HttpError {
    HttpError(None, "", "", message)
  }

  // ---------------------------------------------------------------------
  // Strings

  /** `toLowerCase` restricted to ASCII letters. */
  function LowerChar(c: char): char {
    if 'A' <= c <= 'Z' then (c as int + 32) as char else c
  }

  function Lower(s: string): (r: string)
    ensures |r| == |s|
    ensures forall i :: 0 <= i < |s| ==> r[i] == LowerChar(s[i])
  {
    if |s| == 0 then [] else [LowerChar(s[0])] + Lower(s[1..])
  }

  predicate OccursAt(s: string, q: string, i: int) {
    0 <= i && i + |q| <= |s| && s[i..i + |q|] == q
  }

  /** `s.includes(q)`. */
  predicate Includes(s: string, q: string) {
    exists i | 0 <= i <= |s| - |q| :: OccursAt(s, q, i)
  }

  /** `s.toLowerCase().includes(q.toLowerCase())`. */
  predicate IncludesIgnoringCase(s: string, q: string) {
    Includes(Lower(s), Lower(q))
  }

  /** Code-unit order on strings. `localeCompare` agrees with it on the
      lower-case ASCII words it is applied to; on other text the
      locale's collation is not modelled. */
  predicate LexLe(a: string, b: string) {
    if |a| == 0 then true
    else if |b| == 0 then false
    else if a[0] != b[0] then a[0] < b[0]
    else LexLe(a[1..], b[1..])
  }

  lemma {:induction false} LexLeTotal(a: string, b: string)
    ensures LexLe(a, b) || LexLe(b, a)
  {
    if |a| > 0 && |b| > 0 && a[0] == b[0] {
      LexLeTotal(a[1..], b[1..]);
    }
  }

  lemma {:induction false} LexLeTransitive(a: string, b: string, c: string)
    requires LexLe(a, b) && LexLe(b, c)
    ensures LexLe(a, c)
  {
    if |a| > 0 && |b| > 0 && |c| > 0 && a[0] == b[0] && b[0] == c[0] {
      LexLeTransitive(a[1..], b[1..], c[1..]);
    }
  }

  lemma {:induction false} LexLeAntisymmetric(a: string, b: string)
    requires LexLe(a, b) && LexLe(b, a)
    ensures a == b
  {
    if |a| > 0 && |b| > 0 {
      LexLeAntisymmetric(a[1..], b[1..]);
      assert a == [a[0]] + a[1..] && b == [b[0]] + b[1..];
    }
  }

  /** `s.startsWith(p)`. */
  predicate StartsWith(s: string, p: string) {
    |p| <= |s| && s[..|p|] == p
  }

  lemma EmptyIncluded(s: string)
    ensures Includes(s, "")
    ensures IncludesIgnoringCase(s, "")
  {
    assert OccursAt(s, "", 0);
    assert OccursAt(Lower(s), Lower(""), 0);
  }

  /** A string that does not include the one-character string `[c]`
      has no `c` at any position. */
  lemma NoCharWhenNotIncluded(s: string, c: char)
    requires !Includes(s, [c])
    ensures forall i :: 0 <= i < |s| ==> s[i] != c
  {
    forall i | 0 <= i < |s| ensures s[i] != c {
      assert !OccursAt(s, [c], i);
      assert s[i..i + 1] == [s[i]];
    }
  }

  /** Position of the first occurrence of `sep` in `s` at or after `from`. */
  function IndexOfFrom(s: string, sep: string, from: nat): (r: Option<nat>)
    requires |sep| > 0
    ensures r.Some? ==> from <= r.value && OccursAt(s, sep, r.value)
    ensures r.Some? ==> forall k :: from <= k < r.value ==> !OccursAt(s, sep, k)
    ensures r.None? ==> forall k :: from <= k ==> !OccursAt(s, sep, k)
    decreases |s| - from
  {
    if from + |sep| > |s| then None
    else if s[from..from + |sep|] == sep then Some(from)
    else IndexOfFrom(s, sep, from + 1)
  }

  /** `s.split(sep)` for a non-empty separator: the pieces between the
      non-overlapping occurrences of `sep`, scanned left to right. */
  function Split(s: string, sep: string): (r: seq<string>)
    requires |sep| > 0
    ensures |r| >= 1
    ensures Join(r, sep) == s
    ensures forall k :: 0 <= k < |r| ==> !Includes(r[k], sep)
    decreases |s|
  {
    match IndexOfFrom(s, sep, 0)
    case None =>
      NoOccurrenceMeansNotIncluded(s, sep);
      [s]
    case Some(i) =>
      var head := s[..i];
      var rest := s[i + |sep|..];
      assert !Includes(head, sep) by {
        forall k | 0 <= k <= |head| - |sep|
          ensures !OccursAt(head, sep, k)
        {
          assert !OccursAt(s, sep, k);
          assert head[k..k + |sep|] == s[k..k + |sep|];
        }
      }
      var tail := Split(rest, sep);
      assert s == head + sep + rest by {
        assert s[i..i + |sep|] == sep;
        assert s == s[..i] + s[i..i + |sep|] + s[i + |sep|..];
      }
      [head] + tail
  }

  lemma NoOccurrenceMeansNotIncluded(s: string, sep: string)
    requires forall k :: 0 <= k ==> !OccursAt(s, sep, k)
    ensures !Includes(s, sep)
  {
  }

  /** When the first occurrence of `sep` is at `i`, the first piece is
      what precedes it and the rest is split on its own. */
  lemma SplitAtFirst(s: string, sep: string, i: nat)
    requires |sep| > 0
    requires OccursAt(s, sep, i)
    requires forall k :: 0 <= k < i ==> !OccursAt(s, sep, k)
    ensures Split(s, sep) == [s[..i]] + Split(s[i + |sep|..], sep)
  {
    assert IndexOfFrom(s, sep, 0) == Some(i);
  }

  /** The first piece of a split is the longest prefix free of `sep`:
      either it is the whole string or `sep` follows it. */
  lemma SplitHead(s: string, sep: string)
    requires |sep| > 0
    ensures StartsWith(s, Split(s, sep)[0])
    ensures !Includes(Split(s, sep)[0], sep)
    ensures |Split(s, sep)[0]| < |s| ==> OccursAt(s, sep, |Split(s, sep)[0]|)
  {
    var r := Split(s, sep);
    var h := r[0];
    if |r| == 1 {
      assert Join(r, sep) == h;
    } else {
      assert Join(r, sep) == h + sep + Join(r[1..], sep);
      assert s[..|h|] == h;
      assert s[|h|..|h| + |sep|] == sep;
    }
  }

  /** `pieces.join(sep)`: the inverse of `Split`. */
  function Join(pieces: seq<string>, sep: string): string {
    if |pieces| == 0 then ""
    else if |pieces| == 1 then pieces[0]
    else pieces[0] + sep + Join(pieces[1..], sep)
  }

  /** The JavaScript `WhiteSpace` and `LineTerminator` code points that
      `String.prototype.trim` removes. */
  predicate IsJsSpace(c: char) {
    c == ' ' || c == '\t' || c == '\n' || c == '\r' || c == '\U{000B}' || c == '\U{000C}'
    || c == '\U{00A0}' || c == '\U{1680}' || ('\U{2000}' <= c <= '\U{200A}')
    || c == '\U{2028}' || c == '\U{2029}' || c == '\U{202F}' || c == '\U{205F}'
    || c == '\U{3000}' || c == '\U{FEFF}'
  }

  /** How many leading characters `isSpace` accepts. */
  function LeadingSpaces(s: string, isSpace: char -> bool): (n: nat)
    ensures n <= |s|
    ensures forall i :: 0 <= i < n ==> isSpace(s[i])
    ensures n < |s| ==> !isSpace(s[n])
  {
    if |s| > 0 && isSpace(s[0]) then
      var n := 1 + LeadingSpaces(s[1..], isSpace);
      assert forall i :: 1 <= i < n ==> s[i] == s[1..][i - 1];
      n
    else 0
  }

  /** How many trailing characters `isSpace` accepts. */
  function TrailingSpaces(s: string, isSpace: char -> bool): (n: nat)
    ensures n <= |s|
    ensures forall i :: |s| - n <= i < |s| ==> isSpace(s[i])
    ensures n < |s| ==> !isSpace(s[|s| - n - 1])
  {
    if |s| > 0 && isSpace(s[|s| - 1]) then
      var n := 1 + TrailingSpaces(s[..|s| - 1], isSpace);
      assert forall i :: |s| - n <= i < |s| - 1 ==> s[i] == s[..|s| - 1][i];
      n
    else 0
  }

  /** Drops the leading characters `isSpace` accepts. */
  function StripStart(s: string, isSpace: char -> bool): (r: string)
    ensures |r| <= |s| && r == s[|s| - |r|..]
    ensures |r| > 0 ==> !isSpace(r[0])
    ensures forall i :: 0 <= i < |s| - |r| ==> isSpace(s[i])
  {
    s[LeadingSpaces(s, isSpace)..]
  }

  /** Drops the trailing characters `isSpace` accepts. */
  function StripEnd(s: string, isSpace: char -> bool): (r: string)
    ensures |r| <= |s| && r == s[..|r|]
    ensures |r| > 0 ==> !isSpace(r[|r| - 1])
    ensures forall i :: |r| <= i < |s| ==> isSpace(s[i])
  {
    s[..|s| - TrailingSpaces(s, isSpace)]
  }

  /** Both ends: JavaScript's `trim` and Python's `strip` differ only in
      the white space they remove. */
  function Strip(s: string, isSpace: char -> bool): string {
    StripEnd(StripStart(s, isSpace), isSpace)
  }

  /** A string whose ends `isSpace` rejects is its own strip. */
  lemma StripKeepsClean(s: string, isSpace: char -> bool)
    requires |s| > 0 ==> !isSpace(s[0]) && !isSpace(s[|s| - 1])
    ensures Strip(s, isSpace) == s
  {
  }

  /** The ends of a stripped string are not white space. */
  lemma StripEndsClean(s: string, isSpace: char -> bool)
    ensures var t := Strip(s, isSpace);
      |t| > 0 ==> !isSpace(t[0]) && !isSpace(t[|t| - 1])
  {
    var u := StripStart(s, isSpace);
    var t := StripEnd(u, isSpace);
    if |t| > 0 {
      assert t[0] == u[0];
    }
  }

  /** `s.trim()`. */
  function Trim(s: string): string {
    Strip(s, IsJsSpace)
  }

  /** `!s.trim()` holds exactly for strings made only of white space. */
  lemma TrimEmptyIffAllSpace(s: string)
    ensures Trim(s) == "" <==> forall i :: 0 <= i < |s| ==> IsJsSpace(s[i])
  {
    var t := StripStart(s, IsJsSpace);
    if |t| > 0 {
      assert t[0] == s[|s| - |t|];
    }
  }

  // ---------------------------------------------------------------------
  // Sequences

  /** `xs.filter(p)`. */
  function Filter<T(==,!new)>(xs: seq<T>, p: T -> bool): (r: seq<T>)
    ensures |r| <= |xs|
    ensures forall k :: 0 <= k < |r| ==> p(r[k])
    ensures forall x :: multiset(r)[x] == if p(x) then multiset(xs)[x] else 0
    ensures IsSubsequence(r, xs)
  {
    if |xs| == 0 then []
    else
      assert xs == [xs[0]] + xs[1..];
      var tail := Filter(xs[1..], p);
      if p(xs[0]) then [xs[0]] + tail else tail
  }

  /** `r` can be obtained from `xs` by deleting elements: the relative
      order of what remains is that of `xs`. */
  predicate IsSubsequence<T(==)>(r: seq<T>, xs: seq<T>)
    decreases |xs|
  {
    if |r| == 0 then true
    else if |xs| == 0 then false
    else if r[0] == xs[0] then IsSubsequence(r[1..], xs[1..])
    else IsSubsequence(r, xs[1..])
  }

  lemma FilterKeepsExactly<T(!new)>(xs: seq<T>, p: T -> bool, x: T)
    ensures x in Filter(xs, p) <==> x in xs && p(x)
  {
    var r := Filter(xs, p);
    assert x in r <==> multiset(r)[x] > 0;
    assert x in xs <==> multiset(xs)[x] > 0;
  }

  lemma FilterAllTrue<T(!new)>(xs: seq<T>, p: T -> bool)
    requires forall k :: 0 <= k < |xs| ==> p(xs[k])
    ensures Filter(xs, p) == xs
  {
    if |xs| > 0 {
      FilterAllTrue(xs[1..], p);
    }
  }

  lemma {:induction false} FilterAppend<T(!new)>(a: seq<T>, b: seq<T>, p: T -> bool)
    ensures Filter(a + b, p) == Filter(a, p) + Filter(b, p)
  {
    if |a| == 0 {
      assert a + b == b;
    } else {
      assert (a + b)[0] == a[0];
      assert (a + b)[1..] == a[1..] + b;
      FilterAppend(a[1..], b, p);
    }
  }

  /** `xs.reduce((sum, x) => sum + f(x), 0)`. */
  function SumOf<T>(xs: seq<T>, f: T -> int): int {
    if |xs| == 0 then 0 else f(xs[0]) + SumOf(xs[1..], f)
  }

  lemma SumOfAppend<T>(a: seq<T>, b: seq<T>, f: T -> int)
    ensures SumOf(a + b, f) == SumOf(a, f) + SumOf(b, f)
  {
    if |a| > 0 {
      assert (a + b)[0] == a[0];
      assert (a + b)[1..] == a[1..] + b;
      SumOfAppend(a[1..], b, f);
    } else {
      assert a + b == b;
    }
  }

  /** A sum does not depend on the order of its terms. */
  lemma {:induction false} SumOfPermutation<T>(a: seq<T>, b: seq<T>, f: T -> int)
    requires multiset(a) == multiset(b)
    ensures SumOf(a, f) == SumOf(b, f)
    decreases |a|
  {
    if |a| == 0 {
      assert |b| == |multiset(b)|;
    } else {
      var x := a[0];
      assert x in multiset(b);
      var i :| 0 <= i < |b| && b[i] == x;
      var rest := b[..i] + b[i + 1..];
      assert b == b[..i] + ([x] + b[i + 1..]);
      assert a == [x] + a[1..];
      calc {
        multiset(rest);
        multiset(b[..i]) + multiset(b[i + 1..]);
        multiset(b) - multiset{x};
        multiset(a) - multiset{x};
        multiset(a[1..]);
      }
      SumOfPermutation(a[1..], rest, f);
      SumOfAppend(b[..i], [x] + b[i + 1..], f);
      SumOfAppend(b[..i], b[i + 1..], f);
      assert ([x] + b[i + 1..])[1..] == b[i + 1..];
    }
  }

  /** A permutation has the same members. */
  lemma PermutationKeepsMembers<T>(a: seq<T>, b: seq<T>)
    requires multiset(a) == multiset(b)
    ensures forall t :: t in a <==> t in b
  {
    forall t ensures t in a <==> t in b {
      assert t in a <==> t in multiset(a);
      assert t in b <==> t in multiset(b);
    }
  }

  /** `xs.map(f)`. */
  function Map<T, U>(xs: seq<T>, f: T -> U): (r: seq<U>)
    ensures |r| == |xs|
    ensures forall k :: 0 <= k < |xs| ==> r[k] == f(xs[k])
  {
    if |xs| == 0 then [] else [f(xs[0])] + Map(xs[1..], f)
  }

  /** Index of the first element satisfying `p` (`Array.prototype.find`). */
  function FindFirst<T>(xs: seq<T>, p: T -> bool): (r: Option<nat>)
    ensures r.Some? ==> r.value < |xs| && p(xs[r.value])
    ensures r.Some? ==> forall k :: 0 <= k < r.value ==> !p(xs[k])
    ensures r.None? ==> forall k :: 0 <= k < |xs| ==> !p(xs[k])
  {
    if |xs| == 0 then None
    else if p(xs[0]) then Some(0)
    else match FindFirst(xs[1..], p)
      case None => None
      case Some(i) => Some(i + 1)
  }
}

=== FILE: domain.dfy ===
/**
 The persistent entities of the back end (backend/core/models.py): the
 choice enumerations stored as short strings, the defaults a freshly
 created row receives, and the default ordering of due entries.
 Money columns are `DecimalField(decimal_places=2)`; the model keeps them
 as integers counting hundredths (paise). Timestamps are integers.
 */
module Domain {
  import opened Common
  import Sorting

  // ---------------------------------------------------------------------
  // UserProfile.user_type

  datatype Role = Supplier | Retailer | Fintech

  function RoleName(r: Role): string {
    match r
    case Supplier => "supplier"
    case Retailer => "retailer"
    case Fintech => "fintech"
  }

  /** The stored `user_type` string read back as a role; only the three
      declared choices are roles. */
  function ParseRole(s: string): (r: Option<Role>)
    ensures r.Some? <==> s == "supplier" || s == "retailer" || s == "fintech"
    ensures r.Some? ==> RoleName(r.value) == s
  {
    if s == "supplier" then Some(Supplier)
    else if s == "retailer" then Some(Retailer)
    else if s == "fintech" then Some(Fintech)
    else None
  }

  lemma RoleNameRoundTrip(r: Role)
    ensures ParseRole(RoleName(r)) == Some(r)
  {
  }

  // ---------------------------------------------------------------------
  // DueEntry.status

  datatype DueStatus = Pending | Paid | Overdue

  function DueStatusName(s: DueStatus): string {
    match s
    case Pending => "pending"
    case Paid => "paid"
    case Overdue => "overdue"
  }

  function ParseDueStatus(s: string): (r: Option<DueStatus>)
    ensures r.Some? <==> s == "pending" || s == "paid" || s == "overdue"
    ensures r.Some? ==> DueStatusName(r.value) == s
  {
    if s == "pending" then Some(Pending)
    else if s == "paid" then Some(Paid)
    else if s == "overdue" then Some(Overdue)
    else None
  }

  lemma DueStatusNameRoundTrip(s: DueStatus)
    ensures ParseDueStatus(DueStatusName(s)) == Some(s)
  {
  }

  // ---------------------------------------------------------------------
  // CreditAssessment.status and Transaction.status

  datatype AssessmentStatus = AssessmentPending | Approved | Rejected

  function AssessmentStatusName(s: AssessmentStatus): string {
    match s
    case AssessmentPending => "pending"
    case Approved => "approved"
    case Rejected => "rejected"
  }

  function ParseAssessmentStatus(s: string): (r: Option<AssessmentStatus>)
    ensures r.Some? <==> s == "pending" || s == "approved" || s == "rejected"
    ensures r.Some? ==> AssessmentStatusName(r.value) == s
  {
    if s == "pending" then Some(AssessmentPending)
    else if s == "approved" then Some(Approved)
    else if s == "rejected" then Some(Rejected)
    else None
  }

  datatype TransactionStatus = TransactionPending | Completed | Failed

  function TransactionStatusName(s: TransactionStatus): string {
    match s
    case TransactionPending => "pending"
    case Completed => "completed"
    case Failed => "failed"
  }

  function ParseTransactionStatus(s: string): (r: Option<TransactionStatus>)
    ensures r.Some? <==> s == "pending" || s == "completed" || s == "failed"
    ensures r.Some? ==> TransactionStatusName(r.value) == s
  {
    if s == "pending" then Some(TransactionPending)
    else if s == "completed" then Some(Completed)
    else if s == "failed" then Some(Failed)
    else None
  }

  // ---------------------------------------------------------------------
  // Rows

  datatype ShopOwnership = Owned | Rented

  datatype RetailerProfile = RetailerProfile(
    panNumber: Option<string>,
    annualTurnover: int,
    yearsInBusiness: int,
    businessType: string,
    shopOwnership: ShopOwnership,
    monthlyRent: Option<int>,
    employeeCount: int,
    bankStatementScore: Option<int>,
    creditScore: Option<int>,
    creditLimit: int,
    availableCredit: int
  )

  /** A retailer profile created with every column left at its default. */
  function NewRetailerProfile(): RetailerProfile {
    RetailerProfile(None, 0, 0, "retail_store", Rented, None, 1, None, None, 0, 0)
  }

  datatype CreditAssessment = CreditAssessment(
    retailer: int, creditScore: Option<int>, status: AssessmentStatus,
    approvedLimit: Option<int>, notes: Option<string>)

  function NewCreditAssessment(retailer: int): CreditAssessment {
    CreditAssessment(retailer, None, AssessmentPending, None, None)
  }

  datatype Transaction = Transaction(
    supplier: int, retailer: int, amount: int, description: string,
    status: TransactionStatus, createdAt: int, dueDate: int)

  function NewTransaction(supplier: int, retailer: int, amount: int, description: string,
                          createdAt: int, dueDate: int): Transaction {
    Transaction(supplier, retailer, amount, description, TransactionPending, createdAt, dueDate)
  }

  /** A `DueEntry` row; `supplier` and `retailer` are `UserProfile` ids. */
  datatype Due = Due(
    id: int, supplier: int, retailer: int, amount: int, description: string,
    purchaseDate: int, dueDate: int, status: DueStatus, createdAt: int)

  function NewDue(id: int, supplier: int, retailer: int, amount: int, description: string,
                  purchaseDate: int, dueDate: int, createdAt: int): Due {
    Due(id, supplier, retailer, amount, description, purchaseDate, dueDate, Pending, createdAt)
  }

  /** What every new row starts with: a fresh retailer has no credit, one
      employee and a rented shop, and every status column starts pending. */
  lemma {:induction false} FreshRowsStartPending(id: int, supplier: int, retailer: int, amount: int,
                                                 description: string, purchaseDate: int, dueDate: int,
                                                 createdAt: int)
    ensures NewDue(id, supplier, retailer, amount, description, purchaseDate, dueDate, createdAt).status == Pending
    ensures NewCreditAssessment(retailer).status == AssessmentPending
    ensures NewTransaction(supplier, retailer, amount, description, createdAt, dueDate).status == TransactionPending
    ensures NewRetailerProfile().shopOwnership == Rented
    ensures NewRetailerProfile().creditLimit == 0 && NewRetailerProfile().availableCredit == 0
    ensures NewRetailerProfile().employeeCount == 1 && NewRetailerProfile().yearsInBusiness == 0
    ensures NewRetailerProfile().availableCredit <= NewRetailerProfile().creditLimit
  {
  }

  /** `Meta.ordering = ['-created_at']`: newest first. */
  predicate CreatedNoLaterThan(a: Due, b: Due) {
    a.createdAt >= b.createdAt
  }

  function DefaultOrder(dues: seq<Due>): (r: seq<Due>)
    ensures multiset(r) == multiset(dues)
    ensures forall i, j :: 0 <= i < j < |r| ==> r[i].createdAt >= r[j].createdAt
  {
    Sorting.SortBy(dues, CreatedNoLaterThan)
  }
}

=== FILE: forms.dfy ===
/**
 Field validation of the forms, as react-hook-form applies the rules
 registered on each input: `required` first (an empty value fails), then
 `min`/`max`, then `minLength`, then `pattern`, then `validate`; the
 first failing rule's message is the field's error. A form is submitted
 only when no field has an error. A rule registered on an input that is
 not rendered is not applied.

 Each form's errors are a record with one optional message per input
 (`formState.errors.<name>?.message`). Numeric inputs are modelled as
 `Option<int>` (`None` for an empty input) or `Option<real>` where the
 value may be fractional.
 */
module Forms {
  import opened Common
  import opened Validators
  import Domain
  import Msg = Messages

  /** `{ required: msg }` on a text input or select. */
  function RequiredError(v: string, msg: string): (r: Option<string>)
    ensures r.Some? <==> v == ""
    ensures r.Some? ==> r.value == msg
  {
    if v == "" then Some(msg) else None
  }

  /** `{ required: msg, pattern: { value, message } }`: an empty value
      reports the `required` message even though it cannot match either. */
  function PatternError(v: string, matches: bool, requiredMsg: string, patternMsg: string): (r: Option<string>)
    requires v == "" ==> !matches
    ensures r.None? <==> matches
    ensures r.Some? ==> r.value == (if v == "" then requiredMsg else patternMsg)
  {
    if v == "" then Some(requiredMsg)
    else if !matches then Some(patternMsg)
    else None
  }

  /** `{ required: msg, min: { value: lo, message } }` on a number input. */
  function MinError(v: Option<int>, lo: int, requiredMsg: string, minMsg: string): (r: Option<string>)
    ensures r.None? <==> v.Some? && v.value >= lo
    ensures r.Some? ==> r.value == (if v.None? then requiredMsg else minMsg)
  {
    if v.None? then Some(requiredMsg)
    else if v.value < lo then Some(minMsg)
    else None
  }

  /** `{ required, minLength: { value: 8, message } }` on a password input. */
  function PasswordError(p: string): (r: Option<string>)
    ensures r.None? <==> PasswordLongEnough(p)
  {
    if p == "" then Some(Msg.PasswordRequired)
    else if !PasswordLongEnough(p) then Some(Msg.PasswordTooShort)
    else None
  }

  /** `{ required, validate: value => value === password || msg }`. */
  function ConfirmError(password: string, confirm: string): (r: Option<string>)
    ensures r.None? <==> confirm != "" && confirm == password
    ensures confirm != "" && confirm != password ==> r == Some(Msg.PasswordsDiffer)
  {
    if confirm == "" then Some(Msg.ConfirmRequired)
    else if confirm != password then Some(Msg.PasswordsDiffer)
    else None
  }

  lemma EmptyNeverMatches()
    ensures !EmailMatches("") && !IsPhone("") && !IsGstin("") && !IsPan("") && !IsIfsc("")
  {
  }

  // ---------------------------------------------------------------------
  // RegisterPage

  datatype RegisterForm = RegisterForm(
    email: string, password: string, confirmPassword: string, businessName: string,
    phone: string, gstNumber: string, userType: string, address: string)

  datatype RegisterErrors = RegisterErrors(
    userType: Option<string>, businessName: Option<string>, email: Option<string>,
    phone: Option<string>, gstNumber: Option<string>, address: Option<string>,
    password: Option<string>, confirmPassword: Option<string>)
  {
    predicate None() {
      && userType.None? && businessName.None? && email.None? && phone.None?
      && gstNumber.None? && address.None? && password.None? && confirmPassword.None?
    }
  }

  /** The values the select offers besides its empty placeholder. */
  const RegisterUserTypes: seq<string> := ["supplier", "retailer"]

  /** `useForm({ defaultValues })`: every field empty, user type retailer. */
  function DefaultRegisterForm(): (f: RegisterForm)
    ensures f.userType in RegisterUserTypes
  {
    RegisterForm("", "", "", "", "", "", "retailer", "")
  }

  function RegisterFormErrors(f: RegisterForm): (e: RegisterErrors)
    ensures e.userType.Some? <==> f.userType == ""
    ensures e.businessName.Some? <==> f.businessName == ""
    ensures e.email.Some? <==> !EmailMatches(f.email)
    ensures e.phone.Some? <==> !IsPhone(f.phone)
    ensures e.gstNumber.Some? <==> !IsGstin(f.gstNumber)
    ensures e.address.Some? <==> f.address == ""
    ensures e.password.Some? <==> !PasswordLongEnough(f.password)
    ensures e.confirmPassword.Some? <==> f.confirmPassword == "" || f.confirmPassword != f.password
    ensures e.None() <==>
      && f.userType != "" && f.businessName != "" && EmailMatches(f.email)
      && IsPhone(f.phone) && IsGstin(f.gstNumber) && f.address != ""
      && PasswordLongEnough(f.password) && f.confirmPassword == f.password
  {
    EmptyNeverMatches();
    RegisterErrors(
      RequiredError(f.userType, Msg.UserTypeRequired),
      RequiredError(f.businessName, Msg.BusinessNameRequired),
      PatternError(f.email, EmailMatches(f.email), Msg.EmailRequired, Msg.EmailInvalid),
      PatternError(f.phone, IsPhone(f.phone), Msg.PhoneRequired, Msg.PhoneInvalid),
      PatternError(f.gstNumber, IsGstin(f.gstNumber), Msg.GstRequired, Msg.GstInvalid),
      RequiredError(f.address, Msg.BusinessAddressRequired),
      PasswordError(f.password),
      ConfirmError(f.password, f.confirmPassword))
  }

  /** The default values are never submitted as they stand. */
  lemma DefaultRegisterFormRefused()
    ensures !RegisterFormErrors(DefaultRegisterForm()).None()
    ensures RegisterFormErrors(DefaultRegisterForm()).userType.None?
  {
  }

  // ---------------------------------------------------------------------
  // FintechRegistration

  datatype FintechForm = FintechForm(
    companyName: string, email: string, phone: string, registrationNumber: string,
    password: string, confirmPassword: string, address: string, licenseNumber: string,
    creditLimit: Option<int>, interestRate: Option<real>)

  datatype FintechErrors = FintechErrors(
    companyName: Option<string>, email: Option<string>, phone: Option<string>,
    registrationNumber: Option<string>, address: Option<string>, licenseNumber: Option<string>,
    creditLimit: Option<string>, interestRate: Option<string>,
    password: Option<string>, confirmPassword: Option<string>)
  {
    predicate None() {
      && companyName.None? && email.None? && phone.None? && registrationNumber.None?
      && address.None? && licenseNumber.None? && creditLimit.None? && interestRate.None?
      && password.None? && confirmPassword.None?
    }
  }

  /** `{ required, min: 0, max: 100 }` on the interest-rate input. */
  function InterestRateError(v: Option<real>): (r: Option<string>)
    ensures r.None? <==> v.Some? && 0.0 <= v.value <= 100.0
  {
    if v.None? then Some(Msg.InterestRateRequired)
    else if v.value < 0.0 then Some(Msg.InterestRateNegative)
    else if v.value > 100.0 then Some(Msg.InterestRateTooHigh)
    else None
  }

  function FintechFormErrors(f: FintechForm): (e: FintechErrors)
    ensures e.companyName.Some? <==> f.companyName == ""
    ensures e.email.Some? <==> !EmailMatches(f.email)
    ensures e.phone.Some? <==> !IsPhone(f.phone)
    ensures e.registrationNumber.Some? <==> f.registrationNumber == ""
    ensures e.address.Some? <==> f.address == ""
    ensures e.licenseNumber.Some? <==> f.licenseNumber == ""
    ensures e.creditLimit.Some? <==> f.creditLimit.None? || f.creditLimit.value < 100000
    ensures e.interestRate.Some? <==> f.interestRate.None? || f.interestRate.value < 0.0 || f.interestRate.value > 100.0
    ensures e.password.Some? <==> !PasswordLongEnough(f.password)
    ensures e.confirmPassword.Some? <==> f.confirmPassword == "" || f.confirmPassword != f.password
    ensures e.None() <==>
      && f.companyName != "" && EmailMatches(f.email) && IsPhone(f.phone)
      && f.registrationNumber != "" && f.address != "" && f.licenseNumber != ""
      && f.creditLimit.Some? && f.creditLimit.value >= 100000
      && f.interestRate.Some? && 0.0 <= f.interestRate.value <= 100.0
      && PasswordLongEnough(f.password) && f.confirmPassword == f.password
  {
    EmptyNeverMatches();
    FintechErrors(
      RequiredError(f.companyName, Msg.CompanyNameRequired),
      PatternError(f.email, EmailMatches(f.email), Msg.EmailRequired, Msg.EmailInvalid),
      PatternError(f.phone, IsPhone(f.phone), Msg.PhoneRequired, Msg.PhoneInvalid),
      RequiredError(f.registrationNumber, Msg.RegistrationNumberRequired),
      RequiredError(f.address, Msg.AddressRequired),
      RequiredError(f.licenseNumber, Msg.LicenseNumberRequired),
      MinError(f.creditLimit, 100000, Msg.CreditLimitRequired, Msg.CreditLimitTooLow),
      InterestRateError(f.interestRate),
      PasswordError(f.password),
      ConfirmError(f.password, f.confirmPassword))
  }

  // ---------------------------------------------------------------------
  // CreditAssessmentForm (retailer)

  const AssessmentBusinessTypes: seq<string> :=
    ["retail_store", "wholesale", "manufacturing", "service", "distribution"]

  datatype AssessmentForm = AssessmentForm(
    businessType: string,
    yearsInBusiness: Option<int>,
    annualTurnover: Option<int>,
    employeeCount: Option<int>,
    shopOwnership: Option<Domain.ShopOwnership>,
    monthlyRent: Option<int>,
    gstNumber: string,
    panNumber: string,
    bankAccountNumber: string,
    ifscCode: string,
    bankName: string,
    bankBranch: string,
    existingLoans: bool,
    loanAmount: Option<int>,
    loanProvider: string,
    monthlyEmi: Option<int>)

  datatype AssessmentErrors = AssessmentErrors(
    businessType: Option<string>, yearsInBusiness: Option<string>, annualTurnover: Option<string>,
    employeeCount: Option<string>, shopOwnership: Option<string>, monthlyRent: Option<string>,
    gstNumber: Option<string>, panNumber: Option<string>, bankAccountNumber: Option<string>,
    ifscCode: Option<string>, bankName: Option<string>, bankBranch: Option<string>,
    loanAmount: Option<string>, loanProvider: Option<string>, monthlyEmi: Option<string>)
  {
    predicate None() {
      && businessType.None? && yearsInBusiness.None? && annualTurnover.None?
      && employeeCount.None? && shopOwnership.None? && monthlyRent.None?
      && gstNumber.None? && panNumber.None? && bankAccountNumber.None?
      && ifscCode.None? && bankName.None? && bankBranch.None?
      && loanAmount.None? && loanProvider.None? && monthlyEmi.None?
    }
  }

  /** `{ required }` on the shop-ownership radio group. */
  function ShopOwnershipError(o: Option<Domain.ShopOwnership>): (r: Option<string>)
    ensures r.Some? <==> o.None?
  {
    if o.None? then Some(Msg.ShopOwnershipRequired) else None
  }

  /** The rent input exists only while "rented" is chosen. */
  function RentError(o: Option<Domain.ShopOwnership>, rent: Option<int>): (r: Option<string>)
    ensures r.Some? <==> o == Some(Domain.Rented) && !(rent.Some? && rent.value >= 0)
  {
    if o == Some(Domain.Rented)
    then MinError(rent, 0, Msg.RentRequired, Msg.RentNegative)
    else None
  }

  /** A required number input inside the existing-loans section. */
  function LoanRequiredError(existingLoans: bool, v: Option<int>, msg: string): (r: Option<string>)
    ensures r.Some? <==> existingLoans && v.None?
  {
    if existingLoans && v.None? then Some(msg) else None
  }

  /** The rent input is rendered only for rented shops and the loan inputs
      only while the existing-loans box is ticked; an input that is not
      rendered has no rule. */
  function AssessmentFormErrors(f: AssessmentForm): (e: AssessmentErrors)
    ensures e.businessType.Some? <==> f.businessType == ""
    ensures e.yearsInBusiness.Some? <==> !(f.yearsInBusiness.Some? && f.yearsInBusiness.value >= 0)
    ensures e.annualTurnover.Some? <==> !(f.annualTurnover.Some? && f.annualTurnover.value >= 0)
    ensures e.employeeCount.Some? <==> !(f.employeeCount.Some? && f.employeeCount.value >= 1)
    ensures e.shopOwnership.Some? <==> f.shopOwnership.None?
    ensures e.monthlyRent.Some? <==>
      f.shopOwnership == Some(Domain.Rented) && !(f.monthlyRent.Some? && f.monthlyRent.value >= 0)
    ensures e.gstNumber.Some? <==> !IsGstin(f.gstNumber)
    ensures e.panNumber.Some? <==> !IsPan(f.panNumber)
    ensures e.bankAccountNumber.Some? <==> f.bankAccountNumber == ""
    ensures e.ifscCode.Some? <==> !IsIfsc(f.ifscCode)
    ensures e.bankName.Some? <==> f.bankName == ""
    ensures e.bankBranch.Some? <==> f.bankBranch == ""
    ensures e.loanAmount.Some? <==> f.existingLoans && f.loanAmount.None?
    ensures e.loanProvider.Some? <==> f.existingLoans && f.loanProvider == ""
    ensures e.monthlyEmi.Some? <==> f.existingLoans && f.monthlyEmi.None?
  {
    EmptyNeverMatches();
    AssessmentErrors(
      RequiredError(f.businessType, Msg.BusinessTypeRequired),
      MinError(f.yearsInBusiness, 0, Msg.YearsRequired, Msg.YearsNegative),
      MinError(f.annualTurnover, 0, Msg.TurnoverRequired, Msg.TurnoverNegative),
      MinError(f.employeeCount, 1, Msg.EmployeeCountRequired, Msg.EmployeeCountTooLow),
      ShopOwnershipError(f.shopOwnership),
      RentError(f.shopOwnership, f.monthlyRent),
      PatternError(f.gstNumber, IsGstin(f.gstNumber), Msg.GstRequired, Msg.GstFormatInvalid),
      PatternError(f.panNumber, IsPan(f.panNumber), Msg.PanRequired, Msg.PanFormatInvalid),
      RequiredError(f.bankAccountNumber, Msg.BankAccountRequired),
      PatternError(f.ifscCode, IsIfsc(f.ifscCode), Msg.IfscRequired, Msg.IfscFormatInvalid),
      RequiredError(f.bankName, Msg.BankNameRequired),
      RequiredError(f.bankBranch, Msg.BankBranchRequired),
      LoanRequiredError(f.existingLoans, f.loanAmount, Msg.LoanAmountRequired),
      if f.existingLoans then RequiredError(f.loanProvider, Msg.LoanProviderRequired) else None,
      LoanRequiredError(f.existingLoans, f.monthlyEmi, Msg.MonthlyEmiRequired))
  }

  /** Whatever is left in the hidden rent and loan inputs, an owned shop
      without existing loans is judged on the remaining fields alone. */
  lemma AssessmentHiddenInputsIgnored(f: AssessmentForm, rent: Option<int>, amount: Option<int>,
                                      provider: string, emi: Option<int>)
    requires f.shopOwnership == Some(Domain.Owned) && !f.existingLoans
    ensures AssessmentFormErrors(f.(monthlyRent := rent, loanAmount := amount,
                                    loanProvider := provider, monthlyEmi := emi))
         == AssessmentFormErrors(f)
  {
  }

  /** Uploaded document slots, keyed by input name. */
  type File = string
  type Documents = map<string, Option<File>>

  /** `handleFileChange`: the slot of `field` becomes the first chosen file,
      or `null` when none was chosen; every other slot is kept. */
  function ChooseFile(docs: Documents, field: string, chosen: seq<File>): (r: Documents)
    ensures r.Keys == docs.Keys + {field}
    ensures r[field] == (if |chosen| > 0 then Some(chosen[0]) else None)
    ensures forall k :: k in docs && k != field ==> r[k] == docs[k]
  {
    docs[field := if |chosen| > 0 then Some(chosen[0]) else None]
  }

  /** A profile saved with the model's defaults passes the form's bounds. */
  lemma DefaultProfilePassesFormBounds()
    ensures MinError(Some(Domain.NewRetailerProfile().yearsInBusiness), 0, "", "").None?
    ensures MinError(Some(Domain.NewRetailerProfile().annualTurnover), 0, "", "").None?
    ensures MinError(Some(Domain.NewRetailerProfile().employeeCount), 1, "", "").None?
  {
  }

  // ---------------------------------------------------------------------
  // CreditAssessmentModal

  const ModalBusinessTypes: seq<string> :=
    ["sole_proprietorship", "partnership", "private_limited", "llp"]

  datatype ModalForm = ModalForm(
    panNumber: string,
    annualTurnover: Option<int>,
    yearsInBusiness: Option<int>,
    businessType: string,
    shopOwnership: Option<Domain.ShopOwnership>)

  datatype ModalErrors = ModalErrors(
    panNumber: Option<string>, annualTurnover: Option<string>, yearsInBusiness: Option<string>,
    businessType: Option<string>, shopOwnership: Option<string>)
  {
    predicate None() {
      panNumber.None? && annualTurnover.None? && yearsInBusiness.None? && businessType.None? && shopOwnership.None?
    }
  }

  /** `None` when the modal is closed: nothing is rendered, so there is no
      form to validate. */
  function ModalFormErrors(isOpen: bool, f: ModalForm): (r: Option<ModalErrors>)
    ensures r.None? <==> !isOpen
    ensures r.Some? ==> (r.value.panNumber.Some? <==> !IsPan(f.panNumber))
    ensures r.Some? ==> (r.value.annualTurnover.Some? <==> !(f.annualTurnover.Some? && f.annualTurnover.value >= 100000))
    ensures r.Some? ==> (r.value.yearsInBusiness.Some? <==> !(f.yearsInBusiness.Some? && f.yearsInBusiness.value >= 0))
    ensures r.Some? ==> (r.value.businessType.Some? <==> f.businessType == "")
    ensures r.Some? ==> (r.value.shopOwnership.Some? <==> f.shopOwnership.None?)
  {
    if !isOpen then None
    else
      EmptyNeverMatches();
      Some(ModalErrors(
        PatternError(f.panNumber, IsPan(f.panNumber), Msg.PanRequired, Msg.PanFormatInvalid),
        MinError(f.annualTurnover, 100000, Msg.TurnoverRequired, Msg.ModalTurnoverTooLow),
        MinError(f.yearsInBusiness, 0, Msg.YearsRequired, Msg.YearsNegative),
        RequiredError(f.businessType, Msg.BusinessTypeRequired),
        ShopOwnershipError(f.shopOwnership)))
  }

  /** A select yields its placeholder `""` or one of its options, so a
      business type that passes `required` is one of the listed values. */
  lemma {:induction false} ModalBusinessTypeIsListed(isOpen: bool, f: ModalForm)
    requires isOpen
    requires f.businessType in [""] + ModalBusinessTypes
    requires ModalFormErrors(isOpen, f).value.businessType.None?
    ensures f.businessType in ModalBusinessTypes
  {
    assert f.businessType != "";
  }

  /** The modal's turnover bound is stricter than the full form's: every
      turnover the modal accepts, the form accepts, but not conversely. */
  lemma ModalTurnoverStricter(t: Option<int>)
    ensures MinError(t, 100000, "", "").None? ==> MinError(t, 0, "", "").None?
    ensures MinError(Some(0), 0, "", "").None? && MinError(Some(0), 100000, "", "").Some?
  {
  }
}

=== FILE: hooks.dfy ===
/**
 The three data hooks the dashboards use: `useDashboardData`
 (src/hooks/useDashboardData.ts), `useDuesList` (src/hooks/useDuesList.ts)
 and `useRetailersList` (src/hooks/useRetailersList.ts). The three share
 one shape: a value, a loading flag and an error message, a load that
 sets the flag and clears the error while the request is in flight, then
 either replaces the value or records a message, and a refresh that is
 one more load. They differ only in the value's type and the fallback
 message.

 The request itself is a parameter: a load is given the server's
 `Reply`. The `console.error` logging and the live-update listeners
 are not modelled.
 */
module Hooks {
  import opened Common

  datatype FetchState<T> = FetchState(data: T, loading: bool, error: Option<string>)

  /** The state on mount: the initial value, loading, no error. */
  function Initial<T>(empty: T): (s: FetchState<T>)
    ensures s.data == empty && s.loading && s.error.None?
  {
    FetchState(empty, true, None)
  }

  /** The state while the request is in flight. */
  function Begin<T>(s: FetchState<T>): (r: FetchState<T>)
    ensures r.data == s.data && r.loading && r.error.None?
  {
    s.(loading := true, error := None)
  }

  /** The `try`/`catch`/`finally` once the request has settled: a value
      replaces the old one; a failure keeps it and records the error's
      message, or `fallback` when that message is empty; loading ends
      either way. */
  function Settle<T>(s: FetchState<T>, reply: Reply<T>, fallback: string): (r: FetchState<T>)
    ensures !r.loading
    ensures reply.Ok? ==> r.data == reply.value && r.error == s.error
    ensures reply.Fail? ==> r.data == s.data
    ensures reply.Fail? && reply.err.message != "" ==> r.error == Some(reply.err.message)
    ensures reply.Fail? && reply.err.message == "" ==> r.error == Some(fallback)
  {
    match reply
    case Ok(v) => s.(data := v, loading := false)
    case Fail(err) => s.(error := Some(OrElse(err.message, fallback)), loading := false)
  }

  /** One whole load, as `loadData`, `loadDues` and `loadRetailers` run it. */
  function Load<T>(s: FetchState<T>, reply: Reply<T>, fallback: string): (r: FetchState<T>)
    ensures !r.loading
    ensures r.error.None? <==> reply.Ok?
    ensures reply.Ok? ==> r.data == reply.value
    ensures reply.Fail? ==> r.data == s.data && r.error == Some(OrElse(reply.err.message, fallback))
  {
    Settle(Begin(s), reply, fallback)
  }

  /** The error a load leaves never depends on the state before it, and
      after a success nothing does: a stale error cannot survive a load. */
  lemma LoadForgetsThePast<T>(s: FetchState<T>, s': FetchState<T>, reply: Reply<T>, fallback: string)
    ensures Load(s, reply, fallback).error == Load(s', reply, fallback).error
    ensures reply.Ok? ==> Load(s, reply, fallback) == Load(s', reply, fallback)
    ensures s.data == s'.data ==> Load(s, reply, fallback) == Load(s', reply, fallback)
  {
  }

  /** Reloading with the same answer changes nothing. */
  lemma LoadIdempotent<T>(s: FetchState<T>, reply: Reply<T>, fallback: string)
    ensures Load(Load(s, reply, fallback), reply, fallback) == Load(s, reply, fallback)
  {
  }

  /** A run of loads, one per reply, in order: the mount and every later
      refresh. */
  function LoadAll<T>(s: FetchState<T>, replies: seq<Reply<T>>, fallback: string): (r: FetchState<T>)
    ensures |replies| == 0 ==> r == s
    ensures |replies| > 0 ==> !r.loading
    decreases |replies|
  {
    if |replies| == 0 then s
    else LoadAll(Load(s, replies[0], fallback), replies[1..], fallback)
  }

  /** The value a run of replies leaves on screen: that of the last
      success, or the old value when every reply failed. */
  function LastValue<T>(before: T, replies: seq<Reply<T>>): T
    decreases |replies|
  {
    if |replies| == 0 then before
    else if replies[|replies| - 1].Ok? then replies[|replies| - 1].value
    else LastValue(before, replies[..|replies| - 1])
  }

  /** After any run of loads the value is the last one the server sent,
      and the error is present exactly when the last load failed. */
  lemma {:induction false} LoadAllShowsLastValue<T>(s: FetchState<T>, replies: seq<Reply<T>>, fallback: string)
    ensures LoadAll(s, replies, fallback).data == LastValue(s.data, replies)
    ensures |replies| > 0 ==>
      (LoadAll(s, replies, fallback).error.None? <==> replies[|replies| - 1].Ok?)
    decreases |replies|
  {
    if |replies| > 0 {
      var n := |replies| - 1;
      LoadAllSnoc(s, replies[..n], replies[n], fallback);
      assert replies[..n] + [replies[n]] == replies;
      LoadAllShowsLastValue(s, replies[..n], fallback);
    }
  }

  /** Loading one more reply after a run is a run one longer. */
  lemma {:induction false} LoadAllSnoc<T>(s: FetchState<T>, replies: seq<Reply<T>>, last: Reply<T>, fallback: string)
    ensures LoadAll(s, replies + [last], fallback) == Load(LoadAll(s, replies, fallback), last, fallback)
    decreases |replies|
  {
    if |replies| == 0 {
      assert replies + [last] == [last];
    } else {
      assert (replies + [last])[1..] == replies[1..] + [last];
      LoadAllSnoc(Load(s, replies[0], fallback), replies[1..], last, fallback);
    }
  }

  /** A failure never blanks what was loaded before it. */
  lemma FailuresKeepLastSuccess<T>(s: FetchState<T>, v: T, failures: seq<HttpError>, fallback: string)
    ensures LoadAll(s, [Ok(v)] + seq(|failures|, i requires 0 <= i < |failures| => Fail(failures[i])), fallback).data == v
  {
    var replies := [Ok(v)] + seq(|failures|, i requires 0 <= i < |failures| => Fail(failures[i]));
    LoadAllShowsLastValue(s, replies, fallback);
    LastValueOfFailures(v, replies);
  }

  /** Helper: the last success of a run that starts with one and then only
      fails is that first one. */
  lemma {:induction false} LastValueOfFailures<T>(v: T, replies: seq<Reply<T>>)
    requires |replies| > 0 && replies[0] == Ok(v)
    requires forall i :: 0 < i < |replies| ==> replies[i].Fail?
    ensures forall before: T :: LastValue(before, replies) == v
    decreases |replies|
  {
    if |replies| > 1 {
      LastValueOfFailures(v, replies[..|replies| - 1]);
    }
  }

  // ---------------------------------------------------------------------
  // The three instances

  const DashboardFallback: string := "Failed to load dashboard data"
  const DuesFallback: string := "Failed to load dues"
  const RetailersFallback: string := "Failed to load retailers"

  /** The hooks that share the fetch state. */
  datatype Hook = DashboardData | DuesList | RetailersList

  function Fallback(h: Hook): (m: string)
    ensures h == DashboardData <==> m == DashboardFallback
    ensures h == DuesList <==> m == DuesFallback
    ensures h == RetailersList <==> m == RetailersFallback
  {
    match h
    case DashboardData => DashboardFallback
    case DuesList => DuesFallback
    case RetailersList => RetailersFallback
  }

  /** `refreshData`, `refreshDues`, `refreshRetailers`: one load, whatever
      the state was. */
  function Refresh<T>(h: Hook, s: FetchState<T>, reply: Reply<T>): (r: FetchState<T>)
    ensures !r.loading
    ensures reply.Ok? ==> r == FetchState(reply.value, false, None)
    ensures reply.Fail? ==> r == FetchState(s.data, false, Some(OrElse(reply.err.message, Fallback(h))))
  {
    Load(s, reply, Fallback(h))
  }

  /** `useDashboardData` starts with no stats; the two lists start empty. */
  function InitialStats<S>(): (s: FetchState<Option<S>>)
    ensures s.data.None? && s.loading && s.error.None?
  {
    Initial(None)
  }

  function InitialList<E>(): (s: FetchState<seq<E>>)
    ensures s.data == [] && s.loading && s.error.None?
  {
    Initial([])
  }

  /** A first load that fails leaves the dashboard with no stats and its
      own fallback message when the error carries none. */
  lemma FirstDashboardFailure<S>(err: HttpError)
    requires err.message == ""
    ensures Refresh(DashboardData, InitialStats<S>(), Fail(err)) ==
      FetchState(None, false, Some("Failed to load dashboard data"))
  {
  }
}

=== FILE: lists.dfy ===
/**
 The list components of the dashboards (src/components/dashboard/ and
 src/components/fintech/): which rows each one shows, in what order, the
 totals it prints, and the reminder buttons' sending set. Every list is
 derived from its props by a pure filter, sort or sum; dates are integer
 timestamps in milliseconds and "now" is a parameter.
 */
module Lists {
  import opened Common
  import opened Sorting
  import opened Domain

  /** A due as the dashboard components receive it. */
  datatype DueView = DueView(
    id: string, retailerName: string, retailerPhone: string, amount: int,
    dueDate: int, purchaseDate: int, description: string, status: DueStatus)

  // ---------------------------------------------------------------------
  // DuesList

  /** The status select: `'all'` or one status name. */
  predicate StatusSelected(d: DueView, filter: string) {
    filter == "all" || DueStatusName(d.status) == filter
  }

  /** The search box: retailer name and description ignore case, the phone
      number does not. */
  predicate DueMatchesSearch(d: DueView, query: string) {
    || IncludesIgnoringCase(d.retailerName, query)
    || Includes(d.retailerPhone, query)
    || IncludesIgnoringCase(d.description, query)
  }

  predicate ShowsDue(d: DueView, filter: string, query: string) {
    StatusSelected(d, filter) && DueMatchesSearch(d, query)
  }

  /** `a.dueDate - b.dueDate <= 0`. */
  predicate EarlierDue(a: DueView, b: DueView) { a.dueDate <= b.dueDate }

  /** `b.amount - a.amount <= 0`. */
  predicate LargerAmount(a: DueView, b: DueView) { a.amount >= b.amount }

  /** `a.status.localeCompare(b.status) <= 0`. */
  predicate StatusNotAfter(a: DueView, b: DueView) {
    LexLe(DueStatusName(a.status), DueStatusName(b.status))
  }

  /** The comparator that always answers 0. */
  predicate Unordered(a: DueView, b: DueView) { true }

  function StatusRank(s: DueStatus): nat {
    match s
    case Overdue => 0
    case Paid => 1
    case Pending => 2
  }

  /** Sorting by status name puts overdue dues first, then paid ones, then
      pending ones. */
  lemma StatusOrderIsRankOrder(a: DueStatus, b: DueStatus)
    ensures LexLe(DueStatusName(a), DueStatusName(b)) <==> StatusRank(a) <= StatusRank(b)
  {
    assert "paid"[1..] == "aid" && "pending"[1..] == "ending";
    assert LexLe("paid", "pending") && !LexLe("pending", "paid");
    assert LexLe("overdue", "paid") && !LexLe("paid", "overdue");
    assert LexLe("overdue", "pending") && !LexLe("pending", "overdue");
    assert LexLe("overdue", "overdue") by {
      assert forall s: string :: LexLe(s, s) by {
        forall s: string ensures LexLe(s, s) { LexLeTotal(s, s); }
      }
    }
    assert LexLe("paid", "paid") by { LexLeTotal("paid", "paid"); }
    assert LexLe("pending", "pending") by { LexLeTotal("pending", "pending"); }
  }

  lemma StatusNotAfterIsPreorder()
    ensures TotalPreorder(StatusNotAfter)
  {
    forall a: DueView, b: DueView ensures StatusNotAfter(a, b) <==> StatusRank(a.status) <= StatusRank(b.status) {
      StatusOrderIsRankOrder(a.status, b.status);
    }
  }

  /** `filteredDues`: the dues passing the status filter and the search,
      sorted by the selected key. Any other sort key keeps the filtered
      order, since a comparator that answers 0 leaves a stable sort's
      input as it is. */
  function FilteredDues(dues: seq<DueView>, filter: string, query: string, sortBy: string): (r: seq<DueView>)
    ensures forall d :: multiset(r)[d] == if ShowsDue(d, filter, query) then multiset(dues)[d] else 0
    ensures forall k :: 0 <= k < |r| ==> ShowsDue(r[k], filter, query) && r[k] in dues
    ensures sortBy == "dueDate" ==> forall i, j :: 0 <= i < j < |r| ==> r[i].dueDate <= r[j].dueDate
    ensures sortBy == "amount" ==> forall i, j :: 0 <= i < j < |r| ==> r[i].amount >= r[j].amount
    ensures sortBy == "status" ==>
      forall i, j :: 0 <= i < j < |r| ==> StatusRank(r[i].status) <= StatusRank(r[j].status)
    ensures sortBy != "dueDate" && sortBy != "amount" && sortBy != "status" ==>
      r == Filter(dues, (d: DueView) => ShowsDue(d, filter, query))
  {
    var shown := Filter(dues, (d: DueView) => ShowsDue(d, filter, query));
    var r := SortDues(shown, sortBy);
    forall x | x in shown ensures ShowsDue(x, filter, query) && x in dues {
      FilterKeepsExactly(dues, (d: DueView) => ShowsDue(d, filter, query), x);
    }
    SortedFacts(dues, shown, r, filter, query, sortBy);
    r
  }

  /** The `.sort(...)` step of `filteredDues`. */
  function SortDues(shown: seq<DueView>, sortBy: string): (r: seq<DueView>)
    ensures multiset(r) == multiset(shown)
    ensures sortBy == "dueDate" ==> SortedBy(r, EarlierDue)
    ensures sortBy == "amount" ==> SortedBy(r, LargerAmount)
    ensures sortBy == "status" ==> SortedBy(r, StatusNotAfter)
    ensures sortBy != "dueDate" && sortBy != "amount" && sortBy != "status" ==> r == shown
  {
    if sortBy == "dueDate" then SortBy(shown, EarlierDue)
    else if sortBy == "amount" then SortBy(shown, LargerAmount)
    else if sortBy == "status" then
      StatusNotAfterIsPreorder();
      SortBy(shown, StatusNotAfter)
    else
      SortByAllTiedIsIdentity(shown, Unordered);
      SortBy(shown, Unordered)
  }

  /** Helper: a permutation of dues that all pass, sorted by status when
      that key is chosen, keeps passing and is in rank order. */
  lemma SortedFacts(dues: seq<DueView>, shown: seq<DueView>, r: seq<DueView>,
                    filter: string, query: string, sortBy: string)
    requires forall x :: x in shown ==> ShowsDue(x, filter, query) && x in dues
    requires multiset(r) == multiset(shown)
    requires sortBy == "status" ==> SortedBy(r, StatusNotAfter)
    ensures forall k :: 0 <= k < |r| ==> ShowsDue(r[k], filter, query) && r[k] in dues
    ensures sortBy == "status" ==>
      forall i, j :: 0 <= i < j < |r| ==> StatusRank(r[i].status) <= StatusRank(r[j].status)
  {
    PermutationKeepsMembers(r, shown);
    if sortBy == "status" {
      forall i, j | 0 <= i < j < |r| ensures StatusRank(r[i].status) <= StatusRank(r[j].status) {
        StatusOrderIsRankOrder(r[i].status, r[j].status);
      }
    }
  }

  function UnpaidAmount(d: DueView): int {
    if d.status != Paid then d.amount else 0
  }

  /** `totalDue`: the sum over the shown dues that are not paid. */
  function TotalDue(shown: seq<DueView>): int {
    SumOf(shown, UnpaidAmount)
  }

  /** The total does not depend on the sort order. */
  lemma TotalDueIgnoresOrder(dues: seq<DueView>, filter: string, query: string, sortBy: string)
    ensures TotalDue(FilteredDues(dues, filter, query, sortBy))
         == SumOf(Filter(dues, (d: DueView) => ShowsDue(d, filter, query)), UnpaidAmount)
  {
    var shown := Filter(dues, (d: DueView) => ShowsDue(d, filter, query));
    var r := FilteredDues(dues, filter, query, sortBy);
    assert multiset(r) == multiset(shown) by {
      forall d ensures multiset(r)[d] == multiset(shown)[d] {}
    }
    SumOfPermutation(r, shown, UnpaidAmount);
  }

  lemma {:induction false} SumOfPaidIsZero(ds: seq<DueView>)
    requires forall k :: 0 <= k < |ds| ==> ds[k].status == Paid
    ensures SumOf(ds, UnpaidAmount) == 0
  {
    if |ds| > 0 {
      SumOfPaidIsZero(ds[1..]);
    }
  }

  /** With the filter set to paid, nothing is outstanding. */
  lemma PaidFilterTotalsZero(dues: seq<DueView>, query: string, sortBy: string)
    ensures TotalDue(FilteredDues(dues, "paid", query, sortBy)) == 0
  {
    var r := FilteredDues(dues, "paid", query, sortBy);
    forall k | 0 <= k < |r| ensures r[k].status == Paid {
      assert DueStatusName(r[k].status) == "paid";
    }
    SumOfPaidIsZero(r);
  }

  /** The filter `'all'` with an empty search shows every due. */
  lemma UnfilteredDuesShowEverything(dues: seq<DueView>, sortBy: string)
    ensures multiset(FilteredDues(dues, "all", "", sortBy)) == multiset(dues)
  {
    forall d: DueView ensures ShowsDue(d, "all", "") {
      EmptyIncluded(d.retailerName);
    }
    var r := FilteredDues(dues, "all", "", sortBy);
    assert forall d :: multiset(r)[d] == multiset(dues)[d];
  }

  // ---------------------------------------------------------------------
  // DuePayments

  /** The comparator of `sortedPayments`. */
  function PaymentCompare(a: DueView, b: DueView): int {
    if a.status == Overdue && b.status != Overdue then -1
    else if a.status != Overdue && b.status == Overdue then 1
    else a.dueDate - b.dueDate
  }

  predicate PaymentNotAfter(a: DueView, b: DueView) {
    PaymentCompare(a, b) <= 0
  }

  /** `[...payments].sort(...)`: a sorted copy; the prop is untouched. */
  function SortedPayments(payments: seq<DueView>): (r: seq<DueView>)
    ensures multiset(r) == multiset(payments)
    ensures forall i, j :: 0 <= i < j < |r| && r[j].status == Overdue ==> r[i].status == Overdue
    ensures forall i, j :: 0 <= i < j < |r| && (r[i].status == Overdue <==> r[j].status == Overdue) ==>
      r[i].dueDate <= r[j].dueDate
  {
    SortBy(payments, PaymentNotAfter)
  }

  datatype PaymentRow = PaymentRow(due: DueView, payNow: bool)

  datatype PaymentsView = Skeleton | PaymentsList(rows: seq<PaymentRow>, noPayments: bool)

  function PaymentRowOf(d: DueView): PaymentRow {
    PaymentRow(d, d.status != Paid)
  }

  /** What `DuePayments` renders: a skeleton while loading, otherwise one
      row per payment in sorted order, a 'Pay Now' button on each row
      that is not paid, and 'No due payments' for an empty list. */
  function DuePaymentsView(payments: seq<DueView>, isLoading: bool): (v: PaymentsView)
    ensures v == Skeleton <==> isLoading
    ensures !isLoading ==> |v.rows| == |payments|
    ensures !isLoading ==> forall k :: 0 <= k < |v.rows| ==>
      v.rows[k].due == SortedPayments(payments)[k] && (v.rows[k].payNow <==> v.rows[k].due.status != Paid)
    ensures !isLoading ==> (v.noPayments <==> |payments| == 0)
  {
    if isLoading then Skeleton
    else PaymentsList(Map(SortedPayments(payments), PaymentRowOf), |payments| == 0)
  }

  /** Each payment appears exactly as often as in the prop, whatever the
      order. */
  lemma PaymentsAllListed(payments: seq<DueView>, d: DueView)
    ensures d in SortedPayments(payments) <==> d in payments
  {
    PermutationKeepsMembers(SortedPayments(payments), payments);
  }

  // ---------------------------------------------------------------------
  // PaymentReminder

  /** `overdueEntries`: overdue dues, and pending dues whose due date has
      passed. */
  predicate NeedsReminder(d: DueView, now: int) {
    d.status == Overdue || (d.status == Pending && d.dueDate <= now)
  }

  function OverdueEntries(dues: seq<DueView>, now: int): (r: seq<DueView>)
    ensures IsSubsequence(r, dues)
    ensures forall d :: d in r <==> d in dues && NeedsReminder(d, now)
    ensures forall k :: 0 <= k < |r| ==> r[k].status != Paid
  {
    var r := Filter(dues, (d: DueView) => NeedsReminder(d, now));
    forall d ensures d in r <==> d in dues && NeedsReminder(d, now) {
      FilterKeepsExactly(dues, (d: DueView) => NeedsReminder(d, now), d);
    }
    r
  }

  /** The panel renders nothing when no due needs a reminder. */
  function ReminderPanel(dues: seq<DueView>, now: int): (r: Option<seq<DueView>>)
    ensures r.None? <==> forall d :: d in dues ==> !NeedsReminder(d, now)
    ensures r.Some? ==> r.value == OverdueEntries(dues, now)
  {
    var entries := OverdueEntries(dues, now);
    if |entries| == 0 then None
    else
      assert entries[0] in entries;
      Some(entries)
  }

  /** `setSendingReminders(prev => [...prev, dueId])`. */
  function StartReminder(sending: seq<string>, id: string): (r: seq<string>)
    ensures id in r && |r| == |sending| + 1
    ensures forall x :: x != id ==> (x in r <==> x in sending)
  {
    sending + [id]
  }

  /** `setSendingReminders(prev => prev.filter(id => id !== dueId))`, run
      in `finally`, so whether or not the send failed. */
  function FinishReminder(sending: seq<string>, id: string): (r: seq<string>)
    ensures id !in r
    ensures forall x :: x != id ==> (x in r <==> x in sending)
    ensures IsSubsequence(r, sending)
  {
    var r := Filter(sending, (x: string) => x != id);
    forall x ensures x in r <==> x in sending && x != id {
      FilterKeepsExactly(sending, (x: string) => x != id, x);
    }
    r
  }

  /** A finished single reminder leaves the sending set as it found it,
      as long as that id was not already being sent. */
  lemma ReminderRoundTrip(sending: seq<string>, id: string)
    requires id !in sending
    ensures FinishReminder(StartReminder(sending, id), id) == sending
  {
    FilterAppend(sending, [id], (x: string) => x != id);
    FilterAllTrue(sending, (x: string) => x != id);
    assert Filter([id], (x: string) => x != id) == [];
  }

  function DueId(d: DueView): string { d.id }

  /** `setSendingReminders(overdueEntries.map(due => due.id))`. */
  function StartBulk(dues: seq<DueView>, now: int): (r: seq<string>)
    ensures |r| == |OverdueEntries(dues, now)|
    ensures forall d :: d in OverdueEntries(dues, now) ==> d.id in r
  {
    var entries := OverdueEntries(dues, now);
    var r := Map(entries, DueId);
    forall d | d in entries ensures d.id in r {
      var k :| 0 <= k < |entries| && entries[k] == d;
      assert r[k] == d.id;
    }
    r
  }

  /** The "Send All Reminders" button. */
  predicate BulkDisabled(sending: seq<string>) { |sending| > 0 }

  /** The row button of one due. */
  predicate RowDisabled(sending: seq<string>, id: string) { id in sending }

  /** While a bulk send runs, every button of the panel is disabled; once
      it has finished, none is. */
  lemma BulkSendDisablesEveryButton(dues: seq<DueView>, now: int, d: DueView)
    requires ReminderPanel(dues, now).Some?
    requires d in OverdueEntries(dues, now)
    ensures BulkDisabled(StartBulk(dues, now)) && RowDisabled(StartBulk(dues, now), d.id)
    ensures !BulkDisabled([]) && !RowDisabled([], d.id)
  {
  }

  /** A single send disables its own row and the bulk button, and no
      other row's state changes. */
  lemma SingleSendDisablesOnlyItsRow(sending: seq<string>, id: string, other: string)
    requires other != id
    ensures RowDisabled(StartReminder(sending, id), id) && BulkDisabled(StartReminder(sending, id))
    ensures RowDisabled(StartReminder(sending, id), other) <==> RowDisabled(sending, other)
    ensures RowDisabled(FinishReminder(sending, id), other) <==> RowDisabled(sending, other)
  {
  }

  // ---------------------------------------------------------------------
  // RetailersList

  /** A retailer as the supplier dashboard receives it; `phone` and
      `address` are `null` when the profile has none. */
  datatype RetailerRow = RetailerRow(id: int, businessName: string, phone: Option<string>, address: Option<string>)

  predicate NameMatches(r: RetailerRow, query: string) {
    IncludesIgnoringCase(r.businessName, query)
  }

  /** The filter reaches `retailer.phone.includes(...)` only when the name
      does not match, and on a `null` phone that call throws a
      `TypeError`. */
  predicate FilterThrows(r: RetailerRow, query: string) {
    !NameMatches(r, query) && r.phone.None?
  }

  predicate RetailerMatches(r: RetailerRow, query: string) {
    NameMatches(r, query) || (r.phone.Some? && Includes(r.phone.value, query))
  }

  /** `a.business_name.localeCompare(b.business_name) <= 0`. */
  predicate NameNotAfter(a: RetailerRow, b: RetailerRow) {
    LexLe(a.businessName, b.businessName)
  }

  predicate RetailerUnordered(a: RetailerRow, b: RetailerRow) { true }

  lemma NameNotAfterIsPreorder()
    ensures TotalPreorder(NameNotAfter)
  {
    forall a: RetailerRow, b: RetailerRow ensures NameNotAfter(a, b) || NameNotAfter(b, a) {
      LexLeTotal(a.businessName, b.businessName);
    }
    forall a: RetailerRow, b: RetailerRow, c: RetailerRow | NameNotAfter(a, b) && NameNotAfter(b, c)
      ensures NameNotAfter(a, c)
    {
      LexLeTransitive(a.businessName, b.businessName, c.businessName);
    }
  }

  /** `filteredRetailers`: `None` when the filter throws, which takes the
      list's render down with it. */
  function FilteredRetailers(retailers: seq<RetailerRow>, query: string, sortBy: string): (r: Option<seq<RetailerRow>>)
    ensures r.None? <==> exists k :: 0 <= k < |retailers| && FilterThrows(retailers[k], query)
    ensures r.Some? ==> forall x :: multiset(r.value)[x] == if RetailerMatches(x, query) then multiset(retailers)[x] else 0
    ensures r.Some? && sortBy == "name" ==>
      forall i, j :: 0 <= i < j < |r.value| ==> LexLe(r.value[i].businessName, r.value[j].businessName)
    ensures r.Some? && sortBy != "name" ==> r.value == Filter(retailers, (x: RetailerRow) => RetailerMatches(x, query))
  {
    if exists k :: 0 <= k < |retailers| && FilterThrows(retailers[k], query) then
      None
    else
      var shown := Filter(retailers, (x: RetailerRow) => RetailerMatches(x, query));
      if sortBy == "name" then
        NameNotAfterIsPreorder();
        Some(SortBy(shown, NameNotAfter))
      else
        SortByAllTiedIsIdentity(shown, RetailerUnordered);
        Some(SortBy(shown, RetailerUnordered))
  }

  /** The list renders with an empty query whatever the phones: every
      name contains the empty string, so no phone is read. */
  lemma EmptyQueryNeverThrows(retailers: seq<RetailerRow>, sortBy: string)
    ensures FilteredRetailers(retailers, "", sortBy).Some?
  {
    forall k | 0 <= k < |retailers| ensures NameMatches(retailers[k], "") {
      assert OccursAt(Lower(retailers[k].businessName), Lower(""), 0);
    }
  }

  /** A retailer without a phone whose name misses a query breaks the
      list, even when another retailer matches. */
  lemma NullPhoneBreaksSearch(retailers: seq<RetailerRow>, query: string, sortBy: string, k: nat)
    requires k < |retailers| && retailers[k].phone.None?
    requires !IncludesIgnoringCase(retailers[k].businessName, query)
    ensures FilteredRetailers(retailers, query, sortBy).None?
  {
  }

  /** 'No retailers found' shows exactly when the list renders and no
      retailer matches. */
  lemma NoRetailersFoundIffNoneMatch(retailers: seq<RetailerRow>, query: string, sortBy: string)
    ensures FilteredRetailers(retailers, query, sortBy).Some? ==>
      (|FilteredRetailers(retailers, query, sortBy).value| == 0 <==>
         forall k :: 0 <= k < |retailers| ==> !RetailerMatches(retailers[k], query))
  {
  }

  // ---------------------------------------------------------------------
  // RetailerAssessmentList

  datatype AssessmentRow = AssessmentRow(id: string, businessName: string, creditScore: int, status: AssessmentStatus)

  predicate AssessmentShown(r: AssessmentRow, query: string, filter: string) {
    IncludesIgnoringCase(r.businessName, query) && (filter == "all" || AssessmentStatusName(r.status) == filter)
  }

  /** `filteredRetailers` of the fintech list: no sorting, so the order
      of the fetched list is kept. */
  function FilteredAssessments(rows: seq<AssessmentRow>, query: string, filter: string): (r: seq<AssessmentRow>)
    ensures IsSubsequence(r, rows)
    ensures forall x :: x in r <==> x in rows && AssessmentShown(x, query, filter)
  {
    var r := Filter(rows, (x: AssessmentRow) => AssessmentShown(x, query, filter));
    forall x ensures x in r <==> x in rows && AssessmentShown(x, query, filter) {
      FilterKeepsExactly(rows, (x: AssessmentRow) => AssessmentShown(x, query, filter), x);
    }
    r
  }

  /** An empty search with the filter `'all'` shows the list unchanged. */
  lemma UnfilteredAssessmentsUnchanged(rows: seq<AssessmentRow>)
    ensures FilteredAssessments(rows, "", "all") == rows
  {
    forall k | 0 <= k < |rows| ensures AssessmentShown(rows[k], "", "all") {
      EmptyIncluded(rows[k].businessName);
    }
    FilterAllTrue(rows, (x: AssessmentRow) => AssessmentShown(x, "", "all"));
  }

  /** The empty-state message shows exactly when no row passes. */
  lemma NoAssessmentsIffNoneShown(rows: seq<AssessmentRow>, query: string, filter: string)
    ensures |FilteredAssessments(rows, query, filter)| == 0
        <==> forall k :: 0 <= k < |rows| ==> !AssessmentShown(rows[k], query, filter)
  {
    var r := FilteredAssessments(rows, query, filter);
    if |r| > 0 {
      assert r[0] in r;
    } else {
      forall k | 0 <= k < |rows| ensures !AssessmentShown(rows[k], query, filter) {
        assert rows[k] in rows;
      }
    }
  }

  // ---------------------------------------------------------------------
  // TransactionHistory

  const MsPerDay: int := 86_400_000

  /** A transaction as the history receives it; `date` in milliseconds. */
  datatype TxView = TxView(id: string, date: int, description: string, amount: int, supplierName: string)

  predicate TxMatchesSearch(t: TxView, query: string) {
    IncludesIgnoringCase(t.description, query) || IncludesIgnoringCase(t.supplierName, query)
  }

  /** `toDateString()`: the calendar day, counted in whole days. */
  function CalendarDay(ts: int): int {
    ts / MsPerDay
  }

  /** The predicate of `filteredTransactions`. `monthAgo` is the instant
      one calendar month before `now`. */
  predicate TxShown(t: TxView, query: string, dateFilter: string, now: int, monthAgo: int) {
    if dateFilter == "all" then TxMatchesSearch(t, query)
    else match dateFilter
      case "today" => TxMatchesSearch(t, query) && CalendarDay(t.date) == CalendarDay(now)
      case "week" => TxMatchesSearch(t, query) && t.date >= now - 7 * MsPerDay
      case "month" => TxMatchesSearch(t, query) && t.date >= monthAgo
      case _ => TxMatchesSearch(t, query)
  }

  function FilteredTransactions(txs: seq<TxView>, query: string, dateFilter: string, now: int, monthAgo: int)
    : (r: seq<TxView>)
    ensures IsSubsequence(r, txs)
    ensures dateFilter != "today" && dateFilter != "week" && dateFilter != "month" ==>
      forall t :: t in r <==> t in txs && TxMatchesSearch(t, query)
    ensures dateFilter == "today" ==>
      forall t :: t in r <==> t in txs && TxMatchesSearch(t, query) && CalendarDay(t.date) == CalendarDay(now)
    ensures dateFilter == "week" ==>
      forall t :: t in r <==> t in txs && TxMatchesSearch(t, query) && t.date >= now - 7 * MsPerDay
    ensures dateFilter == "month" ==>
      forall t :: t in r <==> t in txs && TxMatchesSearch(t, query) && t.date >= monthAgo
  {
    var keep := (t: TxView) => TxShown(t, query, dateFilter, now, monthAgo);
    var r := Filter(txs, keep);
    forall t ensures t in r <==> t in txs && TxShown(t, query, dateFilter, now, monthAgo) {
      FilterKeepsExactly(txs, keep, t);
    }
    TxShownCases(query, dateFilter, now, monthAgo);
    r
  }

  /** `TxShown` case by case. */
  lemma TxShownCases(query: string, dateFilter: string, now: int, monthAgo: int)
    ensures dateFilter != "today" && dateFilter != "week" && dateFilter != "month" ==>
      forall t :: TxShown(t, query, dateFilter, now, monthAgo) <==> TxMatchesSearch(t, query)
    ensures dateFilter == "today" ==> forall t :: TxShown(t, query, dateFilter, now, monthAgo) <==>
      TxMatchesSearch(t, query) && CalendarDay(t.date) == CalendarDay(now)
    ensures dateFilter == "week" ==> forall t :: TxShown(t, query, dateFilter, now, monthAgo) <==>
      TxMatchesSearch(t, query) && t.date >= now - 7 * MsPerDay
    ensures dateFilter == "month" ==> forall t :: TxShown(t, query, dateFilter, now, monthAgo) <==>
      TxMatchesSearch(t, query) && t.date >= monthAgo
  {
  }

  /** Anything from today is within the last week. */
  lemma TodayWithinWeek(txs: seq<TxView>, query: string, now: int, monthAgo: int, t: TxView)
    requires t in FilteredTransactions(txs, query, "today", now, monthAgo)
    ensures t in FilteredTransactions(txs, query, "week", now, monthAgo)
  {
    assert CalendarDay(t.date) == CalendarDay(now);
    assert t.date >= CalendarDay(now) * MsPerDay;
    assert now < (CalendarDay(now) + 1) * MsPerDay;
  }

  /** Anything from the last week is within the last month, a month
      being longer than a week. */
  lemma WeekWithinMonth(txs: seq<TxView>, query: string, now: int, monthAgo: int, t: TxView)
    requires monthAgo <= now - 7 * MsPerDay
    requires t in FilteredTransactions(txs, query, "week", now, monthAgo)
    ensures t in FilteredTransactions(txs, query, "month", now, monthAgo)
  {
  }
}

=== FILE: messages.dfy ===
/**
 The validation messages of the forms, as the pages word them. Kept as
 named constants so that each form refers to a message by name.
 */
module Messages {
  const AddressRequired: string := "Address is required"
  const BankAccountRequired: string := "Bank account number is required"
  const BankBranchRequired: string := "Bank branch is required"
  const BankNameRequired: string := "Bank name is required"
  const BusinessAddressRequired: string := "Business address is required"
  const BusinessNameRequired: string := "Business name is required"
  const BusinessTypeRequired: string := "Business type is required"
  const CompanyNameRequired: string := "Company name is required"
  const ConfirmRequired: string := "Please confirm your password"
  const CreditLimitRequired: string := "Credit limit is required"
  const CreditLimitTooLow: string := "Minimum credit limit should be ₹1,00,000"
  const EmailInvalid: string := "Invalid email address"
  const EmailRequired: string := "Email is required"
  const EmployeeCountRequired: string := "Employee count is required"
  const EmployeeCountTooLow: string := "Must have at least 1 employee"
  const GstFormatInvalid: string := "Invalid GST number format"
  const GstInvalid: string := "Invalid GST number"
  const GstRequired: string := "GST number is required"
  const IfscFormatInvalid: string := "Invalid IFSC code format"
  const IfscRequired: string := "IFSC code is required"
  const InterestRateNegative: string := "Interest rate cannot be negative"
  const InterestRateRequired: string := "Interest rate is required"
  const InterestRateTooHigh: string := "Interest rate cannot exceed 100%"
  const LicenseNumberRequired: string := "License number is required"
  const LoanAmountRequired: string := "Loan amount is required if you have existing loans"
  const LoanProviderRequired: string := "Loan provider is required if you have existing loans"
  const ModalTurnoverTooLow: string := "Minimum turnover should be ₹1,00,000"
  const MonthlyEmiRequired: string := "Monthly EMI is required if you have existing loans"
  const PanFormatInvalid: string := "Invalid PAN number format"
  const PanRequired: string := "PAN number is required"
  const PasswordRequired: string := "Password is required"
  const PasswordTooShort: string := "Password must be at least 8 characters"
  const PasswordsDiffer: string := "Passwords do not match"
  const PhoneInvalid: string := "Invalid phone number"
  const PhoneRequired: string := "Phone number is required"
  const RegistrationNumberRequired: string := "Registration number is required"
  const RentNegative: string := "Rent must be 0 or greater"
  const RentRequired: string := "Monthly rent is required for rented shops"
  const ShopOwnershipRequired: string := "Shop ownership is required"
  const TurnoverNegative: string := "Turnover must be 0 or greater"
  const TurnoverRequired: string := "Annual turnover is required"
  const UserTypeRequired: string := "Please select a business type"
  const YearsNegative: string := "Years must be 0 or greater"
  const YearsRequired: string := "Years in business is required"}

=== FILE: pages.dfy ===
/**
 The submit handlers of the three entry pages: LoginPage, RegisterPage
 and FintechRegistration (src/pages/). Each runs only after
 react-hook-form (or the page's own check) accepted the inputs, awaits
 one session action, and keeps its own `error` and loading flags.
 */
module Pages {
  import opened Common
  import opened Session
  import Forms
  import Msg = Messages

  // ---------------------------------------------------------------------
  // LoginPage

  datatype LoginPage = LoginPage(email: string, password: string, isLoading: bool, error: Option<string>)

  const LoginFieldsMissing: string := "Email and password are required"

  /** `validateForm`. */
  predicate LoginFormValid(email: string, password: string) {
    email != "" && password != ""
  }

  /** What a submit leaves behind: the page, the session, and whether
      `login` was called at all. */
  datatype LoginSubmitted = LoginSubmitted(page: LoginPage, session: State, loginCalled: bool)

  /** The page's first render: empty fields, no message. */
  const FreshLoginPage: LoginPage := LoginPage("", "", false, None)

  /** Whether a reply is a 401, which makes the interceptor reload the
      page at `/login`. */
  predicate Unauthorized<T>(reply: Reply<T>) {
    reply.Fail? && reply.err.status == Some(401)
  }

  /** `handleSubmit`. The message shown on failure is `authError` as the
      page read it when it last rendered, that is the session error from
      before this attempt, not the one `login` has just set. A 401 reloads
      the page, which renders the login page afresh. */
  function LoginSubmit(p: LoginPage, s: State, reply: Reply<AuthResponse>): (r: LoginSubmitted)
    ensures !LoginFormValid(p.email, p.password) ==>
      r == LoginSubmitted(p.(error := Some(LoginFieldsMissing)), s, false)
    ensures LoginFormValid(p.email, p.password) ==>
      r.loginCalled && !r.page.isLoading && r.session == Login(s, reply).state
    ensures LoginFormValid(p.email, p.password) && !Unauthorized(reply) ==>
      r.page.email == p.email && r.page.password == p.password
    ensures LoginFormValid(p.email, p.password) && reply.Fail? && !Unauthorized(reply) ==>
      r.page.error == Some(OrElse(s.error.GetOr(""), "Invalid credentials"))
    ensures LoginFormValid(p.email, p.password) && Unauthorized(reply) ==> r.page == FreshLoginPage
    ensures LoginFormValid(p.email, p.password) && reply.Ok? ==> r.page.error.None?
  {
    if !LoginFormValid(p.email, p.password) then
      LoginSubmitted(p.(error := Some(LoginFieldsMissing)), s, false)
    else
      var o := Login(s, reply);
      if Unauthorized(reply) then LoginSubmitted(FreshLoginPage, o.state, true)
      else
        var error := if o.thrown.Some? then Some(OrElse(s.error.GetOr(""), "Invalid credentials")) else None;
        LoginSubmitted(p.(isLoading := false, error := error), o.state, true)
  }

  /** The page's message does not depend on what this attempt's server
      said: after a first failure it is always the fallback, while the
      session error holds the server's own message. After a 401 neither
      shows anything: the page has been reloaded. */
  lemma LoginPageShowsPreviousError(p: LoginPage, s: State, err: HttpError)
    requires LoginFormValid(p.email, p.password)
    requires s.error.None?
    requires err.bodyError != ""
    ensures err.status != Some(401) ==>
      && LoginSubmit(p, s, Fail(err)).page.error == Some("Invalid credentials")
      && LoginSubmit(p, s, Fail(err)).session.error == Some(err.bodyError)
    ensures err.status == Some(401) ==>
      LoginSubmit(p, s, Fail(err)).page.error.None? && LoginSubmit(p, s, Fail(err)).session.error.None?
  {
  }

  // ---------------------------------------------------------------------
  // RegisterPage

  /** `registrationData`: the form's fields under the names the server
      expects. The confirmation is not sent. */
  function RegistrationData(f: Forms.RegisterForm): (d: RegisterData)
    ensures d.email == f.email && d.password == f.password && d.userType == f.userType
    ensures d.businessName == f.businessName && d.phone == f.phone
    ensures d.gstNumber == f.gstNumber && d.address == f.address
  {
    RegisterData(f.email, f.password, f.userType, f.businessName, f.phone, f.gstNumber, f.address)
  }

  datatype RegisterSubmitted = RegisterSubmitted(error: Option<string>, session: State, request: Option<RegisterData>)

  /** `onSubmit`. The context rethrows `new Error(message)` with a
      non-empty message, so `err.message` always wins over `authError`. */
  function RegisterSubmit(f: Forms.RegisterForm, s: State, reply: Reply<AuthResponse>): (r: RegisterSubmitted)
    ensures f.password != f.confirmPassword ==>
      r == RegisterSubmitted(Some(Msg.PasswordsDiffer), s, None)
    ensures f.password == f.confirmPassword ==>
      && r.request == RegisterRequest(RegistrationData(f))
      && r.session == Register(s, RegistrationData(f), reply).state
    ensures f.password == f.confirmPassword && !(r.request.Some? && Unauthorized(reply)) ==>
      r.error == Register(s, RegistrationData(f), reply).thrown
    ensures f.password == f.confirmPassword && r.request.Some? && Unauthorized(reply) ==>
      r.error.None? && r.session.location == "/login"
  {
    if f.password != f.confirmPassword then
      RegisterSubmitted(Some(Msg.PasswordsDiffer), s, None)
    else
      var data := RegistrationData(f);
      var o := Register(s, data, reply);
      if RegisterRequest(data).Some? && Unauthorized(reply) then
        // The reload at `/login` unmounts this page and its message.
        RegisterSubmitted(None, o.state, RegisterRequest(data))
      else
        var error := if o.thrown.Some? then Some(OrElse(o.thrown.value, OrElse(s.error.GetOr(""), "Registration failed"))) else None;
        RegisterSubmitted(error, o.state, RegisterRequest(data))
  }

  /** `handleSubmit` calls `onSubmit` only for a form without errors, and
      such a form always reaches the server with exactly its fields. */
  lemma ValidRegisterFormIsSent(f: Forms.RegisterForm, s: State, reply: Reply<AuthResponse>)
    requires Forms.RegisterFormErrors(f).None()
    ensures RegisterSubmit(f, s, reply).request == Some(RegistrationData(f))
    ensures reply.Fail? ==>
      RegisterSubmit(f, s, reply).error == RegisterSubmit(f, s, reply).session.error
  {
  }

  // ---------------------------------------------------------------------
  // FintechRegistration

  /** `{ ...data, user_type: 'fintech' }`. */
  datatype FintechRequest = FintechRequest(form: Forms.FintechForm, userType: string)

  function FintechPayload(f: Forms.FintechForm): (r: FintechRequest)
    ensures r.form == f && r.userType == "fintech"
  {
    FintechRequest(f, "fintech")
  }

  datatype FintechSubmitted = FintechSubmitted(loading: bool, error: Option<string>, location: string, request: Option<FintechRequest>)

  /** `onSubmit` as written: `auth.registerFintech` is not defined by the
      auth service, so calling it throws a `TypeError` before any request;
      the error has no `response`, and the page reports the fallback. */
  function FintechSubmitAsWritten(f: Forms.FintechForm, location: string): (r: FintechSubmitted)
    ensures !r.loading && r.location == location && r.request.None?
    ensures f.password != f.confirmPassword ==> r.error == Some(Msg.PasswordsDiffer)
    ensures f.password == f.confirmPassword ==> r.error == Some("Registration failed")
  {
    if f.password != f.confirmPassword then
      FintechSubmitted(false, Some(Msg.PasswordsDiffer), location, None)
    else
      var thrown := LocalError("auth.registerFintech is not a function");
      FintechSubmitted(false, Some(OrElse(thrown.bodyMessage, "Registration failed")), location, None)
  }

  /** Every valid fintech registration fails, whatever the server would
      have answered. */
  lemma FintechRegistrationNeverSucceeds(f: Forms.FintechForm, location: string)
    requires Forms.FintechFormErrors(f).None()
    ensures FintechSubmitAsWritten(f, location).error == Some("Registration failed")
    ensures FintechSubmitAsWritten(f, location).request.None?
    ensures FintechSubmitAsWritten(f, location).location == location
  {
  }

  /** `onSubmit` with a registration call that exists: the payload is
      posted, success navigates to the login page, and a failure shows
      the server's `message` or the fallback. */
  function FintechSubmit(f: Forms.FintechForm, location: string, reply: Reply<()>): (r: FintechSubmitted)
    ensures !r.loading
    ensures f.password != f.confirmPassword ==>
      r == FintechSubmitted(false, Some(Msg.PasswordsDiffer), location, None)
    ensures f.password == f.confirmPassword ==> r.request == Some(FintechPayload(f))
    ensures f.password == f.confirmPassword && reply.Ok? ==> r.error.None? && r.location == "/login"
    ensures f.password == f.confirmPassword && reply.Fail? && !Unauthorized(reply) ==>
      r.error == Some(OrElse(reply.err.bodyMessage, "Registration failed")) && r.location == location
    ensures f.password == f.confirmPassword && Unauthorized(reply) ==> r.error.None? && r.location == "/login"
  {
    if f.password != f.confirmPassword then
      FintechSubmitted(false, Some(Msg.PasswordsDiffer), location, None)
    else
      match reply
      case Ok(_) => FintechSubmitted(false, None, "/login", Some(FintechPayload(f)))
      case Fail(err) =>
        if err.status == Some(401) then
          // The reload at `/login` unmounts this page and its message.
          FintechSubmitted(false, None, "/login", Some(FintechPayload(f)))
        else
          FintechSubmitted(false, Some(OrElse(err.bodyMessage, "Registration failed")), location, Some(FintechPayload(f)))
  }

  /** The corrected handler differs from the one as written exactly when
      the passwords match: then it sends the request. */
  lemma FintechSubmitSendsValidForms(f: Forms.FintechForm, location: string, reply: Reply<()>)
    requires Forms.FintechFormErrors(f).None()
    ensures FintechSubmit(f, location, reply).request == Some(FintechPayload(f))
    ensures FintechSubmitAsWritten(f, location).request.None?
    ensures reply.Ok? ==> FintechSubmit(f, location, reply).location == "/login"
  {
  }
}

=== FILE: routes.dfy ===
/**
 The route table of `AppContent` and the `PrivateRoute` guard
 (src/App.tsx): which screen a path shows, or where it navigates, for a
 given session user and loading flag.
 */
module Routes {
  import opened Common
  import Domain
  import opened Session

  datatype Screen =
    | Landing | LoginScreen | RegisterScreen | FintechRegistrationScreen
    | RetailerDashboard | SupplierDashboard | FintechDashboard

  datatype View = Spinner | Navigate(to: string) | Show(screen: Screen)

  predicate IsPublic(s: Screen) {
    s == Landing || s == LoginScreen || s == RegisterScreen || s == FintechRegistrationScreen
  }

  function DashboardScreen(r: Domain.Role): Screen {
    match r
    case Retailer => RetailerDashboard
    case Supplier => SupplierDashboard
    case Fintech => FintechDashboard
  }

  /** `PrivateRoute`: a spinner while the session is loading, then either
      the guarded screen or a redirect to the login page. */
  function PrivateRoute(user: Option<User>, loading: bool, allowedRoles: seq<string>, screen: Screen): (v: View)
    ensures v == Spinner <==> loading
    ensures v == Navigate("/login") <==> !loading && (user.None? || user.value.userType !in allowedRoles)
    ensures v == Show(screen) <==> !loading && user.Some? && user.value.userType in allowedRoles
  {
    if loading then Spinner
    else if user.None? || user.value.userType !in allowedRoles then Navigate("/login")
    else Show(screen)
  }

  /** The public routes: a logged-in user is sent to
      `/${user.user_type}/dashboard`; the loading flag is not consulted. */
  function PublicRoute(user: Option<User>, screen: Screen): (v: View)
    ensures user.None? ==> v == Show(screen)
    ensures user.Some? ==> v == Navigate("/" + user.value.userType + "/dashboard")
  {
    if user.Some? then Navigate("/" + user.value.userType + "/dashboard") else Show(screen)
  }

  /** React Router's test of a literal route pattern against the
      location's pathname. The pattern compiles to an anchored regular
      expression with the `i` flag followed by a starred slash: ASCII
      letters match regardless of case and any run of trailing slashes is
      accepted. */
  predicate Matches(path: string, pattern: string) {
    |pattern| <= |path| && Lower(path[..|pattern|]) == pattern
    && forall i :: |pattern| <= i < |path| ==> path[i] == '/'
  }

  const KnownPaths: set<string> :=
    {"/", "/login", "/register", "/register/fintech",
     "/retailer/dashboard", "/supplier/dashboard", "/fintech/dashboard"}

  /** No pathname matches two of the route patterns, so the route the
      router ranks first is the only one that matches. */
  lemma {:induction false} MatchesOnlyOne(path: string, p: string, q: string)
    requires p in KnownPaths && q in KnownPaths
    requires Matches(path, p) && Matches(path, q)
    ensures p == q
  {
    var lp := Lower(path[..|p|]);
    var lq := Lower(path[..|q|]);
    assert forall i :: 0 <= i < |p| && i < |q| ==> p[i] == LowerChar(path[i]) == q[i] by {
      forall i | 0 <= i < |p| && i < |q| ensures p[i] == LowerChar(path[i]) == q[i] {
        assert lp[i] == LowerChar(path[..|p|][i]);
        assert lq[i] == LowerChar(path[..|q|][i]);
      }
    }
    assert lq[|q| - 1] == LowerChar(path[..|q|][|q| - 1]);
    assert lp[|p| - 1] == LowerChar(path[..|p|][|p| - 1]);
  }

  /** Every path without upper-case letters matches itself as a
      pattern; in particular each route's own path selects that route. */
  lemma PatternMatchesItself(p: string)
    requires forall i :: 0 <= i < |p| ==> !('A' <= p[i] <= 'Z')
    ensures Matches(p, p)
  {
    assert p[..|p|] == p;
    var l := Lower(p);
    assert forall i :: 0 <= i < |p| ==> l[i] == p[i];
  }

  /** The `<Routes>` of `AppContent`: the four public routes, the three
      guarded dashboards and the catch-all redirect home. */
  function Resolve(path: string, user: Option<User>, loading: bool): (v: View)
    ensures Matches(path, "/") ==> v == PublicRoute(user, Landing)
    ensures Matches(path, "/login") ==> v == PublicRoute(user, LoginScreen)
    ensures Matches(path, "/register") ==> v == PublicRoute(user, RegisterScreen)
    ensures Matches(path, "/register/fintech") ==> v == PublicRoute(user, FintechRegistrationScreen)
    ensures forall r: Domain.Role :: Matches(path, DashboardPath(Domain.RoleName(r))) ==>
      v == PrivateRoute(user, loading, [Domain.RoleName(r)], DashboardScreen(r))
    ensures (forall p :: p in KnownPaths ==> !Matches(path, p)) <==> v == Navigate("/")
  {
    OnlyOneRouteMatches(path);
    if Matches(path, "/") then PublicRoute(user, Landing)
    else if Matches(path, "/login") then PublicRoute(user, LoginScreen)
    else if Matches(path, "/register") then PublicRoute(user, RegisterScreen)
    else if Matches(path, "/register/fintech") then PublicRoute(user, FintechRegistrationScreen)
    else if Matches(path, "/retailer/dashboard") then PrivateRoute(user, loading, ["retailer"], RetailerDashboard)
    else if Matches(path, "/supplier/dashboard") then PrivateRoute(user, loading, ["supplier"], SupplierDashboard)
    else if Matches(path, "/fintech/dashboard") then PrivateRoute(user, loading, ["fintech"], FintechDashboard)
    else Navigate("/")
  }

  /** Helper: the pairwise exclusion of the patterns for one pathname. */
  lemma OnlyOneRouteMatches(path: string)
    ensures forall p, q :: p in KnownPaths && q in KnownPaths && Matches(path, p) && Matches(path, q) ==> p == q
  {
    forall p, q | p in KnownPaths && q in KnownPaths && Matches(path, p) && Matches(path, q) ensures p == q {
      MatchesOnlyOne(path, p, q);
    }
  }

  /** Case and trailing slashes do not matter; anything further does. */
  lemma RouteMatchingExamples(user: Option<User>, loading: bool)
    ensures Resolve("/Login/", user, loading) == Resolve("/login", user, loading)
    ensures Resolve("//", user, loading) == Resolve("/", user, loading)
    ensures Resolve("/login/x", None, false) == Navigate("/")
  {
    PatternMatchesItself("/login");
    PatternMatchesItself("/");
    assert Matches("/Login/", "/login") by {
      assert "/Login/"[..6] == "/Login";
      assert Lower("/Login") == "/login";
    }
    assert Matches("//", "/") by { assert "//"[..1] == "/"; }
    var x := "/login/x";
    assert !Matches(x, "/login") by { assert x[7] == 'x'; }
    forall p | p in KnownPaths ensures !Matches(x, p) {
      if 2 <= |p| <= |x| {
        assert Lower(x[..|p|])[1] == LowerChar(x[..|p|][1]);
      } else if |p| == 1 {
        assert x[1] == 'l';
      }
    }
  }

  /** Helper: the route table has eight outcomes. */
  lemma ResolveCases(path: string, user: Option<User>, loading: bool)
    ensures var v := Resolve(path, user, loading);
      || v == PublicRoute(user, Landing) || v == PublicRoute(user, LoginScreen)
      || v == PublicRoute(user, RegisterScreen) || v == PublicRoute(user, FintechRegistrationScreen)
      || v == PrivateRoute(user, loading, ["retailer"], RetailerDashboard)
      || v == PrivateRoute(user, loading, ["supplier"], SupplierDashboard)
      || v == PrivateRoute(user, loading, ["fintech"], FintechDashboard)
      || v == Navigate("/")
  {
  }

  /** Helper: the landing and login paths select their own routes. */
  lemma ResolvePublicPaths(user: Option<User>, loading: bool)
    ensures Resolve("/", user, loading) == PublicRoute(user, Landing)
    ensures Resolve("/login", user, loading) == PublicRoute(user, LoginScreen)
  {
    PatternMatchesItself("/login");
    PatternMatchesItself("/");
  }

  /** Helper: each dashboard path selects its own guarded route. */
  lemma ResolveDashboardPath(r: Domain.Role, user: Option<User>, loading: bool)
    ensures Resolve(DashboardPath(Domain.RoleName(r)), user, loading)
         == PrivateRoute(user, loading, [Domain.RoleName(r)], DashboardScreen(r))
  {
    PatternMatchesItself(DashboardPath(Domain.RoleName(r)));
  }

  /** The view reached by following at most `hops` navigations. */
  function Follow(path: string, user: Option<User>, loading: bool, hops: nat): View
    decreases hops
  {
    match Resolve(path, user, loading)
    case Navigate(to) => if hops == 0 then Navigate(to) else Follow(to, user, loading, hops - 1)
    case v => v
  }

  /** Each dashboard admits exactly one role. */
  lemma {:induction false} DashboardAdmitsOneRole(r: Domain.Role, u: User)
    ensures Resolve(DashboardPath(Domain.RoleName(r)), Some(u), false) == Show(DashboardScreen(r))
        <==> u.userType == Domain.RoleName(r)
  {
    ResolveDashboardPath(r, Some(u), false);
  }

  /** Once the session has loaded, a user with one of the three roles
      ends on that role's dashboard from any path, after at most three
      redirects (a foreign dashboard goes to `/login`, which goes to the
      user's own dashboard). */
  lemma {:induction false} LoggedInUserReachesOwnDashboard(path: string, u: User, r: Domain.Role)
    requires u.userType == Domain.RoleName(r)
    ensures Follow(path, Some(u), false, 3) == Show(DashboardScreen(r))
  {
    LoggedInFirstHop(path, u, r);
    LoggedInFromFixedPaths(u, r);
  }

  /** Helper: from the dashboard itself, the login page and the landing
      page a loaded user reaches the dashboard within one or two hops. */
  lemma {:induction false} LoggedInFromFixedPaths(u: User, r: Domain.Role)
    requires u.userType == Domain.RoleName(r)
    ensures var home := DashboardPath(Domain.RoleName(r));
      Follow(home, Some(u), false, 2) == Show(DashboardScreen(r))
      && Follow("/login", Some(u), false, 2) == Show(DashboardScreen(r))
      && Follow("/", Some(u), false, 2) == Show(DashboardScreen(r))
  {
    ResolveDashboardPath(r, Some(u), false);
    ResolvePublicPaths(Some(u), false);
  }

  /** Helper: the first hop of a loaded user with a role shows that
      role's dashboard or navigates home, to the login page or to it. */
  lemma {:induction false} LoggedInFirstHop(path: string, u: User, r: Domain.Role)
    requires u.userType == Domain.RoleName(r)
    ensures var v := Resolve(path, Some(u), false);
      v == Show(DashboardScreen(r)) || v == Navigate(DashboardPath(Domain.RoleName(r)))
      || v == Navigate("/login") || v == Navigate("/")
  {
    ResolveCases(path, Some(u), false);
    Domain.RoleNameRoundTrip(r);
    forall r': Domain.Role | Domain.RoleName(r') == Domain.RoleName(r) ensures r' == r {
      Domain.RoleNameRoundTrip(r');
    }
  }

  /** Without a user every path ends on a public screen within two
      redirects. */
  lemma {:induction false} LoggedOutUserReachesPublicScreen(path: string)
    ensures Follow(path, None, false, 2).Show?
    ensures IsPublic(Follow(path, None, false, 2).screen)
  {
    ResolveCases(path, None, false);
    ResolvePublicPaths(None, false);
  }

  /** After a 401 the reloaded application shows the login screen: the
      reload has dropped the user, so `/login` does not send anyone on to
      a dashboard. */
  lemma UnauthorizedShowsLogin(s: State, err: HttpError)
    requires err.status == Some(401)
    ensures var r := Intercept(s, err);
      Resolve(r.location, r.user, r.loading) == Show(LoginScreen)
  {
    ResolvePublicPaths(None, true);
  }

  /** While the session loads, guarded paths neither show nor redirect. */
  lemma {:induction false} LoadingNeverRedirectsFromDashboards(r: Domain.Role, user: Option<User>)
    ensures Resolve(DashboardPath(Domain.RoleName(r)), user, true) == Spinner
  {
    ResolveDashboardPath(r, user, true);
  }
}

=== FILE: search.dfy ===
/**
 The two retailer searches: the supplier dashboard's `RetailerSearch`
 (src/components/dashboard/RetailerSearch.tsx) and `RetailerSelectModal`
 (src/components/modals/RetailerSelectModal.tsx). Both send a query to
 the server only once it has three characters; they differ in what they
 do with shorter queries, with blank ones and with failures.

 A handler is a function from the component state before it to the
 state after its awaited call has settled, together with the argument
 it passed to `retailers.search`, if any; the server's answer is a
 parameter. src/services/api.ts:70 puts that argument into the URL
 without encoding it, so the `q` the server reads is not always the
 same text (`a&b` arrives as `a`); the server's side is not modelled.
 */
module Search {
  import opened Common
  import Validators
  import Views

  /** A retailer as the search endpoint returns it. */
  datatype Hit = Hit(id: string, businessName: string, phone: string, address: string, paymentHistory: string)

  /** `query.length >= 3`, counted in UTF-16 code units. */
  predicate LongEnough(query: string) {
    Validators.Utf16Length(query) >= 3
  }

  /** `!query.trim()`. */
  predicate Blank(query: string) {
    Trim(query) == ""
  }

  // ---------------------------------------------------------------------
  // RetailerSearch

  const SearchFailed: string := "Failed to search retailers. Please try again."

  datatype SearchState = SearchState(
    query: string, results: seq<Hit>, isLoading: bool, error: Option<string>, recent: seq<Hit>)

  function InitialSearch(): (s: SearchState)
    ensures s.query == "" && s.results == [] && s.recent == []
    ensures !s.isLoading && s.error.None?
  {
    SearchState("", [], false, None, [])
  }

  /** `loadRecentRetailers` on mount: a failure is only logged. */
  function LoadRecent(s: SearchState, reply: Reply<seq<Hit>>): (r: SearchState)
    ensures reply.Ok? ==> r == s.(recent := reply.value)
    ensures reply.Fail? ==> r == s
  {
    match reply
    case Ok(hits) => s.(recent := hits)
    case Fail(_) => s
  }

  datatype Searched = Searched(state: SearchState, request: Option<string>)

  /** `handleSearch`. The blank test trims the query; the length test and
      the request use it untrimmed. `finally` clears the loading flag on
      every path, the early returns included. */
  function HandleSearch(s: SearchState, query: string, reply: Reply<seq<Hit>>): (r: Searched)
    ensures r.state.query == query && !r.state.isLoading && r.state.recent == s.recent
    ensures r.request.Some? <==> !Blank(query) && LongEnough(query)
    ensures r.request.Some? ==> r.request.value == query
    ensures Blank(query) ==> r.state.results == s.recent && r.state.error.None?
    ensures !Blank(query) && !LongEnough(query) ==> r.state.results == s.results && r.state.error.None?
    ensures r.request.Some? && reply.Ok? ==> r.state.results == reply.value && r.state.error.None?
    ensures r.request.Some? && reply.Fail? ==> r.state.results == [] && r.state.error == Some(SearchFailed)
  {
    var typed := s.(query := query, error := None);
    if Blank(query) then
      Searched(typed.(results := s.recent, isLoading := false), None)
    else if !LongEnough(query) then
      Searched(typed.(isLoading := false), None)
    else
      match reply
      case Ok(hits) => Searched(typed.(results := hits, isLoading := false), Some(query))
      case Fail(_) => Searched(typed.(results := [], error := Some(SearchFailed), isLoading := false), Some(query))
  }

  /** However long, a query of white space only is never sent. */
  lemma WhiteSpaceNeverSearched(s: SearchState, query: string, reply: Reply<seq<Hit>>)
    requires forall i :: 0 <= i < |query| ==> IsJsSpace(query[i])
    ensures HandleSearch(s, query, reply).request.None?
    ensures HandleSearch(s, query, reply).state.results == s.recent
  {
    TrimEmptyIffAllSpace(query);
  }

  /** Deleting characters below the threshold keeps the results of the
      last search on screen rather than clearing them. */
  lemma ShorteningKeepsStaleResults(s: SearchState, hits: seq<Hit>, reply: Reply<seq<Hit>>)
    ensures var after := HandleSearch(s, "abc", Ok(hits)).state;
      HandleSearch(after, "ab", reply).state.results == hits
  {
    assert "abc"[1..] == "bc" && "bc"[1..] == "c" && "c"[1..] == "";
    assert LongEnough("abc");
    assert "ab"[1..] == "b" && "b"[1..] == "";
    assert Validators.Utf16Length("ab") == 2;
    assert !Blank("abc") by { TrimEmptyIffAllSpace("abc"); assert !IsJsSpace("abc"[0]); }
    assert !Blank("ab") by { TrimEmptyIffAllSpace("ab"); assert !IsJsSpace("ab"[0]); }
  }

  /** What the results panel shows, in the order the JSX tests it. */
  datatype Panel =
    | Searching
    | ErrorMessage(message: string)
    | Results(hits: seq<Hit>)
    | NoMatch(query: string)
    | RecentList(hits: seq<Hit>)
    | StartTyping

  function SearchPanel(s: SearchState): (p: Panel)
    ensures s.isLoading <==> p == Searching
    ensures !s.isLoading && s.error.Some? && s.error.value != "" ==> p == ErrorMessage(s.error.value)
    ensures p.Results? ==> p.hits == s.results && |s.results| > 0
    ensures p.NoMatch? <==>
      !s.isLoading && (s.error.None? || s.error.value == "") && |s.results| == 0 && LongEnough(s.query)
    ensures p.RecentList? ==> p.hits == s.recent && |s.recent| > 0 && !LongEnough(s.query)
    ensures !s.isLoading && (s.error.None? || s.error.value == "") && |s.results| > 0 ==> p == Results(s.results)
    ensures !s.isLoading && (s.error.None? || s.error.value == "") && |s.results| == 0 && !LongEnough(s.query) ==>
      (|s.recent| > 0 ==> p == RecentList(s.recent)) && (|s.recent| == 0 ==> p == StartTyping)
  {
    if s.isLoading then Searching
    else if s.error.Some? && s.error.value != "" then ErrorMessage(s.error.value)
    else if |s.results| > 0 then Results(s.results)
    else if LongEnough(s.query) then NoMatch(s.query)
    else if |s.recent| > 0 then RecentList(s.recent)
    else StartTyping
  }

  /** After a failed search the panel shows the failure, not an empty
      result. */
  lemma FailedSearchShowsError(s: SearchState, query: string, err: HttpError)
    requires !Blank(query) && LongEnough(query)
    ensures SearchPanel(HandleSearch(s, query, Fail(err)).state) == ErrorMessage(SearchFailed)
  {
  }

  /** `getPaymentHistoryColor`. */
  function HistoryColor(history: string): (c: string)
    ensures history == "excellent" ==> c == "text-green-600 bg-green-50"
    ensures history == "good" ==> c == "text-blue-600 bg-blue-50"
    ensures history == "fair" ==> c == "text-yellow-600 bg-yellow-50"
    ensures history != "excellent" && history != "good" && history != "fair" ==> c == "text-gray-600 bg-gray-50"
  {
    match history
    case "excellent" => "text-green-600 bg-green-50"
    case "good" => "text-blue-600 bg-blue-50"
    case "fair" => "text-yellow-600 bg-yellow-50"
    case _ => "text-gray-600 bg-gray-50"
  }

  /** Of the grades the server computes, the three real ones get their
      own colours, and only a retailer without dues is shown in gray. */
  lemma HistoryColorsOfGrades(h: Views.PaymentHistory, h': Views.PaymentHistory)
    ensures HistoryColor(Views.PaymentHistoryName(h)) == "text-gray-600 bg-gray-50" <==> h == Views.New
    ensures HistoryColor(Views.PaymentHistoryName(h)) == HistoryColor(Views.PaymentHistoryName(h')) <==> h == h'
  {
  }

  // ---------------------------------------------------------------------
  // RetailerSelectModal

  datatype ModalState = ModalState(query: string, results: seq<Hit>, isLoading: bool)

  /** The effect run when `isOpen` changes: opening clears the query and
      the results. */
  function OnOpenChange(s: ModalState, isOpen: bool): (r: ModalState)
    ensures isOpen ==> r.query == "" && r.results == [] && r.isLoading == s.isLoading
    ensures !isOpen ==> r == s
  {
    if isOpen then s.(query := "", results := []) else s
  }

  datatype ModalSearched = ModalSearched(state: ModalState, request: Option<string>)

  /** `handleSearch` of the modal: a short query clears the results
      without a request; a failure is swallowed and leaves no results. */
  function ModalSearch(s: ModalState, query: string, reply: Reply<seq<Hit>>): (r: ModalSearched)
    ensures r.state.query == query
    ensures !LongEnough(query) ==> r == ModalSearched(ModalState(query, [], s.isLoading), None)
    ensures LongEnough(query) ==> r.request == Some(query) && !r.state.isLoading
    ensures LongEnough(query) ==> r.state.results == (if reply.Ok? then reply.value else [])
  {
    if !LongEnough(query) then
      ModalSearched(s.(query := query, results := []), None)
    else
      var results := match reply case Ok(hits) => hits case Fail(_) => [];
      ModalSearched(ModalState(query, results, false), Some(query))
  }

  /** The modal's body when it is open. */
  datatype ModalBody = ModalBody(spinner: bool, rows: seq<Hit>, noneFound: bool)

  /** The modal renders nothing while closed; 'No retailers found' shows
      for a long-enough query with no results once nothing is loading. */
  function ModalView(isOpen: bool, s: ModalState): (v: Option<ModalBody>)
    ensures v.None? <==> !isOpen
    ensures v.Some? ==> v.value.spinner == s.isLoading && v.value.rows == s.results
    ensures v.Some? ==> (v.value.noneFound <==> LongEnough(s.query) && |s.results| == 0 && !s.isLoading)
  {
    if !isOpen then None
    else Some(ModalBody(s.isLoading, s.results, LongEnough(s.query) && |s.results| == 0 && !s.isLoading))
  }

  /** Right after opening, the modal shows neither rows nor the
      'No retailers found' message. */
  lemma OpenedModalIsEmpty(s: ModalState)
    ensures ModalView(true, OnOpenChange(s, true)).value.rows == []
    ensures !ModalView(true, OnOpenChange(s, true)).value.noneFound
  {
  }

  /** A server failure is indistinguishable from an empty answer: both end
      in 'No retailers found'. */
  lemma ModalFailureLooksLikeNoMatch(s: ModalState, query: string, err: HttpError)
    requires LongEnough(query)
    ensures ModalSearch(s, query, Fail(err)) == ModalSearch(s, query, Ok([]))
    ensures ModalView(true, ModalSearch(s, query, Fail(err)).state).value.noneFound
  {
  }

  /** Unlike the dashboard search, a short query empties the modal's
      list, and a blank query of three spaces is sent to the server. */
  lemma ModalDiffersFromDashboardSearch(ss: SearchState, ms: ModalState, reply: Reply<seq<Hit>>)
    ensures ModalSearch(ms, "ab", reply).state.results == []
    ensures HandleSearch(ss, "ab", reply).state.results == ss.results
    ensures ModalSearch(ms, "   ", reply).request == Some("   ")
    ensures HandleSearch(ss, "   ", reply).request.None?
  {
    assert "ab"[1..] == "b" && "b"[1..] == "";
    assert Validators.Utf16Length("ab") == 2;
    assert "   "[1..] == "  " && "  "[1..] == " " && " "[1..] == "";
    assert LongEnough("   ");
    assert !Blank("ab") by { TrimEmptyIffAllSpace("ab"); assert !IsJsSpace("ab"[0]); }
    assert Blank("   ") by { TrimEmptyIffAllSpace("   "); }
  }
}

=== FILE: session.dfy ===
/**
 The browser session: what `AuthProvider` (src/context/AuthContext.tsx)
 keeps in React state, the `token` slot of `localStorage`, the shared
 `Authorization` header that src/services/api/auth.ts sets and deletes,
 the current location, and the two interceptors of src/services/api.ts.

 Every awaited server call is an abstract `Reply` parameter; an action
 that awaits one is a function from the state before it to the state
 after it has settled. React batches the intermediate `setLoading(true)`
 and `setError(null)` away from the final state, so only their lasting
 effects appear here.
 */
module Session {
  import opened Common
  import Domain

  /** The `user` object of the API responses. `userType` is kept as the
      string the server sent. */
  datatype User = User(id: int, email: string, userType: string, businessName: string)

  /** The body of a successful login or registration response. A body
      without a `token` field has `token == None`; an empty token is
      `Some("")`, which the stored-token check treats as no token. */
  datatype AuthResponse = AuthResponse(user: Option<User>, token: Option<string>)

  /** The body of `GET /profile/`. */
  datatype ProfileResponse = ProfileResponse(user: Option<User>)

  datatype State = State(
    storedToken: Option<string>,  // localStorage 'token'
    user: Option<User>,
    error: Option<string>,
    loading: bool,
    authHeader: Option<string>,   // api.defaults.headers.common['Authorization']
    location: string)

  /** How an awaited action settled: the final state and the message of
      the `Error` it rethrew to its caller, if it did. */
  datatype Outcome = Outcome(state: State, thrown: Option<string>)

  /** The provider's first render, before the startup check has run. */
  function Initial(storedToken: Option<string>, location: string): (s: State)
    ensures s.user.None? && s.error.None? && s.loading
    ensures s.storedToken == storedToken && s.location == location && s.authHeader.None?
  {
    State(storedToken, None, None, true, None, location)
  }

  /** `!token` is false: a stored token counts only when non-empty. */
  predicate HasToken(t: Option<string>) {
    t.Some? && t.value != ""
  }

  // ---------------------------------------------------------------------
  // Interceptors (src/services/api.ts)

  /** The response interceptor on a rejected call. A 401 assigns
      `window.location.href`, a full page load of `/login`: React state and
      the module's default `Authorization` header are gone, and only
      `localStorage` survives, so the provider starts over from its first
      render (its startup check, `CheckAuth`, runs next). Any other error
      changes nothing. The error is rejected onwards in every case. */
  function Intercept(s: State, err: HttpError): (r: State)
    ensures err.status == Some(401) ==> r == Initial(s.storedToken, "/login")
    ensures err.status != Some(401) ==> r == s
  {
    if err.status == Some(401) then Initial(s.storedToken, "/login") else s
  }

  const CsrfPrefix: string := "csrftoken="

  /** The first `'; '`-separated cookie row that starts with `csrftoken=`. */
  function CsrfRow(cookie: string): (r: Option<string>)
    ensures r.Some? ==> StartsWith(r.value, CsrfPrefix)
    ensures r.Some? ==> exists k :: 0 <= k < |Split(cookie, "; ")| && Split(cookie, "; ")[k] == r.value
                                   && forall j :: 0 <= j < k ==> !StartsWith(Split(cookie, "; ")[j], CsrfPrefix)
    ensures r.None? <==> forall k :: 0 <= k < |Split(cookie, "; ")| ==> !StartsWith(Split(cookie, "; ")[k], CsrfPrefix)
  {
    var rows := Split(cookie, "; ");
    match FindFirst(rows, (row: string) => StartsWith(row, CsrfPrefix))
    case None => None
    case Some(k) =>
      assert StartsWith(rows[k], CsrfPrefix);
      Some(rows[k])
  }

  /** The request interceptor's `X-CSRFToken` value: `row.split('=')[1]`
      of the row `CsrfRow` picks, sent only when non-empty. That is the
      text after `csrftoken=` up to the next `=`, so a value that itself
      contains `=` is cut short. */
  function CsrfToken(cookie: string): (t: Option<string>)
    ensures CsrfRow(cookie).None? ==> t.None?
    ensures CsrfRow(cookie).Some? ==>
      var v := CsrfRow(cookie).value[|CsrfPrefix|..];
      && (t.Some? <==> |v| > 0 && v[0] != '=')
      && (t.Some? ==> StartsWith(v, t.value) && !Includes(t.value, "="))
      && (t.Some? && |t.value| < |v| ==> v[|t.value|] == '=')
  {
    match CsrfRow(cookie)
    case None => None
    case Some(row) =>
      CsrfRowValue(row);
      var value := Split(row, "=")[1];
      if value == "" then None else Some(value)
  }

  /** `row.split('=')[1]` for a row that starts with `csrftoken=`. */
  lemma CsrfRowValue(row: string)
    requires StartsWith(row, CsrfPrefix)
    ensures |Split(row, "=")| >= 2
    ensures var v := row[|CsrfPrefix|..]; var value := Split(row, "=")[1];
      && (value != "" <==> |v| > 0 && v[0] != '=')
      && StartsWith(v, value) && !Includes(value, "=")
      && (|value| < |v| ==> v[|value|] == '=')
  {
    CsrfRowSplit(row);
    FirstPieceBeforeEquals(row[|CsrfPrefix|..]);
  }

  lemma CsrfRowSplit(row: string)
    requires StartsWith(row, CsrfPrefix)
    ensures Split(row, "=") == [row[..9]] + Split(row[|CsrfPrefix|..], "=")
  {
    assert row[..|CsrfPrefix|] == CsrfPrefix;
    assert forall k :: 0 <= k < 9 ==> !OccursAt(row, "=", k) by {
      forall k | 0 <= k < 9 ensures !OccursAt(row, "=", k) {
        assert row[k..k + 1] == [CsrfPrefix[k]];
      }
    }
    assert row[9..10] == "=";
    SplitAtFirst(row, "=", 9);
  }

  lemma FirstPieceBeforeEquals(v: string)
    ensures var h := Split(v, "=")[0];
      && (h != "" <==> |v| > 0 && v[0] != '=')
      && StartsWith(v, h) && !Includes(h, "=")
      && (|h| < |v| ==> v[|h|] == '=')
  {
    var h := Split(v, "=")[0];
    SplitHead(v, "=");
    if |h| > 0 {
      assert h[0..1] == [h[0]];
      assert !OccursAt(h, "=", 0);
    }
    if |h| < |v| {
      assert OccursAt(v, "=", |h|);
      assert v[|h|..|h| + 1] == [v[|h|]];
    }
  }

  // ---------------------------------------------------------------------
  // AuthProvider

  /** `redirectToDashboard`. */
  function DashboardPath(userType: string): (p: string)
    ensures Domain.ParseRole(userType).Some? ==> p == "/" + userType + "/dashboard"
    ensures Domain.ParseRole(userType).None? ==> p == "/"
  {
    match userType
    case "retailer" => "/retailer/dashboard"
    case "supplier" => "/supplier/dashboard"
    case "fintech" => "/fintech/dashboard"
    case _ => "/"
  }

  /** Distinct roles are sent to distinct dashboards. */
  lemma DashboardPathInjective(a: Domain.Role, b: Domain.Role)
    ensures DashboardPath(Domain.RoleName(a)) == DashboardPath(Domain.RoleName(b)) <==> a == b
  {
  }

  /** `Bearer ${response.data.token}`: an absent token is interpolated
      as the text `undefined`. */
  function BearerHeader(token: Option<string>): (h: string)
    ensures StartsWith(h, "Bearer ")
    ensures token.Some? ==> h[|"Bearer "|..] == token.value
  {
    "Bearer " + (if token.Some? then token.value else "undefined")
  }

  /** The startup check (`checkAuth`) with the profile request's outcome.
      On a 401 the catch removes the token before the page load the
      interceptor started takes effect; the reloaded provider then finds
      no token and settles at once. */
  function CheckAuth(s: State, profile: Reply<ProfileResponse>): (r: State)
    ensures !r.loading
    ensures !(profile.Fail? && profile.err.status == Some(401)) ==> r.error == s.error && r.authHeader == s.authHeader
    ensures HasToken(s.storedToken) && profile.Fail? && profile.err.status == Some(401) ==>
      r == Initial(None, "/login").(loading := false)
    ensures !HasToken(s.storedToken) ==> r == s.(loading := false)
    ensures HasToken(s.storedToken) && profile.Ok? && profile.value.user.Some? ==>
      && r.user == profile.value.user && r.storedToken == s.storedToken
      && r.location == DashboardPath(profile.value.user.value.userType)
    ensures HasToken(s.storedToken) && (profile.Fail? || profile.value.user.None?) ==>
      r.user.None? && r.storedToken.None?
    ensures profile.Fail? && profile.err.status != Some(401) ==> r.location == s.location
  {
    if !HasToken(s.storedToken) then s.(loading := false)
    else
      match profile
      case Ok(resp) =>
        if resp.user.Some? then
          s.(user := resp.user, location := DashboardPath(resp.user.value.userType), loading := false)
        else
          // `response.user.user_type` throws; the catch forgets the token.
          s.(storedToken := None, user := None, loading := false)
      case Fail(err) =>
        if err.status == Some(401) then
          var reloaded := Intercept(s.(storedToken := None), err);
          reloaded.(loading := false)
        else
          s.(storedToken := None, user := None, loading := false)
  }

  /** What `login` and `register` share once the request has settled:
      auth.ts sets the header and AuthProvider stores the token, the user
      and the location when the body has a user; a failure is reported
      as the body's `error` or `fallback` and rethrown. A 401 also reloads
      the page, which leaves the provider's first render at `/login`. */
  function SignIn(s: State, reply: Reply<AuthResponse>, fallback: string): (o: Outcome)
    ensures !(reply.Fail? && reply.err.status == Some(401)) ==> !o.state.loading
    ensures reply.Ok? && reply.value.user.Some? ==>
      && o.thrown.None? && o.state.error.None?
      && o.state.user == reply.value.user
      && o.state.storedToken == Some(reply.value.token.GetOr(""))
      && o.state.authHeader == Some(BearerHeader(reply.value.token))
      && o.state.location == DashboardPath(reply.value.user.value.userType)
    ensures reply.Ok? && reply.value.user.None? ==> o == Outcome(s.(error := None, loading := false), None)
    ensures reply.Fail? ==> o.thrown == Some(OrElse(reply.err.bodyError, fallback))
    ensures reply.Fail? && reply.err.status != Some(401) ==>
      && o.state.error == o.thrown
      && o.state.user == s.user && o.state.storedToken == s.storedToken
      && o.state.authHeader == s.authHeader && o.state.location == s.location
    ensures reply.Fail? && reply.err.status == Some(401) ==> o.state == Initial(s.storedToken, "/login")
  {
    match reply
    case Ok(resp) =>
      if resp.user.Some? then
        Outcome(s.(storedToken := Some(resp.token.GetOr("")), user := resp.user,
                   authHeader := Some(BearerHeader(resp.token)),
                   location := DashboardPath(resp.user.value.userType),
                   error := None, loading := false), None)
      else
        Outcome(s.(error := None, loading := false), None)
    case Fail(err) =>
      var msg := OrElse(err.bodyError, fallback);
      if err.status == Some(401) then Outcome(Intercept(s, err), Some(msg))
      else Outcome(s.(error := Some(msg), loading := false), Some(msg))
  }

  /** `login(email, password)`; `reply` is the server's answer to those
      credentials. */
  function Login(s: State, reply: Reply<AuthResponse>): (o: Outcome)
    ensures reply.Fail? ==> o.thrown == Some(OrElse(reply.err.bodyError, "Invalid credentials"))
    ensures reply.Fail? ==> o.state.storedToken == s.storedToken
    ensures reply.Fail? && reply.err.status != Some(401) ==> o.state.user == s.user
    ensures reply.Fail? && reply.err.status == Some(401) ==> o.state.user.None? && o.state.location == "/login"
    ensures reply.Ok? ==> o.thrown.None?
  {
    SignIn(s, reply, "Invalid credentials")
  }

  /** The `RegisterData` body `register` posts. */
  datatype RegisterData = RegisterData(
    email: string, password: string, userType: string, businessName: string,
    phone: string, gstNumber: string, address: string)

  /** The request `register(data)` sends: none at all when the business
      name is missing, since the guard throws before the call. */
  function RegisterRequest(data: RegisterData): (r: Option<RegisterData>)
    ensures r.Some? <==> data.businessName != ""
    ensures r.Some? ==> r.value == data
  {
    if data.businessName == "" then None else Some(data)
  }

  /** `register(data)`. The guard's own message never surfaces: the thrown
      error has no `response`, so the catch replaces it by the fallback. */
  function Register(s: State, data: RegisterData, reply: Reply<AuthResponse>): (o: Outcome)
    ensures data.businessName == "" ==>
      o == Outcome(s.(error := Some("Registration failed"), loading := false), Some("Registration failed"))
    ensures data.businessName != "" ==> o == SignIn(s, reply, "Registration failed")
    ensures o.thrown.Some? ==> o.thrown.value != ""
  {
    match RegisterRequest(data)
    case None =>
      var msg := OrElse(LocalError("Business name is required").bodyError, "Registration failed");
      Outcome(s.(error := Some(msg), loading := false), Some(msg))
    case Some(_) => SignIn(s, reply, "Registration failed")
  }

  /** Without a business name the server's answer is irrelevant: no request
      is made, and the local message is replaced by the generic one. */
  lemma RegisterGuardNeverCallsServer(s: State, data: RegisterData, r1: Reply<AuthResponse>, r2: Reply<AuthResponse>)
    requires data.businessName == ""
    ensures Register(s, data, r1) == Register(s, data, r2)
    ensures Register(s, data, r1).state.error == Some("Registration failed")
    ensures Register(s, data, r1).state.user == s.user
  {
  }

  /** `logout()`: the session is dropped only after the server accepted the
      logout; a failure is swallowed and the session kept, except that a
      401 reloads the page and so keeps only the stored token. */
  function Logout(s: State, reply: Reply<()>): (r: State)
    ensures reply.Ok? ==> r.user.None? && r.storedToken.None? && r.authHeader.None? && r.location == "/login"
    ensures reply.Ok? ==> r.error == s.error && r.loading == s.loading
    ensures reply.Fail? && reply.err.status != Some(401) ==> r == s
    ensures reply.Fail? && reply.err.status == Some(401) ==>
      r.user.None? && r.storedToken == s.storedToken && r.authHeader.None? && r.location == "/login"
  {
    match reply
    case Ok(_) => s.(storedToken := None, user := None, authHeader := None, location := "/login")
    case Fail(err) => Intercept(s, err)
  }

  /** Logging out twice is logging out once. */
  lemma LogoutIdempotent(s: State)
    ensures Logout(Logout(s, Ok(())), Ok(())) == Logout(s, Ok(()))
  {
  }

  /** A failed login leaves an existing session as it was, unless the
      server answered 401: the reload then keeps only the stored token. */
  lemma FailedLoginKeepsSession(s: State, err: HttpError)
    ensures Login(s, Fail(err)).state.storedToken == s.storedToken
    ensures err.status != Some(401) ==>
      && Login(s, Fail(err)).state.user == s.user
      && Login(s, Fail(err)).state.authHeader == s.authHeader
      && !Login(s, Fail(err)).state.loading
    ensures err.status == Some(401) ==>
      && Login(s, Fail(err)).state.user.None?
      && Login(s, Fail(err)).state.authHeader.None?
      && Login(s, Fail(err)).state.loading
  {
  }

  /** A login answered with a user but no token stores the empty string;
      after a reload the startup check treats that as no token, so the
      user is logged out whatever the profile endpoint would say. */
  lemma TokenlessLoginDoesNotSurviveReload(s: State, u: User, location: string, profile: Reply<ProfileResponse>)
    ensures var after := Login(s, Ok(AuthResponse(Some(u), None))).state;
      && after.user == Some(u)
      && CheckAuth(Initial(after.storedToken, location), profile).user.None?
  {
  }

  /** A 401 drops everything but the stored token: the user, the error
      and the `Authorization` header are gone and the provider is loading
      again, at `/login`. */
  lemma UnauthorizedReloads(s: State, err: HttpError)
    requires err.status == Some(401)
    ensures Intercept(s, err).user.None? && Intercept(s, err).error.None?
    ensures Intercept(s, err).authHeader.None? && Intercept(s, err).loading
    ensures Intercept(s, err).storedToken == s.storedToken
    ensures Intercept(s, err).location == "/login"
  {
  }

  /** The header is not restored after the reload: the startup check sets
      the user but never the `Authorization` header. */
  lemma ReloadedSessionHasNoHeader(s: State, err: HttpError, profile: Reply<ProfileResponse>)
    requires err.status == Some(401)
    ensures CheckAuth(Intercept(s, err), profile).authHeader.None?
  {
  }

  predicate FreeOf(s: string, c: char) {
    forall i :: 0 <= i < |s| ==> s[i] != c
  }

  lemma FreeOfConcat(a: string, b: string, c: char)
    requires FreeOf(a, c) && FreeOf(b, c)
    ensures FreeOf(a + b, c)
  {
    forall i | 0 <= i < |a + b| ensures (a + b)[i] != c {
      if i >= |a| { assert (a + b)[i] == b[i - |a|]; }
    }
  }

  /** A cookie string without `;` is a single row. */
  lemma SingleRow(s: string)
    requires FreeOf(s, ';')
    ensures Split(s, "; ") == [s]
  {
    forall k | 0 <= k ensures !OccursAt(s, "; ", k) {
      if k + 2 <= |s| {
        assert s[k..k + 2][0] == s[k];
      }
    }
  }

  /** The row's value is sent whole when it has no `=` in it. */
  lemma CsrfSingleRow(value: string)
    requires value != ""
    requires FreeOf(value, ';') && FreeOf(value, '=')
    ensures CsrfToken(CsrfPrefix + value) == Some(value)
  {
    var cookie := CsrfPrefix + value;
    FreeOfConcat(CsrfPrefix, value, ';');
    SingleRow(cookie);
    assert StartsWith(cookie, CsrfPrefix);
    assert cookie[|CsrfPrefix|..] == value;
    assert CsrfRow(cookie) == Some(cookie);
    CsrfRowValue(cookie);
    var h := Split(cookie, "=")[1];
    assert |h| == |value|;
    assert h == value;
  }

  /** The longest `=`-free prefix of `a + "=" + b` is `a` when `a` is
      itself `=`-free. */
  lemma CutAtFirstEquals(a: string, b: string, t: string)
    requires FreeOf(a, '=') && FreeOf(t, '=')
    requires StartsWith(a + "=" + b, t)
    requires |t| < |a + "=" + b| ==> (a + "=" + b)[|t|] == '='
    ensures t == a
  {
    var v := a + "=" + b;
    assert forall i :: 0 <= i < |a| ==> v[i] == a[i];
    assert v[|a|] == '=';
    assert forall i :: 0 <= i < |t| ==> t[i] == v[i];
    assert |t| <= |a|;
    assert |t| >= |a|;
    assert t == v[..|a|] == a;
  }

  /** A value with an `=` in it is cut at its first `=`. */
  lemma CsrfValueTruncated(a: string, b: string)
    requires a != ""
    requires FreeOf(a, ';') && FreeOf(a, '=') && FreeOf(b, ';')
    ensures CsrfToken(CsrfPrefix + a + "=" + b) == Some(a)
  {
    var v := a + "=" + b;
    var cookie := CsrfPrefix + v;
    assert CsrfPrefix + a + "=" + b == cookie;
    FreeOfConcat(a, "=", ';');
    FreeOfConcat(a + "=", b, ';');
    FreeOfConcat(CsrfPrefix, v, ';');
    SingleRow(cookie);
    assert StartsWith(cookie, CsrfPrefix);
    assert cookie[|CsrfPrefix|..] == v;
    assert CsrfRow(cookie) == Some(cookie);
    CsrfRowValue(cookie);
    var t := Split(cookie, "=")[1];
    NoCharWhenNotIncluded(t, '=');
    CutAtFirstEquals(a, b, t);
  }
}

=== FILE: sorting.dfy ===
/**
 `Array.prototype.sort` with a comparator, as the components use it.
 Since ES2019 the sort is required to be stable, so for a comparator
 `cmp` that is consistent (it induces a total preorder) the result is
 the unique stable ordering in which `a` may precede `b` whenever
 `cmp(a, b) <= 0`. The model computes it by insertion: each element is
 placed before the first later element it may precede.
 */
module Sorting {
  import opened Common

  ghost predicate Total<T(!new)>(le: (T, T) -> bool) {
    forall a, b :: le(a, b) || le(b, a)
  }

  ghost predicate Transitive<T(!new)>(le: (T, T) -> bool) {
    forall a, b, c :: le(a, b) && le(b, c) ==> le(a, c)
  }

  /** What a consistent JavaScript comparator induces on its elements. */
  ghost predicate TotalPreorder<T(!new)>(le: (T, T) -> bool) {
    Total(le) && Transitive(le)
  }

  predicate SortedBy<T>(xs: seq<T>, le: (T, T) -> bool) {
    forall i, j :: 0 <= i < j < |xs| ==> le(xs[i], xs[j])
  }

  /** `a` and `b` compare as equal (`cmp(a, b) == 0`). */
  predicate Tied<T>(le: (T, T) -> bool, a: T, b: T) {
    le(a, b) && le(b, a)
  }

  function Insert<T(!new)>(x: T, xs: seq<T>, le: (T, T) -> bool): (r: seq<T>)
    requires TotalPreorder(le)
    requires SortedBy(xs, le)
    ensures SortedBy(r, le)
    ensures multiset(r) == multiset(xs) + multiset{x}
  {
    if |xs| == 0 then [x]
    else if le(x, xs[0]) then
      assert forall j :: 0 <= j < |xs| ==> le(x, xs[j]) by {
        forall j | 0 <= j < |xs| ensures le(x, xs[j]) {
          if j > 0 { assert le(xs[0], xs[j]); }
        }
      }
      [x] + xs
    else
      var tail := Insert(x, xs[1..], le);
      assert xs == [xs[0]] + xs[1..];
      assert forall k :: 0 <= k < |tail| ==> le(xs[0], tail[k]) by {
        forall k | 0 <= k < |tail| ensures le(xs[0], tail[k]) {
          assert tail[k] in multiset(tail);
          if tail[k] != x {
            assert tail[k] in multiset(xs[1..]);
            var j :| 0 <= j < |xs[1..]| && xs[1..][j] == tail[k];
            assert le(xs[0], xs[j + 1]);
          }
        }
      }
      [xs[0]] + tail
  }

  /** `[...xs].sort(cmp)` where `le(a, b)` stands for `cmp(a, b) <= 0`. */
  function SortBy<T(!new)>(xs: seq<T>, le: (T, T) -> bool): (r: seq<T>)
    requires TotalPreorder(le)
    ensures SortedBy(r, le)
    ensures multiset(r) == multiset(xs)
    ensures |r| == |xs|
  {
    if |xs| == 0 then []
    else
      assert xs == [xs[0]] + xs[1..];
      Insert(xs[0], SortBy(xs[1..], le), le)
  }

  /** A comparator that always answers 0 leaves the array as it was. */
  lemma {:induction false} SortByAllTiedIsIdentity<T(!new)>(xs: seq<T>, le: (T, T) -> bool)
    requires forall a, b :: le(a, b)
    ensures SortBy(xs, le) == xs
  {
    if |xs| > 0 {
      SortByAllTiedIsIdentity(xs[1..], le);
    }
  }

  /** The elements of `xs` that compare equal to `y`, in their order in `xs`. */
  function TiedWith<T>(xs: seq<T>, le: (T, T) -> bool, y: T): seq<T> {
    if |xs| == 0 then []
    else (if Tied(le, xs[0], y) then [xs[0]] else []) + TiedWith(xs[1..], le, y)
  }

  lemma TiedWithCons<T>(a: T, xs: seq<T>, le: (T, T) -> bool, y: T)
    ensures TiedWith([a] + xs, le, y) == (if Tied(le, a, y) then [a] else []) + TiedWith(xs, le, y)
  {
    assert ([a] + xs)[0] == a;
    assert ([a] + xs)[1..] == xs;
  }

  lemma {:induction false} InsertStable<T(!new)>(x: T, xs: seq<T>, le: (T, T) -> bool, y: T)
    requires TotalPreorder(le)
    requires SortedBy(xs, le)
    ensures TiedWith(Insert(x, xs, le), le, y)
         == (if Tied(le, x, y) then [x] else []) + TiedWith(xs, le, y)
  {
    if |xs| == 0 {
    } else if le(x, xs[0]) {
      TiedWithCons(x, xs, le, y);
    } else {
      var h := xs[0];
      var tail := Insert(x, xs[1..], le);
      assert Insert(x, xs, le) == [h] + tail;
      TiedWithCons(h, tail, le, y);
      InsertStable(x, xs[1..], le, y);
      TiedWithCons(h, xs[1..], le, y);
      assert xs == [h] + xs[1..];
      // x was not placed before h, so x and h cannot both tie with y.
      assert !(Tied(le, x, y) && Tied(le, h, y));
    }
  }

  /** Stability: the elements that compare equal to any given `y` keep
      their original relative order. */
  lemma {:induction false} SortByStable<T(!new)>(xs: seq<T>, le: (T, T) -> bool, y: T)
    requires TotalPreorder(le)
    ensures TiedWith(SortBy(xs, le), le, y) == TiedWith(xs, le, y)
  {
    if |xs| > 0 {
      SortByStable(xs[1..], le, y);
      InsertStable(xs[0], SortBy(xs[1..], le), le, y);
    }
  }
}

=== FILE: validators.dfy ===
/**
 The input patterns the forms validate with, each written as a
 per-position character-class predicate over `seq<char>` rather than
 as a regular-expression engine.

 The patterns have no `u` flag, so JavaScript matches them against UTF-16
 code units; every class here is ASCII, which no half of a surrogate pair
 belongs to, so matching code points instead gives the same verdicts.
 Lengths (`minLength`) are counted in UTF-16 code units, see `Utf16Length`.
 */
module Validators {

  predicate IsDigit(c: char) { '0' <= c <= '9' }
  predicate IsUpper(c: char) { 'A' <= c <= 'Z' }
  predicate IsLetter(c: char) { 'A' <= c <= 'Z' || 'a' <= c <= 'z' }

  /** The bracket expressions the identifier patterns are made of. */
  datatype CharClass =
    | Digit                // [0-9]
    | Upper                // [A-Z]
    | UpperOrDigit         // [0-9A-Z] and [A-Z0-9]
    | NonZeroDigitOrUpper  // [1-9A-Z]
    | Literal(c: char)     // a literal character

  predicate InClass(c: char, k: CharClass) {
    match k
    case Digit => IsDigit(c)
    case Upper => IsUpper(c)
    case UpperOrDigit => IsUpper(c) || IsDigit(c)
    case NonZeroDigitOrUpper => ('1' <= c <= '9') || IsUpper(c)
    case Literal(l) => c == l
  }

  function Repeat(k: CharClass, n: nat): (r: seq<CharClass>)
    ensures |r| == n && forall i :: 0 <= i < n ==> r[i] == k
  {
    if n == 0 then [] else [k] + Repeat(k, n - 1)
  }

  /** An anchored pattern `^...$` without quantifiers other than `{n}`:
      the string has exactly one character per class, each in its class. */
  predicate Matches(s: string, pattern: seq<CharClass>) {
    |s| == |pattern| && forall i :: 0 <= i < |s| ==> InClass(s[i], pattern[i])
  }

  // ---------------------------------------------------------------------
  // Identifiers

  /** `^[0-9]{2}[A-Z]{5}[0-9]{4}[A-Z]{1}[1-9A-Z]{1}Z[0-9A-Z]{1}$` */
  const GstinPattern: seq<CharClass> :=
    Repeat(Digit, 2) + Repeat(Upper, 5) + Repeat(Digit, 4)
    + [Upper, NonZeroDigitOrUpper, Literal('Z'), UpperOrDigit]

  /** `^[A-Z]{5}[0-9]{4}[A-Z]{1}$` */
  const PanPattern: seq<CharClass> :=
    Repeat(Upper, 5) + Repeat(Digit, 4) + [Upper]

  /** `^[A-Z]{4}0[A-Z0-9]{6}$` */
  const IfscPattern: seq<CharClass> :=
    Repeat(Upper, 4) + [Literal('0')] + Repeat(UpperOrDigit, 6)

  /** `^[0-9]{10}$` */
  const PhonePattern: seq<CharClass> := Repeat(Digit, 10)

  predicate IsGstin(s: string) { Matches(s, GstinPattern) }
  predicate IsPan(s: string) { Matches(s, PanPattern) }
  predicate IsIfsc(s: string) { Matches(s, IfscPattern) }
  predicate IsPhone(s: string) { Matches(s, PhonePattern) }

  /** The GSTIN pattern read position by position. The fifteenth
      character is a check digit that the pattern does not verify. */
  lemma {:induction false} GstinPositions(s: string)
    ensures IsGstin(s) <==>
      && |s| == 15
      && (forall i :: 0 <= i < 2 ==> IsDigit(s[i]))
      && (forall i :: 2 <= i < 7 ==> IsUpper(s[i]))
      && (forall i :: 7 <= i < 11 ==> IsDigit(s[i]))
      && IsUpper(s[11])
      && (('1' <= s[12] <= '9') || IsUpper(s[12]))
      && s[13] == 'Z'
      && (IsUpper(s[14]) || IsDigit(s[14]))
  {
    var p := GstinPattern;
    assert |p| == 15;
    assert forall i :: 0 <= i < 2 ==> p[i] == Digit;
    assert forall i :: 2 <= i < 7 ==> p[i] == Upper;
    assert forall i :: 7 <= i < 11 ==> p[i] == Digit;
    assert p[11] == Upper && p[12] == NonZeroDigitOrUpper && p[13] == Literal('Z') && p[14] == UpperOrDigit;
  }

  lemma {:induction false} PanPositions(s: string)
    ensures IsPan(s) <==>
      && |s| == 10
      && (forall i :: 0 <= i < 5 ==> IsUpper(s[i]))
      && (forall i :: 5 <= i < 9 ==> IsDigit(s[i]))
      && IsUpper(s[9])
  {
    var p := PanPattern;
    assert |p| == 10;
    assert forall i :: 0 <= i < 5 ==> p[i] == Upper;
    assert forall i :: 5 <= i < 9 ==> p[i] == Digit;
    assert p[9] == Upper;
  }

  /** The IFSC layout: a four-letter bank code, a reserved '0', and a
      six-character branch code. */
  lemma {:induction false} IfscPositions(s: string)
    ensures IsIfsc(s) <==>
      && |s| == 11
      && (forall i :: 0 <= i < 4 ==> IsUpper(s[i]))
      && s[4] == '0'
      && (forall i :: 5 <= i < 11 ==> IsUpper(s[i]) || IsDigit(s[i]))
  {
    var p := IfscPattern;
    assert |p| == 11;
    assert forall i :: 0 <= i < 4 ==> p[i] == Upper;
    assert p[4] == Literal('0');
    assert forall i :: 5 <= i < 11 ==> p[i] == UpperOrDigit;
  }

  /** Characters three to twelve of anything the GSTIN pattern accepts
      are accepted by the PAN pattern. */
  lemma {:induction false} GstinEmbedsPan(s: string)
    requires IsGstin(s)
    ensures IsPan(s[2..12])
  {
    GstinPositions(s);
    PanPositions(s[2..12]);
  }

  /** The pattern accepts any final character, so a GSTIN with a wrong
      check digit is accepted, while a zero in position 13 is refused. */
  lemma GstinExamples()
    ensures IsGstin("27AAPFU0939F1ZV")
    ensures IsGstin("27AAPFU0939F1Z0")
    ensures !IsGstin("27AAPFU0939F0ZV")
    ensures !IsGstin("27aapfu0939f1zv")
    ensures !IsGstin("27AAPFU0939F1Z")
  {
    GstinPositions("27AAPFU0939F1ZV");
    GstinPositions("27AAPFU0939F1Z0");
    GstinPositions("27AAPFU0939F0ZV");
    GstinPositions("27aapfu0939f1zv");
  }

  lemma IdentifierExamples()
    ensures IsPan("ABCDE1234F") && !IsPan("ABCDE1234") && !IsPan("abcde1234f")
    ensures IsIfsc("SBIN0001234") && !IsIfsc("SBIN1001234")
    ensures IsPhone("9876543210") && !IsPhone("987654321") && !IsPhone("+919876543")
  {
    PanPositions("ABCDE1234F");
    PanPositions("abcde1234f");
    IfscPositions("SBIN0001234");
    IfscPositions("SBIN1001234");
    assert forall i :: 0 <= i < 10 ==> PhonePattern[i] == Digit;
    assert !IsDigit("+919876543"[0]);
  }

  // ---------------------------------------------------------------------
  // E-mail: /^[A-Z0-9._%+-]+@[A-Z0-9.-]+\.[A-Z]{2,}$/i
  //
  // A simplified shape check; it is not the address grammar of
  // section 3.4.1 of RFC 5322 (no quoted local parts, no IP literals,
  // and the characters accepted differ).

  predicate IsLocalChar(c: char) {
    IsLetter(c) || IsDigit(c) || c == '.' || c == '_' || c == '%' || c == '+' || c == '-'
  }

  predicate IsDomainChar(c: char) {
    IsLetter(c) || IsDigit(c) || c == '.' || c == '-'
  }

  /** The regular expression matches `s` with its `@` at `at` and its
      escaped `\.` at `dot`. */
  predicate EmailSplitAt(s: string, at: int, dot: int) {
    && 1 <= at && at + 2 <= dot && dot + 3 <= |s|
    && (forall i :: 0 <= i < at ==> IsLocalChar(s[i]))
    && s[at] == '@'
    && (forall i :: at < i < dot ==> IsDomainChar(s[i]))
    && s[dot] == '.'
    && (forall i :: dot < i < |s| ==> IsLetter(s[i]))
  }

  /** Regular-expression semantics: some way of placing `@` and `\.` works. */
  predicate EmailMatches(s: string) {
    exists at, dot | 0 <= at < |s| && 0 <= dot < |s| :: EmailSplitAt(s, at, dot)
  }

  /** The match, when there is one, is unique: the `@` is the only one in
      the string and the top-level domain is what follows the last dot. */
  lemma EmailSplitUnique(s: string, at: int, dot: int, at': int, dot': int)
    requires EmailSplitAt(s, at, dot) && EmailSplitAt(s, at', dot')
    ensures at == at' && dot == dot'
  {
  }

  lemma EmailMatchHasSingleAt(s: string)
    requires EmailMatches(s)
    ensures exists at :: 0 <= at < |s| && s[at] == '@'
                         && forall i :: 0 <= i < |s| && i != at ==> s[i] != '@'
  {
    var at, dot :| 0 <= at < |s| && 0 <= dot < |s| && EmailSplitAt(s, at, dot);
    forall i | 0 <= i < |s| && i != at ensures s[i] != '@' {
      if i < at { assert IsLocalChar(s[i]); }
      else if i < dot { assert IsDomainChar(s[i]); }
      else if i > dot { assert IsLetter(s[i]); }
    }
  }

  lemma EmailExamples()
    ensures EmailMatches("a@b.co")
    ensures EmailMatches("x.y@shop-1.in")
  {
    assert EmailSplitAt("a@b.co", 1, 3);
    assert EmailSplitAt("x.y@shop-1.in", 3, 10);
  }

  /** A one-letter top-level domain, an empty local part and an empty
      domain label before the last dot are refused. */
  lemma EmailCounterExamples()
    ensures !EmailMatches("a@b.c")
    ensures !EmailMatches("@b.co")
    ensures !EmailMatches("a@.co")
  {
  }

  // ---------------------------------------------------------------------
  // Lengths

  /** `s.length`: JavaScript counts UTF-16 code units, so a character
      outside the Basic Multilingual Plane counts twice. */
  function Utf16Length(s: string): (n: nat)
    ensures |s| <= n <= 2 * |s|
  {
    if |s| == 0 then 0
    else (if s[0] as int >= 0x1_0000 then 2 else 1) + Utf16Length(s[1..])
  }

  /** `minLength: 8` on the password field. */
  predicate PasswordLongEnough(p: string) {
    Utf16Length(p) >= 8
  }

  lemma {:induction false} Utf16LengthOfBmp(s: string)
    requires forall i :: 0 <= i < |s| ==> s[i] as int < 0x1_0000
    ensures Utf16Length(s) == |s|
  {
    if |s| > 0 {
      Utf16LengthOfBmp(s[1..]);
    }
  }

  /** Eight characters always suffice; four characters do not, unless some
      of them lie outside the Basic Multilingual Plane. */
  lemma PasswordLengthBounds(p: string)
    ensures |p| >= 8 ==> PasswordLongEnough(p)
    ensures |p| < 4 ==> !PasswordLongEnough(p)
  {
  }
}

=== FILE: views.dfy ===
/**
 The decision logic of the Django API views (backend/core/views.py): who
 may call what, which rows a call reads and writes, and the status code
 and body it answers with.

 The database is a value `Db` holding the rows of the tables the views
 touch, in insertion order; a view is a function from the database and
 the request to the response and the database afterwards. Ids the
 database assigns to new rows and the current time are parameters. The
 authenticated caller is the id of a `User` row: the authentication
 layer in front of the views is not part of this model. Passwords are
 compared as stored; hashing is not modelled.
 */
module Views {
  import opened Common
  import opened Domain
  import Sorting
  import Session

  // ---------------------------------------------------------------------
  // Rows and responses

  /** A `django.contrib.auth` `User` row. `password` is `None` when the
      account was created without one (an unusable password). */
  datatype Account = Account(id: int, username: string, email: string, password: Option<string>, firstName: string)

  /** A `UserProfile` row; `user` is the id of its `Account`. */
  datatype Profile = Profile(
    id: int, user: int, userType: string, businessName: string,
    phone: Option<string>, gstNumber: Option<string>, address: Option<string>)

  datatype Db = Db(accounts: seq<Account>, profiles: seq<Profile>, dues: seq<Due>, transactions: seq<Transaction>)

  /** The `user` object the login and registration views answer with. */
  datatype UserInfo = UserInfo(id: int, email: string, userType: string, businessName: string)

  /** The exceptions `register_user` turns into `{'error': str(e)}`; the
      text itself depends on the database engine. */
  datatype DbFailure = UsernameMissing | FirstNameNull | UsernameTaken | BusinessNameNull

  datatype PaymentHistory = New | Excellent | Good | Fair

  function PaymentHistoryName(h: PaymentHistory): string {
    match h
    case New => "new"
    case Excellent => "excellent"
    case Good => "good"
    case Fair => "fair"
  }

  /** The body of `get_retailer_details`. */
  datatype RetailerDetails = RetailerDetails(
    id: int, businessName: string, phone: Option<string>, address: Option<string>,
    paymentHistory: PaymentHistory, outstanding: int, totalDues: nat, paidOnTime: nat,
    recentTransactions: seq<Transaction>)

  datatype Body =
    | Error(message: string)          // {'error': ...}
    | DatabaseError(failure: DbFailure)
    | NotFound                        // get_object_or_404
    | ServerError                     // an exception the view does not catch
    | Registered(user: UserInfo)
    | LoggedIn(user: UserInfo)
    | RetailerInfo(details: RetailerDetails)
    | DueList(dues: seq<Due>)
    | DueRow(due: Due)
    | Invalid                         // serializer.errors
    | PaymentSaved

  datatype Response = Response(status: int, body: Body)

  /** A view that writes: the database after the request, and the answer. */
  datatype Handled = Handled(db: Db, response: Response)

  // ---------------------------------------------------------------------
  // Lookups

  /** `UserProfile.objects.get(user=...)`; the column is one-to-one. */
  function ProfileOf(db: Db, userId: int): (r: Option<Profile>)
    ensures r.Some? ==> r.value in db.profiles && r.value.user == userId
    ensures r.None? ==> forall p :: p in db.profiles ==> p.user != userId
  {
    match FindFirst(db.profiles, (p: Profile) => p.user == userId)
    case None => None
    case Some(i) => Some(db.profiles[i])
  }

  /** `get_object_or_404(UserProfile, id=..., user_type='retailer')`. */
  function RetailerProfileById(db: Db, id: int): (r: Option<Profile>)
    ensures r.Some? ==> r.value in db.profiles && r.value.id == id && r.value.userType == "retailer"
    ensures r.None? ==> forall p :: p in db.profiles ==> !(p.id == id && p.userType == "retailer")
  {
    match FindFirst(db.profiles, (p: Profile) => p.id == id && p.userType == "retailer")
    case None => None
    case Some(i) => Some(db.profiles[i])
  }

  /** Position of the `DueEntry` with the given id. */
  function DueIndex(db: Db, id: int): (r: Option<nat>)
    ensures r.Some? ==> r.value < |db.dues| && db.dues[r.value].id == id
    ensures r.None? ==> forall d :: d in db.dues ==> d.id != id
  {
    FindFirst(db.dues, (d: Due) => d.id == id)
  }

  // ---------------------------------------------------------------------
  // register_user

  /** A member of a JSON object as the view reads it: `null` or a string. */
  datatype JsonValue = Null | Str(text: string)

  /** The JSON body of a registration request: the nested `user` object
      and the top-level fields. An absent field is not in its map. */
  datatype RegisterBody = RegisterBody(user: map<string, JsonValue>, fields: map<string, JsonValue>)

  /** `dict.get(key)`: `None` both for an absent key and for `null`. */
  function Get(m: map<string, JsonValue>, key: string): (r: Option<string>)
    ensures r.Some? <==> key in m && m[key].Str?
    ensures r.Some? ==> r.value == m[key].text
  {
    if key in m then (match m[key] case Null => None case Str(t) => Some(t)) else None
  }

  /** `dict.get(key, default)`: the default stands in only for an absent
      key; a `null` still reads as `None`. */
  function GetOr(m: map<string, JsonValue>, key: string, default: string): (r: Option<string>)
    ensures key !in m ==> r == Some(default)
    ensures key in m ==> r == Get(m, key)
  {
    if key in m then Get(m, key) else Some(default)
  }

  predicate IsUsernameTaken(db: Db, name: string) {
    exists a :: a in db.accounts && a.username == name
  }

  /** Whether the `user_type` field passes the whitelist: only retailers
      and suppliers may register here. */
  predicate RegistrableType(t: Option<string>) {
    t == Some("retailer") || t == Some("supplier")
  }

  /** Python's `str.isspace`: the white space `strip()` removes. */
  predicate IsPySpace(c: char) {
    ('\t' <= c <= '\r') || ('\U{001C}' <= c <= ' ') || c == '\U{0085}' || c == '\U{00A0}'
    || c == '\U{1680}' || ('\U{2000}' <= c <= '\U{200A}') || c == '\U{2028}' || c == '\U{2029}'
    || c == '\U{202F}' || c == '\U{205F}' || c == '\U{3000}'
  }

  /** Where `rsplit('@', 1)` splits: the position of the last `@`. */
  function LastAt(s: string): (r: Option<nat>)
    ensures r.Some? ==> r.value < |s| && s[r.value] == '@'
    ensures r.Some? ==> forall k :: r.value < k < |s| ==> s[k] != '@'
    ensures r.None? ==> forall k :: 0 <= k < |s| ==> s[k] != '@'
  {
    if |s| == 0 then None
    else if s[|s| - 1] == '@' then Some(|s| - 1)
    else LastAt(s[..|s| - 1])
  }

  /** `t` with every letter after position `k` lower-cased; with `t[k]`
      an `@`, this is `t[..k] + "@" + t[k + 1..].lower()`. */
  function LowerAfter(t: string, k: nat): (r: string)
    ensures |r| == |t|
    ensures forall i :: 0 <= i < |t| && i <= k ==> r[i] == t[i]
    ensures forall i :: k < i < |t| ==> r[i] == LowerChar(t[i])
    decreases |t|
  {
    if |t| <= k + 1 then t else LowerAfter(t[..|t| - 1], k) + [LowerChar(t[|t| - 1])]
  }

  /** `BaseUserManager.normalize_email`, which `create_user` applies to
      the e-mail it stores: the stripped address with the domain, the
      part after the last `@`, lower-cased. An address without `@` makes
      the two-way unpacking fail and is stored as given, unstripped. */
  function NormalizeEmail(email: string): (r: string)
    ensures LastAt(Strip(email, IsPySpace)).None? ==> r == email
    ensures LastAt(Strip(email, IsPySpace)).Some? ==>
      var t := Strip(email, IsPySpace);
      var k := LastAt(t).value;
      && |r| == |t|
      && (forall i :: 0 <= i <= k ==> r[i] == t[i])
      && forall i :: k < i < |t| ==> r[i] == LowerChar(t[i])
  {
    var t := Strip(email, IsPySpace);
    match LastAt(t)
    case None => email
    case Some(k) => LowerAfter(t, k)
  }

  /** An address that is already stripped, with a lower-case domain, is
      stored exactly as typed. */
  lemma NormalizedEmailKept(email: string)
    requires Strip(email, IsPySpace) == email
    requires LastAt(email).Some?
    requires forall i :: LastAt(email).value < i < |email| ==> !('A' <= email[i] <= 'Z')
    ensures NormalizeEmail(email) == email
  {
    var k := LastAt(email).value;
    LowerAfterKeeps(NormalizeEmail(email), email, k);
  }

  /** Helper: lower-casing after `k` a string with no upper-case letter
      there gives the string back. */
  lemma LowerAfterKeeps(r: string, t: string, k: nat)
    requires |r| == |t|
    requires forall i :: 0 <= i <= k && i < |t| ==> r[i] == t[i]
    requires forall i :: k < i < |t| ==> r[i] == LowerChar(t[i]) && !('A' <= t[i] <= 'Z')
    ensures r == t
  {
  }

  /** Normalising twice is normalising once. */
  lemma NormalizeEmailIdempotent(email: string)
    ensures NormalizeEmail(NormalizeEmail(email)) == NormalizeEmail(email)
  {
    if LastAt(Strip(email, IsPySpace)).Some? {
      NormalizedIsStripped(email);
      NormalizedDomainIsLower(email);
      NormalizedEmailKept(NormalizeEmail(email));
    }
  }

  /** Helper: a normalised address has no white space left to strip. */
  lemma NormalizedIsStripped(email: string)
    requires LastAt(Strip(email, IsPySpace)).Some?
    ensures Strip(NormalizeEmail(email), IsPySpace) == NormalizeEmail(email)
  {
    var t := Strip(email, IsPySpace);
    var r := NormalizeEmail(email);
    StripEndsClean(email, IsPySpace);
    assert r[0] == t[0];
    assert r[|r| - 1] == t[|t| - 1] || r[|r| - 1] == LowerChar(t[|t| - 1]);
    CaseChangeKeepsClean(r, t);
  }

  /** Helper: changing the case of letters does not put white space at
      the ends of a stripped string. */
  lemma CaseChangeKeepsClean(r: string, t: string)
    requires |r| == |t| > 0 && r[0] == t[0]
    requires r[|r| - 1] == t[|t| - 1] || r[|r| - 1] == LowerChar(t[|t| - 1])
    requires !IsPySpace(t[0]) && !IsPySpace(t[|t| - 1])
    ensures Strip(r, IsPySpace) == r
  {
    StripKeepsClean(r, IsPySpace);
  }

  /** Helper: a normalised address keeps its last `@` and has no
      upper-case letter after it. */
  lemma NormalizedDomainIsLower(email: string)
    requires LastAt(Strip(email, IsPySpace)).Some?
    ensures var r := NormalizeEmail(email);
      && LastAt(r) == LastAt(Strip(email, IsPySpace))
      && forall i :: LastAt(r).value < i < |r| ==> !('A' <= r[i] <= 'Z')
  {
    var t := Strip(email, IsPySpace);
    var r := NormalizeEmail(email);
    var k := LastAt(t).value;
    assert r[k] == '@';
    forall i | k < i < |r| ensures r[i] != '@' && !('A' <= r[i] <= 'Z') {
      assert r[i] == LowerChar(t[i]);
    }
    LastAtIs(r, k);
  }

  /** Helper: the last `@` is where the string has one and none after. */
  lemma {:induction false} LastAtIs(s: string, k: nat)
    requires k < |s| && s[k] == '@'
    requires forall i :: k < i < |s| ==> s[i] != '@'
    ensures LastAt(s) == Some(k)
    decreases |s|
  {
    if k < |s| - 1 {
      LastAtIs(s[..|s| - 1], k);
    }
  }

  /** An address with an upper-case letter in its domain is not stored as
      typed. */
  lemma NormalizeEmailChangesUpperDomain(email: string, j: nat)
    requires Strip(email, IsPySpace) == email
    requires LastAt(email).Some? && LastAt(email).value < j < |email|
    requires 'A' <= email[j] <= 'Z'
    ensures NormalizeEmail(email) != email
  {
    assert NormalizeEmail(email)[j] == LowerChar(email[j]);
  }

  /** An address without `@` is stored exactly as typed, white space and
      all. */
  lemma NormalizeEmailWithoutAt(email: string)
    requires forall i :: 0 <= i < |email| ==> email[i] != '@'
    ensures NormalizeEmail(email) == email
  {
    var u := StripStart(email, IsPySpace);
    var t := StripEnd(u, IsPySpace);
    forall i | 0 <= i < |t| ensures t[i] != '@' {
      assert t[i] == u[i] == email[|email| - |u| + i];
    }
  }

  /** `register_user`, with the names of the two keys it reads the
      business name and the GST number from. `create_user` refuses a
      missing or empty username; the user table refuses a `null` first
      name (the column is NOT NULL, and `get('firstName', '')` defaults
      only an absent key) before it refuses a username in use. The
      e-mail is kept as the username and stored normalised; when the
      profile cannot be stored, the handler deletes the user it has just
      created, so a refused registration leaves the database as it was. */
  function RegisterWith(db: Db, req: RegisterBody, businessKey: string, gstKey: string,
                        userId: int, profileId: int): (r: Handled)
    ensures !RegistrableType(Get(req.fields, "user_type")) ==>
      r == Handled(db, Response(400, Error("Invalid user type")))
    ensures r.response.status == 201 || r.response.status == 400
    ensures r.response.status == 201 <==>
      && RegistrableType(Get(req.fields, "user_type"))
      && Get(req.user, "email").Some? && Get(req.user, "email").value != ""
      && GetOr(req.user, "firstName", "").Some?
      && !IsUsernameTaken(db, Get(req.user, "email").value)
      && Get(req.fields, businessKey).Some?
    ensures r.response.status != 201 ==> r.db == db
    ensures r.response.status == 201 ==>
      var email := Get(req.user, "email").value;
      var userType := Get(req.fields, "user_type").value;
      var name := Get(req.fields, businessKey).value;
      && r.db.accounts == db.accounts + [Account(userId, email, NormalizeEmail(email), Get(req.user, "password"),
                                                 GetOr(req.user, "firstName", "").value)]
      && r.db.profiles == db.profiles + [Profile(profileId, userId, userType, name,
                                                 Get(req.fields, "phone"), Get(req.fields, gstKey), Get(req.fields, "address"))]
      && r.db.dues == db.dues && r.db.transactions == db.transactions
      && r.response.body == Registered(UserInfo(userId, NormalizeEmail(email), userType, name))
  {
    var userType := Get(req.fields, "user_type");
    if !RegistrableType(userType) then
      Handled(db, Response(400, Error("Invalid user type")))
    else
      var email := Get(req.user, "email");
      var firstName := GetOr(req.user, "firstName", "");
      if email.None? || email.value == "" then
        Handled(db, Response(400, DatabaseError(UsernameMissing)))
      else if firstName.None? then
        Handled(db, Response(400, DatabaseError(FirstNameNull)))
      else if IsUsernameTaken(db, email.value) then
        Handled(db, Response(400, DatabaseError(UsernameTaken)))
      else
        match Get(req.fields, businessKey)
        case None =>
          Handled(db, Response(400, DatabaseError(BusinessNameNull)))
        case Some(name) =>
          var stored := NormalizeEmail(email.value);
          var account := Account(userId, email.value, stored, Get(req.user, "password"), firstName.value);
          var profile := Profile(profileId, userId, userType.value, name,
                                 Get(req.fields, "phone"), Get(req.fields, gstKey), Get(req.fields, "address"));
          Handled(db.(accounts := db.accounts + [account], profiles := db.profiles + [profile]),
                  Response(201, Registered(UserInfo(userId, stored, userType.value, name))))
  }

  /** `register_user` as written: it reads `businessName` and `gstNumber`. */
  function RegisterUserAsWritten(db: Db, req: RegisterBody, userId: int, profileId: int): Handled {
    RegisterWith(db, req, "businessName", "gstNumber", userId, profileId)
  }

  /** `register_user` reading the keys the client sends. */
  function RegisterUser(db: Db, req: RegisterBody, userId: int, profileId: int): Handled {
    RegisterWith(db, req, "business_name", "gst_number", userId, profileId)
  }

  /** The body `register` in src/context/AuthContext.tsx posts. */
  function ClientBody(d: Session.RegisterData): (b: RegisterBody)
    ensures Get(b.user, "email") == Some(d.email) && Get(b.user, "password") == Some(d.password)
    ensures Get(b.fields, "businessName").None? && Get(b.fields, "gstNumber").None?
    ensures Get(b.fields, "user_type") == Some(d.userType)
    ensures Get(b.fields, "business_name") == Some(d.businessName)
    ensures Get(b.fields, "gst_number") == Some(d.gstNumber)
    ensures Get(b.fields, "phone") == Some(d.phone) && Get(b.fields, "address") == Some(d.address)
  {
    var user := map["email" := Str(d.email), "password" := Str(d.password)];
    var fields := map["user_type" := Str(d.userType), "business_name" := Str(d.businessName), "phone" := Str(d.phone),
                      "gst_number" := Str(d.gstNumber), "address" := Str(d.address)];
    assert "email" in user && "password" in user;
    assert "user_type" in fields && "business_name" in fields && "gst_number" in fields;
    assert "phone" in fields && "address" in fields;
    RegisterBody(user, fields)
  }

  /** Against the view as written, every registration the client sends
      is refused and stores nothing: either the type is refused, or the
      business name read under the wrong key is `None`. */
  lemma ClientRegistrationRefused(db: Db, d: Session.RegisterData, userId: int, profileId: int)
    ensures RegisterUserAsWritten(db, ClientBody(d), userId, profileId).response.status == 400
    ensures RegisterUserAsWritten(db, ClientBody(d), userId, profileId).db == db
  {
  }

  /** Against the corrected view, a client registration is accepted
      exactly when the type is whitelisted and the e-mail is non-empty and
      unused, and the profile stores what the user typed. */
  lemma ClientRegistrationAccepted(db: Db, d: Session.RegisterData, userId: int, profileId: int)
    ensures RegisterUser(db, ClientBody(d), userId, profileId).response.status == 201 <==>
      (d.userType == "retailer" || d.userType == "supplier") && d.email != "" && !IsUsernameTaken(db, d.email)
    ensures RegisterUser(db, ClientBody(d), userId, profileId).response.status == 201 ==>
      RegisterUser(db, ClientBody(d), userId, profileId).db.profiles[|db.profiles|]
        == Profile(profileId, userId, d.userType, d.businessName, Some(d.phone), Some(d.gstNumber), Some(d.address))
  {
  }

  /** Fintech users cannot register through this view. */
  lemma FintechRegistrationRefused(db: Db, req: RegisterBody, userId: int, profileId: int)
    requires Get(req.fields, "user_type") == Some("fintech")
    ensures RegisterUser(db, req, userId, profileId) == Handled(db, Response(400, Error("Invalid user type")))
  {
  }

  /** A first name sent as `null` is refused, and nothing is stored. */
  lemma NullFirstNameRefused(db: Db, req: RegisterBody, userId: int, profileId: int)
    requires "firstName" in req.user && req.user["firstName"] == Null
    ensures RegisterUser(db, req, userId, profileId).response.status == 400
    ensures RegisterUser(db, req, userId, profileId).db == db
  {
  }

  /** A first name left out is stored as the empty string; one sent is
      stored as sent. */
  lemma FirstNameStored(db: Db, req: RegisterBody, userId: int, profileId: int)
    requires RegisterUser(db, req, userId, profileId).response.status == 201
    ensures "firstName" !in req.user ==> RegisterUser(db, req, userId, profileId).db.accounts[|db.accounts|].firstName == ""
    ensures "firstName" in req.user ==>
      req.user["firstName"] == Str(RegisterUser(db, req, userId, profileId).db.accounts[|db.accounts|].firstName)
  {
  }

  predicate UniqueUsernames(db: Db) {
    forall i, j :: 0 <= i < j < |db.accounts| ==> db.accounts[i].username != db.accounts[j].username
  }

  /** The uniqueness of usernames that the database enforces survives a
      registration. */
  lemma {:induction false} RegisterKeepsUsernamesUnique(db: Db, req: RegisterBody, userId: int, profileId: int)
    requires UniqueUsernames(db)
    ensures UniqueUsernames(RegisterUser(db, req, userId, profileId).db)
  {
    var r := RegisterUser(db, req, userId, profileId);
    if r.response.status == 201 {
      var a := r.db.accounts;
      var n := |db.accounts|;
      assert a[n].username == Get(req.user, "email").value;
      forall i, j | 0 <= i < j < |a| ensures a[i].username != a[j].username {
        if j == n {
          assert a[i] == db.accounts[i];
          assert a[i] in db.accounts;
        } else {
          assert a[i] == db.accounts[i] && a[j] == db.accounts[j];
        }
      }
    }
  }

  // ---------------------------------------------------------------------
  // login_view

  predicate HasEmail(a: Account, email: Option<string>) {
    email == Some(a.email)
  }

  /** `check_password`: an unusable password matches nothing, and neither
      does a missing one. */
  predicate PasswordMatches(a: Account, password: Option<string>) {
    a.password.Some? && password == a.password
  }

  /** `User.objects.filter(email=...)`: the accounts with the e-mail, in
      table order; `get` succeeds exactly when there is one. */
  function AccountsWithEmail(db: Db, email: Option<string>): (r: seq<Account>)
    ensures forall a :: a in r <==> a in db.accounts && HasEmail(a, email)
  {
    var r := Filter(db.accounts, (a: Account) => HasEmail(a, email));
    forall a ensures a in r <==> a in db.accounts && HasEmail(a, email) {
      FilterKeepsExactly(db.accounts, (a: Account) => HasEmail(a, email), a);
    }
    r
  }

  /** `login_view`. `User.objects.get(email=...)` fails with 400 when no
      account has the e-mail; several accounts with it, or an account
      without a profile, raise an exception the view does not catch. The
      answer carries no token. */
  function LoginView(db: Db, email: Option<string>, password: Option<string>): (r: Response)
    ensures r.status == 200 || r.status == 400 || r.status == 500
    ensures |AccountsWithEmail(db, email)| > 1 ==> r == Response(500, ServerError)
    ensures |AccountsWithEmail(db, email)| == 1 ==>
      var a := AccountsWithEmail(db, email)[0];
      (!PasswordMatches(a, password) ==> r == Response(400, Error("Invalid credentials")))
      && (PasswordMatches(a, password) && ProfileOf(db, a.id).None? ==> r == Response(500, ServerError))
      && (PasswordMatches(a, password) && ProfileOf(db, a.id).Some? ==>
            var p := ProfileOf(db, a.id).value;
            r == Response(200, LoggedIn(UserInfo(a.id, a.email, p.userType, p.businessName))))
    ensures (forall a :: a in db.accounts ==> !HasEmail(a, email)) ==>
      r == Response(400, Error("Invalid credentials"))
    ensures r.status == 200 ==> r.body.LoggedIn?
    ensures r.status == 200 ==>
      exists a :: (a in db.accounts && HasEmail(a, email) && PasswordMatches(a, password)
                   && r.body.user.id == a.id && r.body.user.email == a.email)
    ensures r.status == 200 ==>
      exists p :: (p in db.profiles && p.user == r.body.user.id
                   && r.body.user.userType == p.userType && r.body.user.businessName == p.businessName)
    ensures r.status == 400 ==> r.body == Error("Invalid credentials")
  {
    var matches := AccountsWithEmail(db, email);
    if |matches| == 0 then
      assert forall a :: a in db.accounts ==> !HasEmail(a, email) by {
        forall a | a in db.accounts ensures !HasEmail(a, email) {
          FilterKeepsExactly(db.accounts, (a: Account) => HasEmail(a, email), a);
        }
      }
      Response(400, Error("Invalid credentials"))
    else if |matches| > 1 then
      Response(500, ServerError)
    else
      var a := matches[0];
      FilterKeepsExactly(db.accounts, (a: Account) => HasEmail(a, email), a);
      if !PasswordMatches(a, password) then
        Response(400, Error("Invalid credentials"))
      else
        match ProfileOf(db, a.id)
        case None => Response(500, ServerError)
        case Some(p) => Response(200, LoggedIn(UserInfo(a.id, a.email, p.userType, p.businessName)))
  }

  /** Appending an account with an e-mail no other account has makes it
      the only match for that e-mail. */
  lemma {:induction false} OnlyNewAccountMatches(accounts: seq<Account>, account: Account)
    requires forall a :: a in accounts ==> a.email != account.email
    ensures Filter(accounts + [account], (a: Account) => HasEmail(a, Some(account.email))) == [account]
  {
    var has := (a: Account) => HasEmail(a, Some(account.email));
    var none := Filter(accounts, has);
    if |none| > 0 {
      FilterKeepsExactly(accounts, has, none[0]);
    }
    FilterAppend(accounts, [account], has);
    assert Filter([account], has) == [account];
  }

  /** Appending a profile for a user who had none makes it that user's. */
  lemma {:induction false} NewProfileFound(db: Db, profile: Profile)
    requires forall p :: p in db.profiles ==> p.user != profile.user
    ensures ProfileOf(db.(profiles := db.profiles + [profile]), profile.user) == Some(profile)
  {
    var ps := db.profiles + [profile];
    var i := FindFirst(ps, (p: Profile) => p.user == profile.user);
    assert ps[|db.profiles|] == profile;
    assert forall k :: 0 <= k < |db.profiles| ==> ps[k] == db.profiles[k];
  }

  /** A corrected registration with a password can be logged into at once
      with the password and the e-mail as stored, provided no other account
      already had that e-mail and the new user id has no profile yet. */
  lemma {:induction false} RegisterThenLogin(db: Db, req: RegisterBody, userId: int, profileId: int)
    requires RegisterUser(db, req, userId, profileId).response.status == 201
    requires Get(req.user, "password").Some?
    requires forall a :: a in db.accounts ==> a.email != NormalizeEmail(Get(req.user, "email").value)
    requires forall p :: p in db.profiles ==> p.user != userId
    ensures LoginView(RegisterUser(db, req, userId, profileId).db,
                      Some(NormalizeEmail(Get(req.user, "email").value)), Some(Get(req.user, "password").value))
         == Response(200, LoggedIn(RegisterUser(db, req, userId, profileId).response.body.user))
  {
    var r := RegisterUser(db, req, userId, profileId);
    var account := r.db.accounts[|db.accounts|];
    var profile := r.db.profiles[|db.profiles|];
    assert r.db.accounts == db.accounts + [account];
    assert r.db.profiles == db.profiles + [profile];
    OnlyNewAccountMatches(db.accounts, account);
    NewProfileFound(r.db.(profiles := db.profiles), profile);
    assert r.db.(profiles := db.profiles).(profiles := db.profiles + [profile]) == r.db;
  }

  /** An e-mail typed stripped and with a lower-case domain logs in as
      typed. */
  lemma RegisterThenLoginAsTyped(db: Db, req: RegisterBody, userId: int, profileId: int)
    requires RegisterUser(db, req, userId, profileId).response.status == 201
    requires Get(req.user, "password").Some?
    requires NormalizeEmail(Get(req.user, "email").value) == Get(req.user, "email").value
    requires forall a :: a in db.accounts ==> a.email != Get(req.user, "email").value
    requires forall p :: p in db.profiles ==> p.user != userId
    ensures LoginView(RegisterUser(db, req, userId, profileId).db, Some(Get(req.user, "email").value), Some(Get(req.user, "password").value))
         == Response(200, LoggedIn(RegisterUser(db, req, userId, profileId).response.body.user))
  {
    RegisterThenLogin(db, req, userId, profileId);
  }

  /** An e-mail that normalisation changes, `x@Example.com` say, cannot be
      logged into as typed: the lookup compares it with the stored,
      normalised e-mail. */
  lemma {:induction false} RegisterThenLoginAsTypedFails(db: Db, req: RegisterBody, userId: int, profileId: int,
                                                          password: Option<string>)
    requires RegisterUser(db, req, userId, profileId).response.status == 201
    requires NormalizeEmail(Get(req.user, "email").value) != Get(req.user, "email").value
    requires forall a :: a in db.accounts ==> a.email != Get(req.user, "email").value
    ensures LoginView(RegisterUser(db, req, userId, profileId).db, Some(Get(req.user, "email").value), password)
         == Response(400, Error("Invalid credentials"))
  {
    var r := RegisterUser(db, req, userId, profileId);
    var e := Get(req.user, "email").value;
    assert r.db.accounts == db.accounts + [r.db.accounts[|db.accounts|]];
    assert r.db.accounts[|db.accounts|].email == NormalizeEmail(e);
    forall a | a in r.db.accounts ensures !HasEmail(a, Some(e)) {
      if a !in db.accounts {
        assert a == r.db.accounts[|db.accounts|];
      }
    }
  }

  // ---------------------------------------------------------------------
  // get_retailer_details

  /** A ratio of two counts compared with a fraction, by
      cross-multiplication. */
  lemma RatioAbove(p: nat, t: nat, n: nat, d: nat)
    requires t > 0 && d > 0
    ensures (p as real) / (t as real) > (n as real) / (d as real) <==> d * p > n * t
  {
    var x := (p as real) / (t as real);
    var y := (n as real) / (d as real);
    assert x * (t as real) == p as real;
    assert y * (d as real) == n as real;
    assert x > y <==> x * (t as real) * (d as real) > y * (d as real) * (t as real);
    assert (d * p) as real == (d as real) * (p as real);
    assert (n * t) as real == (n as real) * (t as real);
  }

  /** The grading of `get_retailer_details`: `paid / total` compared
      with 0.9 and 0.7, with no grade at all for a pair without dues. */
  function Grade(total: nat, paid: nat): (h: PaymentHistory)
    ensures h == New <==> total == 0
    ensures total > 0 ==> (h == Excellent <==> (paid as real) / (total as real) > 0.9)
    ensures total > 0 ==> (h == Good <==> 0.7 < (paid as real) / (total as real) <= 0.9)
    ensures total > 0 ==> (h == Fair <==> (paid as real) / (total as real) <= 0.7)
  {
    if total == 0 then New
    else
      RatioAbove(paid, total, 9, 10);
      RatioAbove(paid, total, 7, 10);
      if 10 * paid > 9 * total then Excellent
      else if 10 * paid > 7 * total then Good
      else Fair
  }

  function GradeRank(h: PaymentHistory): nat {
    match h
    case New => 0
    case Fair => 1
    case Good => 2
    case Excellent => 3
  }

  /** More paid dues out of the same total never lower the grade. */
  lemma GradeMonotone(total: nat, paid: nat, paid': nat)
    requires paid <= paid'
    ensures GradeRank(Grade(total, paid)) <= GradeRank(Grade(total, paid'))
  {
  }

  /** The dues between one supplier and one retailer. */
  function PairDues(dues: seq<Due>, supplier: int, retailer: int): (r: seq<Due>)
    ensures forall d :: d in r <==> d in dues && d.supplier == supplier && d.retailer == retailer
    ensures IsSubsequence(r, dues)
  {
    var p := (d: Due) => d.supplier == supplier && d.retailer == retailer;
    assert forall d :: d in Filter(dues, p) <==> d in dues && p(d) by {
      forall d { FilterKeepsExactly(dues, p, d); }
    }
    Filter(dues, p)
  }

  predicate IsUnpaid(d: Due) {
    d.status == Pending || d.status == Overdue
  }

  function DueAmount(d: Due): int { d.amount }

  function UnpaidOrZero(d: Due): int {
    if d.status == Paid then 0 else d.amount
  }

  /** `filter(status__in=['pending', 'overdue']).aggregate(Sum('amount'))
      ['total'] or 0`. */
  function Outstanding(dues: seq<Due>): int {
    SumOf(Filter(dues, IsUnpaid), DueAmount)
  }

  /** The outstanding amount is the amount of every due that is not paid. */
  lemma {:induction false} OutstandingIsUnpaidTotal(dues: seq<Due>)
    ensures Outstanding(dues) == SumOf(dues, UnpaidOrZero)
  {
    if |dues| > 0 {
      OutstandingIsUnpaidTotal(dues[1..]);
      assert dues == [dues[0]] + dues[1..];
    }
  }

  function PaidCount(dues: seq<Due>): (n: nat)
    ensures n <= |dues|
  {
    |Filter(dues, (d: Due) => d.status == Paid)|
  }

  predicate NewerTransaction(a: Transaction, b: Transaction) {
    a.createdAt >= b.createdAt
  }

  predicate InPair(t: Transaction, supplier: int, retailer: int) {
    t.supplier == supplier && t.retailer == retailer
  }

  /** The pair's transactions, newest first. */
  function PairTransactionsNewestFirst(txs: seq<Transaction>, supplier: int, retailer: int): (r: seq<Transaction>)
    ensures forall t :: t in r <==> t in txs && InPair(t, supplier, retailer)
    ensures forall i, j :: 0 <= i < j < |r| ==> r[i].createdAt >= r[j].createdAt
  {
    var p := (t: Transaction) => InPair(t, supplier, retailer);
    var pair := Filter(txs, p);
    var sorted := Sorting.SortBy(pair, NewerTransaction);
    PermutationKeepsMembers(sorted, pair);
    forall t | t in txs ensures t in pair <==> p(t) {
      FilterKeepsExactly(txs, p, t);
    }
    sorted
  }

  /** The first five of a newest-first list are at least as new as any
      element after them. */
  lemma NewestFiveKept(sorted: seq<Transaction>)
    requires |sorted| > 5
    requires forall i, j :: 0 <= i < j < |sorted| ==> sorted[i].createdAt >= sorted[j].createdAt
    ensures forall t :: t in sorted && t !in sorted[..5] ==>
      forall u :: u in sorted[..5] ==> u.createdAt >= t.createdAt
  {
    assert forall k :: 0 <= k < 5 ==> sorted[k] in sorted[..5];
    forall t, u | t in sorted && t !in sorted[..5] && u in sorted[..5] ensures u.createdAt >= t.createdAt {
      var k :| 0 <= k < |sorted| && sorted[k] == t;
      var i :| 0 <= i < 5 && sorted[..5][i] == u;
      assert sorted[i] == u;
    }
  }

  /** `Transaction.objects.filter(pair).order_by('-created_at')[:5]`. */
  function RecentTransactions(txs: seq<Transaction>, supplier: int, retailer: int): (r: seq<Transaction>)
    ensures |r| <= 5
    ensures forall t :: t in r ==> t in txs && InPair(t, supplier, retailer)
    ensures forall i, j :: 0 <= i < j < |r| ==> r[i].createdAt >= r[j].createdAt
    ensures forall t :: t in txs && InPair(t, supplier, retailer) && t !in r ==>
      |r| == 5 && forall u :: u in r ==> u.createdAt >= t.createdAt
  {
    var sorted := PairTransactionsNewestFirst(txs, supplier, retailer);
    if |sorted| <= 5 then sorted
    else
      NewestFiveKept(sorted);
      sorted[..5]
  }

  /** The body of a successful `get_retailer_details`. */
  function DetailsOf(db: Db, supplier: Profile, retailer: Profile): (r: RetailerDetails)
    ensures r.id == retailer.id && r.businessName == retailer.businessName
    ensures r.phone == retailer.phone && r.address == retailer.address
    ensures r.totalDues == |PairDues(db.dues, supplier.id, retailer.id)|
    ensures r.paidOnTime == PaidCount(PairDues(db.dues, supplier.id, retailer.id)) <= r.totalDues
    ensures r.paymentHistory == Grade(r.totalDues, r.paidOnTime)
    ensures r.outstanding == SumOf(PairDues(db.dues, supplier.id, retailer.id), UnpaidOrZero)
    ensures r.recentTransactions == RecentTransactions(db.transactions, supplier.id, retailer.id)
  {
    var pair := PairDues(db.dues, supplier.id, retailer.id);
    var total := |pair|;
    var paid := if total > 0 then PaidCount(pair) else 0;
    OutstandingIsUnpaidTotal(pair);
    RetailerDetails(retailer.id, retailer.businessName, retailer.phone, retailer.address,
                    Grade(total, paid), Outstanding(pair), total, paid,
                    RecentTransactions(db.transactions, supplier.id, retailer.id))
  }

  /** `get_retailer_details`. The two lookups come before the role check,
      so a missing retailer is reported as 404 even to a caller who may
      not see retailer details at all. */
  function RetailerDetailsView(db: Db, caller: int, retailerId: int): (r: Response)
    ensures ProfileOf(db, caller).None? ==> r == Response(404, NotFound)
    ensures ProfileOf(db, caller).Some? && RetailerProfileById(db, retailerId).None? ==> r == Response(404, NotFound)
    ensures r.status == 403 <==>
      ProfileOf(db, caller).Some? && RetailerProfileById(db, retailerId).Some? && ProfileOf(db, caller).value.userType != "supplier"
    ensures r.status == 403 ==> r.body == Error("Not authorized")
    ensures r.status == 200 <==>
      ProfileOf(db, caller).Some? && RetailerProfileById(db, retailerId).Some? && ProfileOf(db, caller).value.userType == "supplier"
    ensures r.status == 200 ==> r.body == RetailerInfo(DetailsOf(db, ProfileOf(db, caller).value, RetailerProfileById(db, retailerId).value))
  {
    match ProfileOf(db, caller)
    case None => Response(404, NotFound)
    case Some(me) =>
      match RetailerProfileById(db, retailerId)
      case None => Response(404, NotFound)
      case Some(retailer) =>
        if me.userType != "supplier" then Response(403, Error("Not authorized"))
        else Response(200, RetailerInfo(DetailsOf(db, me, retailer)))
  }

  /** Only a supplier learns anything about a retailer. */
  lemma RetailerDetailsOnlyForSuppliers(db: Db, caller: int, retailerId: int)
    requires ProfileOf(db, caller).Some? && ProfileOf(db, caller).value.userType != "supplier"
    ensures !RetailerDetailsView(db, caller, retailerId).body.RetailerInfo?
    ensures RetailerDetailsView(db, caller, retailerId).status == 403
        <==> exists p :: p in db.profiles && p.id == retailerId && p.userType == "retailer"
  {
  }

  // ---------------------------------------------------------------------
  // get_dues

  /** The dues a profile takes part in on the given side, newest first
      (the default ordering of `DueEntry`). */
  function DuesWhere(dues: seq<Due>, id: int, asSupplier: bool): (r: seq<Due>)
    ensures forall d :: multiset(r)[d] ==
                        (if (if asSupplier then d.supplier else d.retailer) == id then multiset(dues)[d] else 0)
    ensures forall i, j :: 0 <= i < j < |r| ==> r[i].createdAt >= r[j].createdAt
  {
    DefaultOrder(Filter(dues, (d: Due) => (if asSupplier then d.supplier else d.retailer) == id))
  }

  /** `get_dues`: a supplier sees the dues it gave, a retailer the dues it
      received; any other role is refused. */
  function GetDues(db: Db, caller: int): (r: Response)
    ensures ProfileOf(db, caller).None? ==> r == Response(404, NotFound)
    ensures ProfileOf(db, caller).Some? && ProfileOf(db, caller).value.userType == "supplier" ==>
      r == Response(200, DueList(DuesWhere(db.dues, ProfileOf(db, caller).value.id, true)))
    ensures ProfileOf(db, caller).Some? && ProfileOf(db, caller).value.userType == "retailer" ==>
      r == Response(200, DueList(DuesWhere(db.dues, ProfileOf(db, caller).value.id, false)))
    ensures r.status == 400 <==>
      (ProfileOf(db, caller).Some? &&
       ProfileOf(db, caller).value.userType != "supplier" && ProfileOf(db, caller).value.userType != "retailer")
    ensures r.status == 400 ==> r.body == Error("Invalid user type")
  {
    match ProfileOf(db, caller)
    case None => Response(404, NotFound)
    case Some(me) =>
      if me.userType == "supplier" then Response(200, DueList(DuesWhere(db.dues, me.id, true)))
      else if me.userType == "retailer" then Response(200, DueList(DuesWhere(db.dues, me.id, false)))
      else Response(400, Error("Invalid user type"))
  }

  /** A listed due always involves the caller on the caller's side, and
      every such due is listed. */
  lemma {:induction false} GetDuesListsExactlyOwnDues(db: Db, caller: int, d: Due)
    ensures GetDues(db, caller).body.DueList? ==>
      var me := ProfileOf(db, caller).value;
      (d in GetDues(db, caller).body.dues <==>
        d in db.dues && (if me.userType == "supplier" then d.supplier else d.retailer) == me.id)
  {
    if GetDues(db, caller).body.DueList? {
      var me := ProfileOf(db, caller).value;
      var r := GetDues(db, caller).body.dues;
      assert r == DuesWhere(db.dues, me.id, me.userType == "supplier");
      assert d in r <==> multiset(r)[d] > 0;
      assert d in db.dues <==> multiset(db.dues)[d] > 0;
    }
  }

  // ---------------------------------------------------------------------
  // create_due

  /** The fields of a `create_due` request. `supplier` is whatever the
      client put there; `status` is absent unless the client sent one. */
  datatype DueRequest = DueRequest(
    supplier: Option<int>, retailer: int, amount: int, description: string,
    purchaseDate: int, dueDate: int, status: Option<DueStatus>)

  /** `create_due`. `valid` is the serializer's verdict on the request
      with `supplier` replaced by the caller's profile id; `id` and `now`
      are the row id and creation time the database assigns. */
  function CreateDue(db: Db, caller: int, req: DueRequest, valid: bool, id: int, now: int): (r: Handled)
    ensures ProfileOf(db, caller).None? ==> r == Handled(db, Response(404, NotFound))
    ensures ProfileOf(db, caller).Some? && ProfileOf(db, caller).value.userType != "supplier" ==>
      r == Handled(db, Response(400, Error("Only suppliers can create dues")))
    ensures r.response.status == 201 <==>
      ProfileOf(db, caller).Some? && ProfileOf(db, caller).value.userType == "supplier" && valid
    ensures r.response.status != 201 ==> r.db == db
    ensures r.response.status == 201 ==>
      var due := Due(id, ProfileOf(db, caller).value.id, req.retailer, req.amount, req.description,
                     req.purchaseDate, req.dueDate, req.status.GetOr(Pending), now);
      r == Handled(db.(dues := db.dues + [due]), Response(201, DueRow(due)))
  {
    match ProfileOf(db, caller)
    case None => Handled(db, Response(404, NotFound))
    case Some(me) =>
      if me.userType != "supplier" then
        Handled(db, Response(400, Error("Only suppliers can create dues")))
      else if !valid then
        Handled(db, Response(400, Invalid))
      else
        var due := Due(id, me.id, req.retailer, req.amount, req.description,
                       req.purchaseDate, req.dueDate, req.status.GetOr(Pending), now);
        Handled(db.(dues := db.dues + [due]), Response(201, DueRow(due)))
  }

  /** The supplier the client claims makes no difference. */
  lemma CreateDueIgnoresClaimedSupplier(db: Db, caller: int, req: DueRequest, claimed: Option<int>,
                                        valid: bool, id: int, now: int)
    ensures CreateDue(db, caller, req.(supplier := claimed), valid, id, now) == CreateDue(db, caller, req, valid, id, now)
  {
  }

  // ---------------------------------------------------------------------
  // get_due_details

  predicate IsParty(d: Due, p: Profile) {
    d.supplier == p.id || d.retailer == p.id
  }

  /** `get_due_details`: only the due's supplier and its retailer may see it. */
  function DueDetails(db: Db, caller: int, dueId: int): (r: Response)
    ensures ProfileOf(db, caller).None? || DueIndex(db, dueId).None? ==> r == Response(404, NotFound)
    ensures r.status == 200 <==>
      ProfileOf(db, caller).Some? && DueIndex(db, dueId).Some? &&
      IsParty(db.dues[DueIndex(db, dueId).value], ProfileOf(db, caller).value)
    ensures r.status == 200 ==> r.body == DueRow(db.dues[DueIndex(db, dueId).value]) && r.body.due.id == dueId
    ensures r.status != 200 && r.status != 404 ==> r == Response(403, Error("Not authorized"))
  {
    match ProfileOf(db, caller)
    case None => Response(404, NotFound)
    case Some(me) =>
      match DueIndex(db, dueId)
      case None => Response(404, NotFound)
      case Some(i) =>
        if !IsParty(db.dues[i], me) then Response(403, Error("Not authorized"))
        else Response(200, DueRow(db.dues[i]))
  }

  /** Due ids are the table's primary key. */
  predicate UniqueDueIds(db: Db) {
    forall i, j :: 0 <= i < j < |db.dues| ==> db.dues[i].id != db.dues[j].id
  }

  /** Opened by its id, a due is shown exactly to a caller who is its
      supplier or its retailer; any other caller gets 403, and a caller
      without a profile 404. */
  lemma {:induction false} DueDetailsOnlyForParties(db: Db, caller: int, k: nat)
    requires k < |db.dues| && UniqueDueIds(db)
    ensures ProfileOf(db, caller).None? ==> DueDetails(db, caller, db.dues[k].id) == Response(404, NotFound)
    ensures ProfileOf(db, caller).Some? ==>
      DueDetails(db, caller, db.dues[k].id) ==
        if IsParty(db.dues[k], ProfileOf(db, caller).value) then Response(200, DueRow(db.dues[k]))
        else Response(403, Error("Not authorized"))
  {
    assert db.dues[k] in db.dues;
    var i := DueIndex(db, db.dues[k].id).value;
    assert db.dues[i].id == db.dues[k].id;
  }

  /** Every due in the caller's list opens by its id. */
  lemma {:induction false} ListedDueOpens(db: Db, caller: int, d: Due)
    requires UniqueDueIds(db)
    ensures GetDues(db, caller).body.DueList? && d in GetDues(db, caller).body.dues ==>
      DueDetails(db, caller, d.id) == Response(200, DueRow(d))
  {
    if GetDues(db, caller).body.DueList? && d in GetDues(db, caller).body.dues {
      GetDuesListsExactlyOwnDues(db, caller, d);
      var k :| 0 <= k < |db.dues| && db.dues[k] == d;
      DueDetailsOnlyForParties(db, caller, k);
    }
  }

  // ---------------------------------------------------------------------
  // make_payment

  /** `make_payment`. Only the due's retailer may pay it; a payment the
      serializer accepts (`valid`) marks the due paid, and nothing else
      in the model's tables changes. The payment row itself is not
      modelled. */
  function MakePayment(db: Db, caller: int, dueId: int, valid: bool): (r: Handled)
    ensures ProfileOf(db, caller).None? || DueIndex(db, dueId).None? ==> r == Handled(db, Response(404, NotFound))
    ensures r.response.status == 403 <==>
      ProfileOf(db, caller).Some? && DueIndex(db, dueId).Some? &&
      db.dues[DueIndex(db, dueId).value].retailer != ProfileOf(db, caller).value.id
    ensures r.response.status == 403 ==> r.response.body == Error("Not authorized")
    ensures r.response.status == 201 <==>
      ProfileOf(db, caller).Some? && DueIndex(db, dueId).Some? &&
      db.dues[DueIndex(db, dueId).value].retailer == ProfileOf(db, caller).value.id && valid
    ensures r.response.status != 201 ==> r.db == db
    ensures r.response.status == 201 ==>
      && r.db.accounts == db.accounts && r.db.profiles == db.profiles && r.db.transactions == db.transactions
      && |r.db.dues| == |db.dues|
      && r.db.dues[DueIndex(db, dueId).value] == db.dues[DueIndex(db, dueId).value].(status := Paid)
      && (forall k :: 0 <= k < |db.dues| && k != DueIndex(db, dueId).value ==> r.db.dues[k] == db.dues[k])
  {
    match ProfileOf(db, caller)
    case None => Handled(db, Response(404, NotFound))
    case Some(me) =>
      match DueIndex(db, dueId)
      case None => Handled(db, Response(404, NotFound))
      case Some(i) =>
        if db.dues[i].retailer != me.id then Handled(db, Response(403, Error("Not authorized")))
        else if !valid then Handled(db, Response(400, Invalid))
        else Handled(db.(dues := db.dues[i := db.dues[i].(status := Paid)]), Response(201, PaymentSaved))
  }

  /** Paying a due that is already paid changes nothing further. */
  lemma MakePaymentIdempotent(db: Db, caller: int, dueId: int)
    requires MakePayment(db, caller, dueId, true).response.status == 201
    ensures MakePayment(MakePayment(db, caller, dueId, true).db, caller, dueId, true)
         == MakePayment(db, caller, dueId, true)
  {
    var r := MakePayment(db, caller, dueId, true);
    var i := DueIndex(db, dueId).value;
    assert ProfileOf(r.db, caller) == ProfileOf(db, caller);
    assert forall k :: 0 <= k < i ==> r.db.dues[k].id == db.dues[k].id;
    assert DueIndex(r.db, dueId) == Some(i);
    assert r.db.dues[i := r.db.dues[i].(status := Paid)] == r.db.dues;
  }

  lemma {:induction false} SumOfUpdate(dues: seq<Due>, i: nat, d: Due)
    requires i < |dues|
    ensures SumOf(dues[i := d], UnpaidOrZero) == SumOf(dues, UnpaidOrZero) - UnpaidOrZero(dues[i]) + UnpaidOrZero(d)
  {
    if i == 0 {
      assert dues[i := d][1..] == dues[1..];
    } else {
      SumOfUpdate(dues[1..], i - 1, d);
      assert dues[i := d][1..] == dues[1..][i - 1 := d];
    }
  }

  /** A payment lowers what is owed in total by exactly the due's amount
      when it was still unpaid, and by nothing when it was already paid. */
  lemma PaymentLowersOutstanding(db: Db, caller: int, dueId: int)
    requires MakePayment(db, caller, dueId, true).response.status == 201
    ensures var i := DueIndex(db, dueId).value;
      Outstanding(MakePayment(db, caller, dueId, true).db.dues)
        == Outstanding(db.dues) - (if db.dues[i].status == Paid then 0 else db.dues[i].amount)
  {
    var i := DueIndex(db, dueId).value;
    var after := MakePayment(db, caller, dueId, true).db.dues;
    assert after == db.dues[i := db.dues[i].(status := Paid)];
    SumOfUpdate(db.dues, i, db.dues[i].(status := Paid));
    OutstandingIsUnpaidTotal(db.dues);
    OutstandingIsUnpaidTotal(after);
  }
}
